=== FILE: README.md ===
# Taxi Boy bookings, tours and guards — a Dafny model

Taxi Boy is a Lisbon private-tour site. This project models the part of it
that decides things:

- **Bookings**
  - the booking store over the `bookings` table: insert, read, filtered
    listing, date availability, update and soft delete;
  - the camelCase/snake_case mapper between bookings and table rows;
  - the server's form and patch schemas;
  - the `/api/bookings` route (query parsing, GET, POST);
  - the browser's bookings client (query string, request payload, error
    mapping);
  - the nightly reminder job.
- **Tours**
  - the static tour table and its lookup by id;
  - the three tour filters: the server-side `filterTours`, the
    `useTourFilters` hook and the gallery's `ToursFilter` component.
- **Guards**
  - the admin middleware's redirect decision;
  - the content webhook that revalidates cached pages.
- **Booking forms**
  - the client-side schema shared by both booking forms, with their
    defaults, select options and calendar.

Modules follow the source files:

| module | models |
|---|---|
| `Domain`, `Cms` (`domain.dfy`) | the booking record and the content service's tour shape |
| `Mapper` | `src/supabase/bookings/mapper.ts` |
| `Store` | `src/app/api/bookings/store.ts`: the class `BookingStore` holds the table (`rows: map<BookingId, BookingRow>`) and the id counter |
| `Schema` | `src/app/api/bookings/schema.ts` |
| `BookingsRoute` | `src/app/api/bookings/route.ts` |
| `BookingsClient` | `src/client/api/bookings.ts` |
| `SearchParams` | the `URLSearchParams` operations both of those use |
| `Reminders` | `src/app/api/bookings/reminders/route.ts` |
| `Tours`, `ToursApi` | `src/app/lib/tours.ts`, `src/app/lib/tours-api.ts` |
| `TourFilters` | `src/hooks/useTourFilters.ts`: the class `TourFilterState` holds the hook's three pieces of state |
| `ToursFilterView` | `src/views/tour/TourGallery/ToursFilter.tsx`: the class `ToursFilter` holds the component's state |
| `Middleware`, `Revalidate` | `src/middleware.ts`, `src/app/api/revalidate/route.ts` |
| `ClientForm`, `BookingFormView`, `LegacyBookingForm` | the schema of `src/components/booking/BookingForm.tsx` and `src/components/BookingForm.tsx`, and what each form adds |
| `Common`, `Json` | calendar days, subsequences, `Array.filter`, string helpers, and request bodies as JSON values |

Dates are calendar days (`Day = int`). A JavaScript `Date` is an
`Instant(day, millisecond of the day)`. "Today" is a parameter wherever the
source reads the clock.

Behaviour this code relies on but does not define is passed in as a
parameter:

- the Unicode letter class `\p{L}` and zod's e-mail check (`Externals`);
- `new Date(string)` (`parseDate`) and `Date.toISOString` (`isoText`);
- the content service's tour lookup (found, or null: `getTourByID` catches its own failures and yields null for them);
- whether sending a reminder e-mail succeeded;
- the conversion of a number to text.

## Model

| member | source | states |
|---|---|---|
| Domain.ParseStatus | src/domain/booking.ts:2 | a text is read as a booking status exactly when it is the text of one; the reading gives back that text |
| Domain.ParsePaymentStatus | src/domain/booking.ts:3 | the same for payment statuses |
| Domain.ParsePaymentMethod | src/domain/booking.ts:4 | the same for payment methods |
| Domain.EnumTextRoundTrip | src/supabase/bookings/mapper.ts:143-146 | reading back the stored text of any status, payment status or method gives the original value, so the row decoder's casts lose nothing |
| Json.Get | src/app/api/revalidate/route.ts:16 | reading a property of `null` throws; it is defined exactly for a key the object has, and is then that key's value |
| Mapper.ColumnNamesDistinct | src/supabase/bookings/mapper.ts:36-50 | the thirteen field-to-column names are pairwise distinct and none is `id`, `created_at`, `updated_at` or `deleted_at` |
| Mapper.MapBookingToInsert | src/supabase/bookings/mapper.ts:55-73 | every one of the thirteen columns of the insert holds its input field unchanged |
| Mapper.PatchToUpdate | src/supabase/bookings/mapper.ts:79-126 | each column of the update is present exactly when its patch field is defined, and then holds that value; a defined-but-null message or payment method becomes the column value null |
| Mapper.MapBookingPatchToUpdate | src/supabase/bookings/mapper.ts:79-126 | the step-by-step construction of the update yields the column-wise specification above |
| Mapper.PatchColumns | src/supabase/bookings/mapper.ts:79-126 | the update names exactly the columns of the defined patch fields, never a server-managed column, and an empty patch gives an empty update |
| Mapper.PatchDefinesColumn | src/supabase/bookings/mapper.ts:84-123 | a column is in the update if and only if its patch field is defined, including falsy values such as 0, "" and null |
| Mapper.FullPatch | src/supabase/bookings/mapper.ts:79-81 | the patch that defines every field of an input holds each field's value |
| Mapper.InsertAsUpdate | src/supabase/bookings/mapper.ts:36-50 | an insert seen as an update defines every column with the insert's value |
| Mapper.UpdateExtensionality | src/supabase/bookings/mapper.ts:79-126 | two updates that agree on every column are equal |
| Mapper.FullPatchMatchesInsert | src/supabase/bookings/mapper.ts:55-126 | for a complete input, the patch mapping equals the insert mapping |
| Mapper.MapRowToBooking | src/supabase/bookings/mapper.ts:131-151 | the decoded booking copies id, the three timestamps and the price verbatim, and every other field from its column |
| Mapper.InsertedRow | src/supabase/bookings/mapper.ts:13-31 | the row the table stores for an insert: the given id, no deletion time, and every column as inserted |
| Mapper.InputExtensionality | src/domain/booking.ts:6-23 | two booking inputs that agree on every field are equal |
| Mapper.EnumTextInjective | src/domain/booking.ts:2-3 | distinct statuses, and distinct payment statuses, have distinct texts |
| Mapper.InsertDecodeRoundTrip | src/supabase/bookings/mapper.ts:55-151 | decoding the row stored for an insert gives back the input's thirteen fields, the id and the timestamps, with no deletion time |
| Mapper.ApplyUpdate | src/app/api/bookings/store.ts:258-264 | an update changes exactly the columns it names, to the values it holds, and keeps id and timestamps |
| Mapper.PatchKeepsRowWellFormed | src/app/api/bookings/store.ts:249-276 | a patched row still holds valid enum text, so it can be decoded |
| Store.FindActive | src/app/api/bookings/store.ts:60-77 | finds a row exactly when the id exists and is not soft-deleted |
| Store.SoftDelete | src/app/api/bookings/store.ts:293-310 | reports true exactly when the id was active; no row is added or removed |
| Store.Update | src/app/api/bookings/store.ts:258-276 | returns a row exactly when the id was active; no row is added or removed |
| Store.InsertNewestFirst | src/app/api/bookings/store.ts:147 | inserting a booking into a listing adds exactly that booking (a permutation of old listing plus it) |
| Store.InsertKeepsNewestFirst | src/app/api/bookings/store.ts:147 | inserting into a newest-first listing keeps it newest-first |
| Store.InsertNewestFirstIds | src/app/api/bookings/store.ts:147 | inserting adds exactly the new booking's id and one element |
| Store.IdsCardinality | src/app/api/bookings/store.ts:160 | a listing has at least as many entries as distinct ids |
| Store.ListingStep | src/app/api/bookings/store.ts:149-160 | one more row visited keeps the listing equal to the matching rows seen so far |
| Store.DatesStep | src/app/api/bookings/store.ts:229-234 | one more row visited keeps the collected dates equal to the held days seen so far, without duplicates |
| Store.HeldDaysAreUnavailable | src/app/api/bookings/store.ts:206-238 | a day is among the held days from a date on exactly when it is no earlier and not available |
| Store.HeldOnQuery | src/app/api/bookings/store.ts:180-186 | the availability query selects exactly the active pending or confirmed rows on that day |
| Store.HeldFromQuery | src/app/api/bookings/store.ts:212-217 | the unavailable-dates query selects exactly the active pending or confirmed rows on or after today |
| Store.AvailableIffNoHolder | src/app/api/bookings/store.ts:174-194 | a day is available exactly when no active row on it is pending or confirmed |
| Store.BookingStore.CreateBooking | src/app/api/bookings/store.ts:24-51 | adds one row under a fresh id holding the input unchanged, and returns it decoded: the input's fields, that id, both timestamps `now`, not deleted; nothing else changes |
| Store.BookingStore.GetBookingById | src/app/api/bookings/store.ts:56-82 | returns a booking exactly when the id is active (null for unknown and for soft-deleted ids); it is never deleted and holds the row's fields |
| Store.BookingStore.ListingQuery | src/app/api/bookings/store.ts:105-144 | the chained query selects exactly the active rows matching every given filter (conjunction) |
| Store.ListingStages | src/app/api/bookings/store.ts:110-144 | the five optional filter stages, applied in order, select exactly the rows that match all of them |
| Store.Where | src/app/api/bookings/store.ts:112 | adding a clause keeps exactly the selected rows that satisfy it |
| Store.BookingStore.GetAllBookings | src/app/api/bookings/store.ts:101-165 | the listing holds each active matching row exactly once, decoded, newest created first |
| Store.BookingStore.IsDateAvailable | src/app/api/bookings/store.ts:174-199 | a date is available exactly when no active row on its day is pending or confirmed; cancelled or deleted rows never block it |
| Store.BookingStore.GetUnavailableDates | src/app/api/bookings/store.ts:206-243 | returns every day from today on that is not available, and each only once |
| Store.BookingStore.UpdateBooking | src/app/api/bookings/store.ts:249-281 | an active id gets exactly the patched columns changed and the updated booking returned; a missing or deleted id changes nothing and returns null |
| Store.BookingStore.DeleteBooking | src/app/api/bookings/store.ts:287-315 | an active booking gets its deletion time and true; otherwise nothing changes and false |
| Store.FutureIsNotPast | src/app/api/bookings/store.ts:123-137 | `future = b` selects the same bookings as `past = !b` |
| Store.FutureAndPastExclude | src/app/api/bookings/store.ts:123-137 | future and past both true, or both false, select nothing |
| Store.DateRangeExact | src/app/api/bookings/store.ts:140-144 | a date range alone selects exactly the active rows with start <= day < end |
| Store.ListingOnlyActive | src/app/api/bookings/store.ts:104-108 | every listed booking is active, so reading it by id finds it |
| Store.SoftDeleteIdempotent | src/app/api/bookings/store.ts:287-310 | deleting twice changes nothing the second time and reports false |
| Store.SoftDeleteHides | src/app/api/bookings/store.ts:287-310 | after a delete the booking is invisible to reads, listings and availability |
| Store.UpdateChangesOnlyPatchedFields | src/app/api/bookings/store.ts:249-276 | an update changes only the row it targets and, in it, only the patched columns |
| Store.CancelReleasesDate | src/app/api/bookings/store.ts:174-194 | patching a booking to cancelled removes it, and only it, from the holders of every day |
| Schema.KeyListed | src/app/api/bookings/schema.ts:14-51 | every key of the form schema is in its list of keys |
| Schema.FailingKeys | src/app/api/bookings/schema.ts:14-51 | a listed key fails exactly when its rule does |
| Schema.FormIssues | src/app/api/bookings/schema.ts:14-51 | the issues are exactly the keys whose rule fails; none exactly when the form is accepted |
| Schema.FailingKeysAgree | src/app/api/bookings/schema.ts:14-51 | two forms with the same rule outcomes have the same issues |
| Schema.AcceptedValuesAgree | src/app/api/bookings/schema.ts:14-51 | two accepted forms with the same entries parse to the same values |
| Schema.AcceptedValues | src/app/api/bookings/schema.ts:14-51 | an accepted form's values meet every field rule (name, email, phone, country, non-empty code, language and tour, date not before today, message up to 1000) and are the submitted entries |
| Schema.SafeParseForm | src/app/api/bookings/schema.ts:14-51 | succeeds exactly for an object meeting every rule, with its values; a non-object fails at the root; otherwise the failing keys are reported |
| Schema.FieldOkIgnoresOtherKey | src/app/api/bookings/schema.ts:14-51 | a field's rule depends only on its own key |
| Schema.FormIgnoresUnknownKeys | src/app/api/bookings/schema.ts:14-51 | the form schema is not strict: an extra key changes nothing |
| Schema.DateRuleIsCalendarDay | src/app/api/bookings/schema.ts:43-46 | "not before midnight today" holds exactly for dates on today or a later day |
| Schema.SafeParsePatch | src/app/api/bookings/schema.ts:58-66 | a patch is accepted exactly when it is an object of known keys with valid values; its price is positive, its message at most 1000 characters; each of the five fields is present exactly when its key is, and holds the status, payment status or method named by the body's text, or the body's own price or message |
| Schema.PatchRoundTrip | src/app/api/bookings/schema.ts:58-66 | any patch with a positive price and an acceptable message, sent as a body of exactly its fields, is read back unchanged |
| Schema.PatchRejectsUnknownKey | src/app/api/bookings/schema.ts:58-66 | any key outside the five (such as a date or tour id) rejects the patch at the root |
| Schema.ToBookingPatch | src/app/api/bookings/schema.ts:58-66 | a valid patch never sets a client, date or tour field and never clears the payment method; it sets status, payment status and price to the patch's own, and the payment method and message exactly when the patch gives them, to those values |
| Schema.PatchTouchesOnlyItsColumns | src/app/api/bookings/schema.ts:58-66 | the update of a valid patch names only status, payment status and method, price and message columns |
| Schema.TransformFormToBooking | src/app/api/bookings/schema.ts:73-104 | a new booking is pending, payment pending, without method, priced by its argument, and copies every form field one to one (a missing message stays missing) |
| SearchParams.ParamGet | src/app/api/bookings/route.ts:36-59 | a parameter is read exactly when present, and is then one of its values |
| SearchParams.RemoveName | src/client/api/bookings.ts:88-99 | removing a name leaves no occurrence and every other name as it was |
| SearchParams.SetFirst | src/client/api/bookings.ts:88-99 | replacing a present name reads back the new value and leaves other names as they were |
| SearchParams.ParamsSet | src/client/api/bookings.ts:88-99 | `set` reads back the new value, leaves other names alone, and appends when the name was absent |
| SearchParams.ParamGetAppend | src/client/api/bookings.ts:88-99 | reading a name in joined lists takes the first list's value first |
| SearchParams.ParseSerialize | src/client/api/bookings.ts:101-102 | parsing the text of plain parameters gives them back |
| BookingsRoute.BoolParam | src/app/api/bookings/route.ts:51-64 | a boolean is read exactly from "true" or "false", and is the one that text names |
| BookingsRoute.QueryFilters | src/app/api/bookings/route.ts:27-67 | each filter is set exactly when its parameter is a valid value, and then is that value; other values are dropped; no date range |
| BookingsRoute.ParseBookingsQuery | src/app/api/bookings/route.ts:27-67 | the step-by-step parse computes those filters |
| BookingsRoute.Get | src/app/api/bookings/route.ts:94-110 | answers 200; the listing `getAllBookings` computes for the parsed filters holds each matching active booking once, newest first |
| BookingsRoute.DateCoerced | src/app/api/bookings/route.ts:145-148 | the date coercion keeps every key, and changes no entry other than `date` |
| BookingsRoute.IssuePaths | src/app/api/bookings/route.ts:153-157 | a rejection reports at least one path: the root for a non-object, else the failing keys |
| BookingsRoute.PostDecision | src/app/api/bookings/route.ts:141-194 | malformed JSON is 400, a null body 500, and any answer other than creation is 400, 404 or 500; a creation uses a found tour's price, pending state and a day from today on; an accepted object body whose tour is found is created from the transformed form at that tour's price, and one whose tour the lookup does not return is 404; a refused form is 400 with its issue paths |
| BookingsRoute.Post | src/app/api/bookings/route.ts:141-194 | answers with the decision's status, 201 exactly when the decision is creation; then one row is inserted under the next id and the counter advances; otherwise the table is unchanged |
| BookingsRoute.PostTwice | src/app/api/bookings/route.ts:141-194 | the same creating request sent twice is answered 201 both times, and both new bookings hold the same day |
| BookingsRoute.PostValidationFailure | src/app/api/bookings/route.ts:151-158 | a refused form is answered 400 with its issues, whatever the tour lookup would say |
| BookingsRoute.PostTourNotFound | src/app/api/bookings/route.ts:163-170 | an accepted form for an unknown tour is answered 404 |
| BookingsRoute.PostNonObjectBody | src/app/api/bookings/route.ts:151-158 | a body that is not an object is refused at the root |
| BookingsRoute.DateStringChecked | src/app/api/bookings/route.ts:145-151 | a date string passes the date rule exactly when it parses to a day from today on |
| BookingsRoute.CreatedBookingHoldsItsDay | src/app/api/bookings/route.ts:173-176 | POST never consults availability: the created booking holds its day, so the day is no longer available to the availability check |
| BookingsClient.OptionalParam | src/client/api/bookings.ts:88-99 | an unset filter contributes no parameter, a set one exactly one |
| BookingsClient.BuildQueryString | src/client/api/bookings.ts:85-103 | the step-by-step builder yields the specified query string |
| BookingsClient.Names | src/client/api/bookings.ts:88-99 | the names of the parameters, in order |
| BookingsClient.FilterParamsOrder | src/client/api/bookings.ts:88-99 | parameters come in the order status, paymentStatus, future, past, each at most once |
| BookingsClient.FilterParamsGet | src/client/api/bookings.ts:88-99 | each parameter is present exactly when its filter is set (false included), with its text |
| BookingsClient.FilterParamsPlain | src/client/api/bookings.ts:88-99 | no parameter text needs escaping |
| BookingsClient.ToStoreFilters | src/client/api/bookings.ts:85-103 | the client's filters have no date range |
| BookingsClient.QueryRoundTrip | src/app/api/bookings/route.ts:27-67 | parsing the query string the client builds gives back exactly the client's filters |
| BookingsClient.QueryStringEmptyIff | src/client/api/bookings.ts:101-102 | the query string is empty exactly when no filter is set, and otherwise starts with `?` |
| BookingsClient.GetBookingsUrl | src/client/api/bookings.ts:126-131 | the listing request is `/api/bookings` followed by the filters' query string |
| BookingsClient.GetBookingsWithoutFilters | src/client/api/bookings.ts:126-131 | with no filters, or none set, the request carries no query string |
| BookingsClient.ApiFetch | src/client/api/bookings.ts:51-80 | data is returned exactly for a 2xx status (an unreadable body becomes `{}`); a non-2xx null body throws a type error; otherwise the error carries the status, the body's `error` when that is truthy and the fallback message otherwise, and the body's `details` (absent for an unreadable body) |
| BookingsClient.ApiFetchFallbackMessage | src/client/api/bookings.ts:63-77 | a failed response whose body is missing, unreadable or without a message reports "An unexpected error occurred" |
| BookingsClient.Payload | src/client/api/bookings.ts:108-121 | the request body carries the date as ISO text and a message exactly when one was given |
| BookingsClient.CoercedPayload | src/client/api/bookings.ts:108-121 | after the server's date coercion, the payload holds the form's entries and its date |
| BookingsClient.CoercedFieldOk | src/client/api/bookings.ts:108-121 | each server rule holds on the sent payload exactly when it holds on the form's own value |
| BookingsClient.CoercedPayloadAccepted | src/client/api/bookings.ts:108-121 | the server accepts the sent payload exactly when the form's values meet its rules |
| BookingsClient.PayloadRoundTrip | src/client/api/bookings.ts:108-121 | when they do, the server parses the payload back to exactly the form's values |
| Reminders.AuthorizedIsBearerToken | src/app/api/bookings/reminders/route.ts:44-55 | with a secret set, the job runs exactly when the header is "Bearer " followed by the secret |
| Reminders.TomorrowRange | src/app/api/bookings/reminders/route.ts:20-39 | the window starts tomorrow and ends, exclusively, one day later |
| Reminders.ReminderFilters | src/app/api/bookings/reminders/route.ts:61-63 | the job's query filters by that window only (no status filter) |
| Reminders.RemindsExactlyTomorrow | src/app/api/bookings/reminders/route.ts:61-63 | the job is given exactly the active bookings on tomorrow, cancelled ones included |
| Reminders.Classify | src/app/api/bookings/reminders/route.ts:77-109 | a booking is skipped exactly when its tour is missing, sent exactly when the tour is found and the send succeeds, and failed exactly when the tour is found and the send throws |
| Reminders.ClassifyAll | src/app/api/bookings/reminders/route.ts:76-110 | every booking is classified once, in order, under its own id |
| Reminders.CountStatus | src/app/api/bookings/reminders/route.ts:112-114 | a count never exceeds the number of results, and is zero exactly when no result has that status |
| Reminders.CountStatusOccurrences | src/app/api/bookings/reminders/route.ts:112-114 | each count is the number of occurrences of its status among the results |
| Reminders.CountsAddUp | src/app/api/bookings/reminders/route.ts:112-114 | sent, failed and skipped add up to the number of results |
| Reminders.Summarize | src/app/api/bookings/reminders/route.ts:65-135 | once the bookings are listed the job always answers 200; the total is the number of bookings and the three counts add up to it |
| Reminders.NoBookingsNoWork | src/app/api/bookings/reminders/route.ts:65-74 | with no bookings the answer is all zeros, whatever the lookup and the sender |
| Reminders.FailedSendsAreCounted | src/app/api/bookings/reminders/route.ts:93-108 | whatever the lookups return, failed sends do not stop the job: the failed count is the number of found tours whose send throws, the skipped count the number of missing tours, and the rest are sent |
| Reminders.MissingTourSkipped | src/app/api/bookings/reminders/route.ts:80-91 | a single booking whose tour is missing is answered 200 with total 1, skipped 1 |
| Reminders.OutcomeCounts | src/app/api/bookings/reminders/route.ts:112-114 | the failed and skipped counts of the outcomes are the failed sends and the missing tours |
| Reminders.GetReminders | src/app/api/bookings/reminders/route.ts:41-152 | unauthorised calls are answered 401 and process nothing; a failed query fails the job with 500; otherwise the job handles exactly tomorrow's bookings, each once and each with the contents of its stored row, and answers 200 with their summary |
| Reminders.ClassifyBookings | src/app/api/bookings/reminders/route.ts:76-110 | the loop over the bookings computes their classification |
| Tours.FindById | src/app/lib/tours.ts:267-269 | finds the first tour with the id, none exactly when no tour has it |
| Tours.GetTourById | src/app/lib/tours.ts:267-269 | returns a table tour with that id, undefined exactly when no tour has it |
| Tours.TourIdsDistinct | src/app/lib/tours.ts:38-265 | the eight tour ids are pairwise distinct |
| Tours.GetTourByIdUnique | src/app/lib/tours.ts:267-269 | every table tour is what its id looks up |
| Tours.TourLocationsKnown | src/app/lib/tours.ts:5-32 | every tour's locations are among LOCATIONS |
| Tours.HistoricLisbonPrice | src/app/lib/tours.ts:40-47 | "historic-lisbon" is found and costs 120 |
| ToursApi.FetchTours | src/app/lib/tours-api.ts:13-20 | the static tour table, unchanged |
| ToursApi.FilterTours | src/app/lib/tours-api.ts:26-51 | keeps, in order, exactly the tours matching search, location and duration |
| ToursApi.FilterToursIdentity | src/app/lib/tours-api.ts:32-50 | no query, no locations and "all" keep every tour |
| ToursApi.DurationBucketsPartition | src/app/lib/tours-api.ts:41-47 | short, medium and long put every duration in exactly one bucket |
| ToursApi.UnknownDurationKeepsNone | src/app/lib/tours-api.ts:41-47 | any other duration value keeps no tour |
| ToursApi.SearchIgnoresQueryCase | src/app/lib/tours-api.ts:33-35 | the search does not depend on the query's case |
| ToursApi.ToLowerIdempotent | src/app/lib/tours-api.ts:33-35 | lowercasing twice is lowercasing once |
| TourFilters.DurationRulesAgree | src/hooks/useTourFilters.ts:57-63 | the hook's duration buckets are exactly those of `filterTours` |
| TourFilters.FilteredTours | src/hooks/useTourFilters.ts:47-67 | keeps, in order, exactly the tours matching search, location and duration |
| TourFilters.InactiveFiltersShowAll | src/hooks/useTourFilters.ts:88-91 | with no active filter every tour is shown |
| TourFilters.DurationLabel | src/hooks/useTourFilters.ts:93-104 | each bucket has its label, and any other value is "All Durations" |
| TourFilters.InitialSearch | src/hooks/useTourFilters.ts:16-18 | the search starts from the `search` parameter, or empty |
| TourFilters.InitialLocations | src/hooks/useTourFilters.ts:19-26 | the locations start as the known entries of the comma-split `location` parameter, in order |
| TourFilters.InitialDuration | src/hooks/useTourFilters.ts:27-29 | the duration starts from a non-empty `duration` parameter, else "all" |
| TourFilters.Without | src/hooks/useTourFilters.ts:73 | removes every occurrence of a location and keeps the others in order |
| TourFilters.WithoutAbsent | src/hooks/useTourFilters.ts:78-80 | removing an absent location changes nothing |
| TourFilters.WithoutAppended | src/hooks/useTourFilters.ts:70-80 | removing a just-appended absent location restores the list |
| TourFilters.Toggled | src/hooks/useTourFilters.ts:70-76 | toggling removes a present location or appends an absent one, leaving the rest |
| TourFilters.ToggleTwice | src/hooks/useTourFilters.ts:70-76 | toggling an absent location twice restores the list |
| TourFilters.TourFilterState.constructor | src/hooks/useTourFilters.ts:16-29 | the state starts from the URL parameters |
| TourFilters.TourFilterState.SetSearchQuery | src/hooks/useTourFilters.ts:16 | sets the query and nothing else |
| TourFilters.TourFilterState.SetSelectedDuration | src/hooks/useTourFilters.ts:27 | sets the duration and nothing else |
| TourFilters.TourFilterState.ToggleLocation | src/hooks/useTourFilters.ts:70-76 | toggles the location and changes nothing else |
| TourFilters.TourFilterState.RemoveLocation | src/hooks/useTourFilters.ts:78-80 | removes the location (a no-op when absent) and changes nothing else |
| TourFilters.TourFilterState.ClearFilters | src/hooks/useTourFilters.ts:82-86 | resets all three, after which no filter is active |
| ToursFilterView.TimeFiltered | src/views/tour/TourGallery/ToursFilter.tsx:30-40 | keeps, in order, exactly the tours the time option admits (full day over 4 hours, half day up to 4) |
| ToursFilterView.LocationFiltered | src/views/tour/TourGallery/ToursFilter.tsx:43-47 | keeps, in order, exactly the tours visiting some selected location |
| ToursFilterView.TimeFiltersPartition | src/views/tour/TourGallery/ToursFilter.tsx:31-37 | full-day and half-day split every tour list between them |
| ToursFilterView.UnknownTimeKeepsNone | src/views/tour/TourGallery/ToursFilter.tsx:39 | any other time option keeps no tour |
| ToursFilterView.ToursFilter.constructor | src/views/tour/TourGallery/ToursFilter.tsx:22-25 | starts with no filter active |
| ToursFilterView.ToursFilter.SetTimeFilter | src/views/tour/TourGallery/ToursFilter.tsx:22 | sets the time filter and nothing else |
| ToursFilterView.ToursFilter.SetLocationsFilter | src/views/tour/TourGallery/ToursFilter.tsx:23 | sets the location filter and nothing else |
| ToursFilterView.ToursFilter.SelectedTours | src/views/tour/TourGallery/ToursFilter.tsx:27-51 | hands on, in order, exactly the tours passing the time filter and then the location filter (stated exactly for each combination of set filters); with no filter, all tours |
| ToursFilterView.ToursFilter.HandleClearFilters | src/views/tour/TourGallery/ToursFilter.tsx:53-56 | clears both filters, so the next result is every tour |
| Middleware.Decide | src/middleware.ts:16-69 | without the service configured every request passes; the login page sends a session to `/admin`; other `/admin` paths send a visitor without one to the login page; all else passes |
| Middleware.RedirectTargets | src/middleware.ts:52-65 | a redirect only leads to `/admin` or `/admin/login` |
| Middleware.NoRedirectLoop | src/middleware.ts:52-65 | the page a redirect leads to passes under the same session state |
| Middleware.Run | src/middleware.ts:72-78 | paths outside the matcher (`/admin` and `/admin/…`) pass without the guard; matched paths get the guard's answer, so with the service configured a matched page other than the login page passes exactly with a session |
| Middleware.RunNoRedirectLoop | src/middleware.ts:52-78 | the redirect targets are matched paths, so the page a redirect leads to passes under the same session |
| Middleware.PrefixGuard | src/middleware.ts:60-78 | the guard's own test is a prefix test that would redirect "/administrator", but the matcher never runs it there, so that path passes |
| Revalidate.Status | src/app/api/revalidate/route.ts:12-54 | 200 exactly on revalidation, 401 exactly on a wrong secret |
| Revalidate.Post | src/app/api/revalidate/route.ts:12-54 | revalidates exactly when a secret is configured and the body's secret is that string, and then exactly the root layout, home, tours and tour pages; an unreadable body fails |
| Revalidate.UnconfiguredAlwaysFails | src/app/api/revalidate/route.ts:17-24 | with no secret configured every body is answered 500 |
| Revalidate.WrongSecretRejected | src/app/api/revalidate/route.ts:26-31 | any parsed body other than `null` without the configured secret (an object with another or no secret, or a number, string or array) is answered 401 |
| Revalidate.GetStatus | src/app/api/revalidate/route.ts:60-65 | GET always answers 200 with the "active" message |
| ClientForm.FieldListed | src/components/booking/BookingForm.tsx:251-288 | every client field is in the list of fields |
| ClientForm.FailingFields | src/components/booking/BookingForm.tsx:251-288 | a listed field fails exactly when its rule does |
| ClientForm.ClientIssues | src/components/booking/BookingForm.tsx:251-288 | the marked fields are exactly those whose rule fails; none exactly when the form is accepted |
| ClientForm.ClientNameImpliesServerName | src/components/booking/BookingForm.tsx:252-259 | every name the client accepts (ASCII letters, whitespace, apostrophe, hyphen, 2 to 100) the server accepts too |
| ClientForm.ServerNameNotClientName | src/app/api/bookings/schema.ts:19-22 | not conversely: the server takes "J.", the client does not |
| ClientForm.RequestValues | src/components/booking/BookingForm.tsx:251-288 | the server form's values holding the client form's entries, field by field |
| ClientForm.ClientAcceptedMeetsServerRules | src/components/booking/BookingForm.tsx:251-288 | values the client accepts meet every rule of the server's form schema |
| BookingFormView.DefaultsNeedChoices | src/components/booking/BookingForm.tsx:35-40 | a form still at the default tour or language is refused, and that field is marked |
| BookingFormView.DefaultsPassTheirRules | src/components/booking/BookingForm.tsx:35-40 | the default country code and message meet their rules |
| BookingFormView.LanguageOptions | src/components/booking/BookingForm.tsx:62-65 | each language is its option's value and text |
| BookingFormView.TourOptions | src/components/booking/BookingForm.tsx:67-70 | each tour's option submits its id and shows title, " - €" and price |
| BookingFormView.TourOptionChosen | src/components/booking/BookingForm.tsx:67-70 | choosing a tour option satisfies the tour rule, and the text starts with the title |
| BookingFormView.CountryCodeOptions | src/components/booking/BookingForm.tsx:72-75 | each country's option submits its code and shows code and name |
| LegacyBookingForm.DefaultsAgree | src/components/BookingForm.tsx:49-55 | the legacy form starts from the same values as the current one |
| LegacyBookingForm.CalendarMatchesDateRule | src/components/BookingForm.tsx:323-325 | the calendar disables exactly the dates the date rule marks, the days before today |

## Left out

- Common.ToLower: lowercases Basic Latin and the Latin-1 Supplement only; letters of other scripts (Ł, Ź, Greek, Cyrillic) keep their case, so the tour search models case-insensitive matching for those two blocks only, because full Unicode case mapping tables are out of scope.

- `src/app/api/bookings/[id]/route.ts` is not part of this model. Its handlers call the store operations modelled here.
- Supabase, the content service and the e-mail service are not modelled. The store is a map of rows. A failed database call is modelled only as the reminder job's `queryFails`. The store operations themselves never fail.
- GET and POST in `src/app/api/bookings/route.ts` do not await the store's promise and pass the promise itself to `NextResponse.json`, so the client receives `{}` rather than the listing or the booking. The model returns what the store computes (the listing, the created booking), not the body actually sent.
- `Date.toISOString` and `split("T")` work in UTC while `setHours` works in local time. The model takes both on one calendar, so it has no time-zone shifts.
- A date column holds a calendar day. The full ISO timestamp that `transformFormToBooking` writes is stored as its day.
- String lengths count code points, not UTF-16 units.
- zod's e-mail check, the `\p{L}` letter class, `new Date(string)`, `toISOString` and number-to-text conversion are parameters, not definitions.
- Percent-encoding in `URLSearchParams` is not modelled. The query round trip is proved for parameter texts that need no escaping, which covers every text the client emits.
- Reminders: `Promise.all` runs the sends concurrently. The model runs them in order; since no lookup or send can reject, the outcomes are the same. The e-mail sent is not modelled, only whether the send succeeded.
- Validation issue details are reduced to the failing keys, or the root for a non-object body. zod's messages and codes are not kept.
- `useTourFilters` synchronising the filters into the URL with `router.replace` is not modelled. Neither are the component layouts, `handleSelectedTours` beyond its argument, or the dropdown option constants.
- The legacy form's tour option text is left out. Its euro sign is stored as the mis-encoded bytes "â‚¬", so it does not equal the current form's " - €".
- Both forms' `onSubmit` only wait and reset; no request is modelled for them. `COUNTRY_CODES` and the language list are parameters.
- The cookies the middleware copies onto its response are not modelled. Neither is how the session is read: it is the input `hasSession`.
- The `now` and `timestamp` fields of the revalidate responses, and the log calls, are left out.
- The client's `getBookingById`, `updateBooking` and `deleteBooking` only call `apiFetch` on a fixed path. That is modelled by `BookingsClient.ApiFetch` alone.
- Mapper.ApplyUpdate: keeps `updated_at` unchanged, because no code shown sets it on update.

=== FILE: booking_form.dfy ===
/**
 * The booking page's form: its initial values and the options of its
 * language, tour and country-code selects. Its validation rules are the
 * client schema of the `ClientForm` module.
 */
module BookingFormView {
  import opened Common
  import opened ClientForm
  import Cms

  /** The fields the form starts with; the others start unset. */
  datatype Defaults = Defaults(countryCode: string, message: string, tour: string, language: string)

  const DEFAULTS: Defaults := Defaults("+351", "", "", "")

  /** A form with the initial values and any other entries is not accepted until a tour and a language are chosen. */
  lemma {:induction false} DefaultsNeedChoices(ext: Schema.Externals, v: ClientFormValues, today: Day)
    requires v.tour == DEFAULTS.tour || v.language == DEFAULTS.language
    ensures !ClientAccepted(ext, v, today)
    ensures v.tour == DEFAULTS.tour ==> TourChoice in ClientIssues(ext, v, today)
    ensures v.language == DEFAULTS.language ==> Language in ClientIssues(ext, v, today)
  {
    if v.tour == DEFAULTS.tour {
      assert !ClientFieldOk(ext, v, TourChoice, today);
    } else {
      assert !ClientFieldOk(ext, v, Language, today);
    }
  }

  /** The default country code and message pass their rules. */
  lemma DefaultsPassTheirRules()
    ensures Schema.NonEmpty(DEFAULTS.countryCode) && Schema.MessageOk(DEFAULTS.message)
  {
  }

  /** An option of a select: the submitted value and the text shown. */
  datatype SelectOption = SelectOption(value: string, text: string)

  /** Each language is both the value and the text of its option. */
  function LanguageOptions(languages: seq<string>): (r: seq<SelectOption>)
    ensures |r| == |languages|
    ensures forall i :: 0 <= i < |r| ==> r[i].value == languages[i] && r[i].text == languages[i]
  {
    seq(|languages|, i requires 0 <= i < |languages| => SelectOption(languages[i], languages[i]))
  }

  /** The separator between a tour's title and its price in the tour select. */
  const PRICE_SEPARATOR: string := " - €"

  /**
   * Each tour's option submits its id and shows its title and price;
   * `numberText` is JavaScript's conversion of a number to text.
   */
  function TourOptions(tours: seq<Cms.Tour>, numberText: real -> string): (r: seq<SelectOption>)
    ensures |r| == |tours|
    ensures forall i :: 0 <= i < |r| ==>
      r[i].value == tours[i].id && r[i].text == tours[i].title + PRICE_SEPARATOR + numberText(tours[i].price)
  {
    seq(|tours|, i requires 0 <= i < |tours| =>
      SelectOption(tours[i].id, tours[i].title + PRICE_SEPARATOR + numberText(tours[i].price)))
  }

  /**
   * Choosing the option of a tour with a non-empty id satisfies the tour
   * rule, and the title can be read back from the start of the text.
   */
  lemma {:induction false} TourOptionChosen(tours: seq<Cms.Tour>, numberText: real -> string, i: nat,
                                            ext: Schema.Externals, v: ClientFormValues, today: Day)
    requires i < |tours| && tours[i].id != ""
    requires v.tour == TourOptions(tours, numberText)[i].value
    ensures ClientFieldOk(ext, v, TourChoice, today)
    ensures IsPrefix(tours[i].title, TourOptions(tours, numberText)[i].text)
  {
    var text := TourOptions(tours, numberText)[i].text;
    assert text[..|tours[i].title|] == tours[i].title;
  }

  /** Each country's option submits its code and shows the code and the country's name. */
  function CountryCodeOptions(codes: seq<(string, string)>): (r: seq<SelectOption>)
    ensures |r| == |codes|
    ensures forall i :: 0 <= i < |r| ==> r[i].value == codes[i].0 && r[i].text == codes[i].0 + " " + codes[i].1
  {
    seq(|codes|, i requires 0 <= i < |codes| => SelectOption(codes[i].0, codes[i].0 + " " + codes[i].1))
  }
}

=== FILE: bookings_client.dfy ===
/**
 * The browser-side bookings API client: the query string of a listing
 * request, the URL `getBookings` fetches, the payload `createBooking`
 * posts, and how `apiFetch` turns a response into data or an error.
 */
module BookingsClient {
  import opened Common
  import opened Json
  import opened Domain
  import opened SearchParams
  import opened Schema
  import Store
  import BookingsRoute
  import Mapper

  /** `BookingsFilters`: the listing filters a client may send. */
  datatype ClientFilters = ClientFilters(
    status: Option<BookingStatus>,
    paymentStatus: Option<PaymentStatus>,
    future: Option<bool>,
    past: Option<bool>)

  const NO_CLIENT_FILTERS: ClientFilters := ClientFilters(None, None, None, None)

  /** The parameter names, in the order they are emitted. */
  const PARAM_NAMES: seq<string> := ["status", "paymentStatus", "future", "past"]

  /** A single parameter when the value is set, none otherwise. */
  function OptionalParam(name: string, value: Option<string>): (ps: Params)
    ensures value.None? ==> ps == []
    ensures value.Some? ==> ps == [(name, value.value)]
  {
    if value.Some? then [(name, value.value)] else []
  }

  function StatusParam(f: ClientFilters): Params {
    OptionalParam("status", if f.status.Some? then Some(StatusText(f.status.value)) else None)
  }

  function PaymentStatusParam(f: ClientFilters): Params {
    OptionalParam("paymentStatus", if f.paymentStatus.Some? then Some(PaymentStatusText(f.paymentStatus.value)) else None)
  }

  function FutureParam(f: ClientFilters): Params {
    OptionalParam("future", if f.future.Some? then Some(BookingsRoute.BoolText(f.future.value)) else None)
  }

  function PastParam(f: ClientFilters): Params {
    OptionalParam("past", if f.past.Some? then Some(BookingsRoute.BoolText(f.past.value)) else None)
  }

  /** The parameters of a listing request, in emission order. */
  function FilterParams(f: ClientFilters): Params {
    StatusParam(f) + PaymentStatusParam(f) + FutureParam(f) + PastParam(f)
  }

  /** `?` followed by the parameters, or nothing when there are none. */
  function QueryString(f: ClientFilters): string {
    var q := Serialize(FilterParams(f));
    if q != "" then "?" + q else ""
  }

  /** `buildQueryString`: sets each defined filter on a fresh `URLSearchParams`. */
  method BuildQueryString(filters: ClientFilters) returns (qs: string)
    ensures qs == QueryString(filters)
  {
    var params: Params := [];
    if filters.status.Some? {
      params := ParamsSet(params, "status", StatusText(filters.status.value));
    }
    assert params == StatusParam(filters);
    if filters.paymentStatus.Some? {
      assert !HasName(params, "paymentStatus");
      params := ParamsSet(params, "paymentStatus", PaymentStatusText(filters.paymentStatus.value));
    }
    assert params == StatusParam(filters) + PaymentStatusParam(filters);
    if filters.future.Some? {
      assert !HasName(params, "future");
      params := ParamsSet(params, "future", BookingsRoute.BoolText(filters.future.value));
    }
    assert params == StatusParam(filters) + PaymentStatusParam(filters) + FutureParam(filters);
    if filters.past.Some? {
      assert !HasName(params, "past");
      params := ParamsSet(params, "past", BookingsRoute.BoolText(filters.past.value));
    }
    assert params == FilterParams(filters);
    var queryString := Serialize(params);
    qs := if queryString != "" then "?" + queryString else "";
  }

  /** The names of a parameter list, in order. */
  function Names(ps: Params): (names: seq<string>)
    ensures |names| == |ps| && forall i :: 0 <= i < |ps| ==> names[i] == ps[i].0
  {
    seq(|ps|, i requires 0 <= i < |ps| => ps[i].0)
  }

  /** A list of at most the one name `n` in front of a sublist is a sublist of `n` in front. */
  lemma {:induction false} SubsequenceOptionalCons(x: seq<string>, n: string, a: seq<string>, b: seq<string>)
    requires x == [] || x == [n]
    requires Subsequence(a, b)
    ensures Subsequence(x + a, [n] + b)
  {
    assert ([n] + b)[1..] == b;
    if x == [] {
      assert x + a == a;
      SubsequenceConsRight(a, [n] + b);
    } else {
      SubsequenceConsBoth(a, [n] + b);
    }
  }

  /**
   * The parameters come in the order status, paymentStatus, future, past,
   * each at most once.
   */
  lemma {:induction false} FilterParamsOrder(f: ClientFilters)
    ensures Subsequence(Names(FilterParams(f)), PARAM_NAMES)
  {
    var a, b, c, d := StatusParam(f), PaymentStatusParam(f), FutureParam(f), PastParam(f);
    assert Names(FilterParams(f)) == Names(a) + (Names(b) + (Names(c) + Names(d)));
    SubsequenceOptionalCons(Names(d), "past", [], []);
    assert Names(d) + [] == Names(d);
    SubsequenceOptionalCons(Names(c), "future", Names(d), ["past"]);
    SubsequenceOptionalCons(Names(b), "paymentStatus", Names(c) + Names(d), ["future", "past"]);
    SubsequenceOptionalCons(Names(a), "status", Names(b) + (Names(c) + Names(d)), ["paymentStatus", "future", "past"]);
  }

  /** Looking a name up in an optional parameter. */
  lemma {:induction false} OptionalParamGet(name: string, value: Option<string>, other: string)
    ensures ParamGet(OptionalParam(name, value), other) == if other == name then value else None
  {
    if value.Some? {
      assert OptionalParam(name, value)[1..] == [];
    }
  }

  lemma {:induction false} PlainParamsAppend(a: Params, b: Params)
    requires PlainParams(a) && PlainParams(b)
    ensures PlainParams(a + b)
  {
    forall i | 0 <= i < |a + b| ensures (a + b)[i].0 != [] && PlainText((a + b)[i].0) && PlainText((a + b)[i].1) {
      if i < |a| {
        assert (a + b)[i] == a[i];
      } else {
        assert (a + b)[i] == b[i - |a|];
      }
    }
  }

  lemma {:induction false} OptionalParamPlain(name: string, value: Option<string>)
    requires name != [] && PlainText(name)
    requires value.Some? ==> PlainText(value.value)
    ensures PlainParams(OptionalParam(name, value))
  {
  }

  /** The parameter names and the texts of the filter values are plain. */
  lemma {:induction false} FilterTextsPlain(s: BookingStatus, p: PaymentStatus, b: bool)
    ensures PlainText("status") && PlainText("paymentStatus") && PlainText("future") && PlainText("past")
    ensures PlainText(StatusText(s)) && PlainText(PaymentStatusText(p)) && PlainText(BookingsRoute.BoolText(b))
  {
  }

  /** Every parameter the client sends needs no encoding. */
  lemma {:induction false} FilterParamsPlain(f: ClientFilters)
    ensures PlainParams(FilterParams(f))
  {
    var s := if f.status.Some? then f.status.value else Pending;
    var p := if f.paymentStatus.Some? then f.paymentStatus.value else Paid;
    FilterTextsPlain(s, p, true);
    FilterTextsPlain(s, p, false);
    OptionalParamPlain("status", if f.status.Some? then Some(StatusText(f.status.value)) else None);
    OptionalParamPlain("paymentStatus", if f.paymentStatus.Some? then Some(PaymentStatusText(f.paymentStatus.value)) else None);
    OptionalParamPlain("future", if f.future.Some? then Some(BookingsRoute.BoolText(f.future.value)) else None);
    OptionalParamPlain("past", if f.past.Some? then Some(BookingsRoute.BoolText(f.past.value)) else None);
    PlainParamsAppend(StatusParam(f), PaymentStatusParam(f));
    PlainParamsAppend(StatusParam(f) + PaymentStatusParam(f), FutureParam(f));
    PlainParamsAppend(StatusParam(f) + PaymentStatusParam(f) + FutureParam(f), PastParam(f));
  }

  /**
   * Each filter is read back from the parameter list under its own name, and
   * an unset filter is not sent; `future` and `past` are sent whenever they
   * are defined, `false` included.
   */
  lemma {:induction false} FilterParamsGet(f: ClientFilters)
    ensures ParamGet(FilterParams(f), "status") == if f.status.Some? then Some(StatusText(f.status.value)) else None
    ensures ParamGet(FilterParams(f), "paymentStatus") ==
      if f.paymentStatus.Some? then Some(PaymentStatusText(f.paymentStatus.value)) else None
    ensures ParamGet(FilterParams(f), "future") == if f.future.Some? then Some(BookingsRoute.BoolText(f.future.value)) else None
    ensures ParamGet(FilterParams(f), "past") == if f.past.Some? then Some(BookingsRoute.BoolText(f.past.value)) else None
  {
    var a, b, c, d := StatusParam(f), PaymentStatusParam(f), FutureParam(f), PastParam(f);
    assert FilterParams(f) == a + (b + (c + d));
    forall name | name in PARAM_NAMES
      ensures ParamGet(FilterParams(f), name) ==
        if ParamGet(a, name).Some? then ParamGet(a, name)
        else if ParamGet(b, name).Some? then ParamGet(b, name)
        else if ParamGet(c, name).Some? then ParamGet(c, name)
        else ParamGet(d, name)
    {
      ParamGetAppend(a, b + (c + d), name);
      ParamGetAppend(b, c + d, name);
      ParamGetAppend(c, d, name);
    }
    forall name | name in PARAM_NAMES
      ensures ParamGet(a, name) == if name == "status" then ParamGet(a, "status") else None
      ensures ParamGet(b, name) == if name == "paymentStatus" then ParamGet(b, "paymentStatus") else None
      ensures ParamGet(c, name) == if name == "future" then ParamGet(c, "future") else None
      ensures ParamGet(d, name) == if name == "past" then ParamGet(d, "past") else None
    {
      OptionalParamGet("status", if f.status.Some? then Some(StatusText(f.status.value)) else None, name);
      OptionalParamGet("paymentStatus", if f.paymentStatus.Some? then Some(PaymentStatusText(f.paymentStatus.value)) else None, name);
      OptionalParamGet("future", if f.future.Some? then Some(BookingsRoute.BoolText(f.future.value)) else None, name);
      OptionalParamGet("past", if f.past.Some? then Some(BookingsRoute.BoolText(f.past.value)) else None, name);
    }
    OptionalParamGet("status", if f.status.Some? then Some(StatusText(f.status.value)) else None, "status");
    OptionalParamGet("paymentStatus", if f.paymentStatus.Some? then Some(PaymentStatusText(f.paymentStatus.value)) else None, "paymentStatus");
    OptionalParamGet("future", if f.future.Some? then Some(BookingsRoute.BoolText(f.future.value)) else None, "future");
    OptionalParamGet("past", if f.past.Some? then Some(BookingsRoute.BoolText(f.past.value)) else None, "past");
  }

  /** The server-side filters a client filter stands for. */
  function ToStoreFilters(f: ClientFilters): (g: Store.Filters)
    ensures g.dateRange.None?
  {
    Store.Filters(f.status, f.paymentStatus, f.future, f.past, None)
  }

  /** The part of a request URL the server's search parameters are parsed from. */
  function SearchPart(query: string): string {
    if query == "" then "" else query[1..]
  }

  /**
   * Round trip: the server's `parseBookingsQuery`, applied to the search
   * parameters of the query string the client built, gives back every filter
   * the client set and nothing else.
   */
  lemma {:induction false} QueryRoundTrip(f: ClientFilters)
    ensures BookingsRoute.QueryFilters(ParseSearch(SearchPart(QueryString(f)))) == ToStoreFilters(f)
  {
    var ps := FilterParams(f);
    FilterParamsPlain(f);
    ParseSerialize(ps);
    assert ParseSearch(SearchPart(QueryString(f))) == ps;
    FilterParamsGet(f);
    var g := BookingsRoute.QueryFilters(ps);
    assert g.status == f.status by {
      if f.status.Some? {
        EnumTextRoundTrip(f.status.value, Paid, Cash);
        Mapper.EnumTextInjective(f.status.value, g.status.value, Paid, Paid);
      }
    }
    assert g.paymentStatus == f.paymentStatus by {
      if f.paymentStatus.Some? {
        EnumTextRoundTrip(Pending, f.paymentStatus.value, Cash);
        Mapper.EnumTextInjective(Pending, Pending, f.paymentStatus.value, g.paymentStatus.value);
      }
    }
    assert g.future == f.future;
    assert g.past == f.past;
  }

  /** The query string is empty exactly when no filter is set. */
  lemma {:induction false} QueryStringEmptyIff(f: ClientFilters)
    ensures QueryString(f) == "" <==> f == NO_CLIENT_FILTERS
    ensures QueryString(f) != "" ==> QueryString(f)[0] == '?'
  {
    var ps := FilterParams(f);
    if ps != [] {
      assert |Pieces(ps)[0]| > 0;
      assert |Serialize(ps)| >= |Pieces(ps)[0]|;
    } else {
      assert f.status.None? && f.paymentStatus.None? && f.future.None? && f.past.None?;
    }
  }

  /** `getBookings`: the listing URL, with the query string only when filters are given. */
  function GetBookingsUrl(filters: Option<ClientFilters>): (url: string)
    ensures filters.None? ==> url == "/api/bookings"
    ensures filters.Some? ==> url == "/api/bookings" + QueryString(filters.value)
  {
    "/api/bookings" + (if filters.Some? then QueryString(filters.value) else "")
  }

  /** Without filters, or with none set, the listing URL has no query string. */
  lemma {:induction false} GetBookingsWithoutFilters(filters: Option<ClientFilters>)
    requires filters.None? || filters == Some(NO_CLIENT_FILTERS)
    ensures GetBookingsUrl(filters) == "/api/bookings"
  {
    if filters.Some? {
      QueryStringEmptyIff(filters.value);
    }
  }

  /** A response as `fetch` delivers it: the status and the body `response.json()` reads. */
  datatype HttpResponse = HttpResponse(status: int, body: Body)

  /** What `apiFetch` resolves to or throws. */
  datatype FetchResult =
    | Data(value: Json)
    | ApiError(message: Json, status: int, details: Read)  // a `BookingApiError`
    | TypeErrorThrown                                      // reading `.error` of a `null` body

  const UNEXPECTED_ERROR: string := "An unexpected error occurred"

  /** `response.ok`. */
  predicate Ok(status: int) {
    200 <= status <= 299
  }

  /**
   * `apiFetch`'s handling of a response: an unreadable body counts as `{}`;
   * a successful response yields the body; a failed one throws a
   * `BookingApiError` with the response status, the body's `error` when it
   * is truthy and a fixed message otherwise, and the body's `details`.
   */
  function ApiFetch(response: HttpResponse): (r: FetchResult)
    ensures r.Data? <==> Ok(response.status)
    ensures r.Data? ==> r.value == (if response.body.Parsed? then response.body.value else JObject(map[]))
    ensures r.TypeErrorThrown? <==> !Ok(response.status) && response.body == Parsed(JNull)
    ensures r.ApiError? ==> r.status == response.status
    ensures r.ApiError? && r.message != JString(UNEXPECTED_ERROR) ==>
      response.body.Parsed? && Get(response.body.value, "error") == Defined(r.message) && Truthy(r.message)
    ensures !Ok(response.status) && response.body.Parsed? && Get(response.body.value, "error").Defined?
            && Truthy(Get(response.body.value, "error").value) ==>
      r == ApiError(Get(response.body.value, "error").value, response.status, Get(response.body.value, "details"))
    ensures r.ApiError? ==> r.details == (if response.body.Parsed? then Get(response.body.value, "details") else Undefined)
  {
    var data := if response.body.Parsed? then response.body.value else JObject(map[]);
    if Ok(response.status) then Data(data)
    else
      match Get(data, "error")
      case Throws => TypeErrorThrown
      case Undefined => ApiError(JString(UNEXPECTED_ERROR), response.status, Get(data, "details"))
      case Defined(e) =>
        ApiError(if Truthy(e) then e else JString(UNEXPECTED_ERROR), response.status, Get(data, "details"))
  }

  /** A failed response whose body has no usable `error` is reported with the fixed message. */
  lemma {:induction false} ApiFetchFallbackMessage(response: HttpResponse)
    requires !Ok(response.status)
    requires response.body.Malformed? ||
             (response.body.value.JObject? &&
              ("error" !in response.body.value.fields || !Truthy(response.body.value.fields["error"])))
    ensures ApiFetch(response) == ApiError(JString(UNEXPECTED_ERROR), response.status,
                                           if response.body.Parsed? then Get(response.body.value, "details") else Undefined)
  {
  }

  /** The JSON `createBooking` posts: the form values with the date as its ISO text; an absent message is left out. */
  function Payload(v: FormValues, isoText: Instant -> string): (body: map<string, Json>)
    ensures "date" in body && body["date"] == JString(isoText(v.date))
    ensures "message" in body <==> v.message.Some?
  {
    var fields := map[
      "name" := JString(v.name), "email" := JString(v.email),
      "phonePhoneCountryCode" := JString(v.phonePhoneCountryCode),
      "phoneNumber" := JString(v.phoneNumber), "country" := JString(v.country),
      "language" := JString(v.language), "tourId" := JString(v.tourId),
      "date" := JString(isoText(v.date))];
    if v.message.Some? then fields["message" := JString(v.message.value)] else fields
  }

  /** Form values that meet every rule of the server's form schema. */
  predicate MeetsFormRules(ext: Externals, v: FormValues, today: Day) {
    && NameOk(ext, v.name) && ext.isEmail(v.email) && NonEmpty(v.phonePhoneCountryCode)
    && PhoneOk(v.phoneNumber) && CountryOk(v.country) && NonEmpty(v.language) && NonEmpty(v.tourId)
    && v.date.day >= today && (v.message.Some? ==> MessageOk(v.message.value))
  }

  /** What the form schema reads from the posted payload after the server's date conversion. */
  lemma {:induction false} CoercedPayload(v: FormValues, isoText: Instant -> string, parseDate: string -> Option<Instant>)
    requires isoText(v.date) != "" && parseDate(isoText(v.date)) == Some(v.date)
    ensures var g := BookingsRoute.DateCoerced(parseDate, Payload(v, isoText));
      && StringAt(g, "name") == Some(v.name) && StringAt(g, "email") == Some(v.email)
      && StringAt(g, "phonePhoneCountryCode") == Some(v.phonePhoneCountryCode)
      && StringAt(g, "phoneNumber") == Some(v.phoneNumber) && StringAt(g, "country") == Some(v.country)
      && StringAt(g, "language") == Some(v.language) && StringAt(g, "tourId") == Some(v.tourId)
      && DateAt(g, "date") == Some(v.date) && StringAt(g, "message") == v.message
      && ("message" in g <==> v.message.Some?)
  {
    var g := BookingsRoute.DateCoerced(parseDate, Payload(v, isoText));
    assert StringAt(g, "name") == Some(v.name);
    assert StringAt(g, "email") == Some(v.email);
    assert StringAt(g, "phonePhoneCountryCode") == Some(v.phonePhoneCountryCode);
    assert StringAt(g, "phoneNumber") == Some(v.phoneNumber);
    assert StringAt(g, "country") == Some(v.country);
    assert StringAt(g, "language") == Some(v.language);
    assert StringAt(g, "tourId") == Some(v.tourId);
    assert DateAt(g, "date") == Some(v.date);
    assert StringAt(g, "message") == v.message;
  }

  /** The rule the form schema applies to one key, stated on the values sent. */
  predicate RuleOf(ext: Externals, v: FormValues, k: FormKey, today: Day) {
    match k
    case NameKey => NameOk(ext, v.name)
    case EmailKey => ext.isEmail(v.email)
    case CountryCodeKey => NonEmpty(v.phonePhoneCountryCode)
    case PhoneKey => PhoneOk(v.phoneNumber)
    case CountryKey => CountryOk(v.country)
    case LanguageKey => NonEmpty(v.language)
    case TourKey => NonEmpty(v.tourId)
    case DateKey => v.date.day >= today
    case MessageKey => v.message.Some? ==> MessageOk(v.message.value)
  }

  /** One field of the coerced payload passes its rule exactly when the value sent meets it. */
  lemma {:induction false} CoercedFieldOk(ext: Externals, v: FormValues, isoText: Instant -> string,
                                          parseDate: string -> Option<Instant>, today: Day, k: FormKey)
    requires isoText(v.date) != "" && parseDate(isoText(v.date)) == Some(v.date)
    ensures FieldOk(ext, BookingsRoute.DateCoerced(parseDate, Payload(v, isoText)), k, today) <==> RuleOf(ext, v, k, today)
  {
    CoercedPayload(v, isoText, parseDate);
    if k == DateKey {
      DateRuleIsCalendarDay(v.date, today);
    }
  }

  /** The coerced payload passes every field rule exactly when the values meet the form rules. */
  lemma {:induction false} CoercedPayloadAccepted(ext: Externals, v: FormValues, isoText: Instant -> string,
                                                  parseDate: string -> Option<Instant>, today: Day)
    requires isoText(v.date) != "" && parseDate(isoText(v.date)) == Some(v.date)
    ensures FormAccepted(ext, BookingsRoute.DateCoerced(parseDate, Payload(v, isoText)), today) <==>
            MeetsFormRules(ext, v, today)
  {
    var g := BookingsRoute.DateCoerced(parseDate, Payload(v, isoText));
    forall k ensures FieldOk(ext, g, k, today) <==> RuleOf(ext, v, k, today) {
      CoercedFieldOk(ext, v, isoText, parseDate, today, k);
    }
    assert MeetsFormRules(ext, v, today) <==> forall k :: RuleOf(ext, v, k, today) by {
      if MeetsFormRules(ext, v, today) {
        forall k ensures RuleOf(ext, v, k, today) {
        }
      }
      if forall k :: RuleOf(ext, v, k, today) {
        assert RuleOf(ext, v, NameKey, today) && RuleOf(ext, v, EmailKey, today);
        assert RuleOf(ext, v, CountryCodeKey, today) && RuleOf(ext, v, PhoneKey, today);
        assert RuleOf(ext, v, CountryKey, today) && RuleOf(ext, v, LanguageKey, today);
        assert RuleOf(ext, v, TourKey, today) && RuleOf(ext, v, DateKey, today);
        assert RuleOf(ext, v, MessageKey, today);
      }
    }
  }

  /**
   * Client to server: when the server parses the date's ISO text back to the
   * same date, the posted payload passes the form schema exactly when the
   * values meet its rules, and then yields the values that were sent.
   */
  lemma {:induction false} PayloadRoundTrip(ext: Externals, v: FormValues, isoText: Instant -> string,
                                            parseDate: string -> Option<Instant>, today: Day)
    requires isoText(v.date) != "" && parseDate(isoText(v.date)) == Some(v.date)
    ensures var r := SafeParseForm(ext, BookingsRoute.FormBodyOf(parseDate, JObject(Payload(v, isoText))), today);
      (r.Ok? <==> MeetsFormRules(ext, v, today)) && (r.Ok? ==> r.value == v)
  {
    var g := BookingsRoute.DateCoerced(parseDate, Payload(v, isoText));
    assert BookingsRoute.FormBodyOf(parseDate, JObject(Payload(v, isoText))) == Properties(g);
    CoercedPayloadAccepted(ext, v, isoText, parseDate, today);
    if MeetsFormRules(ext, v, today) {
      CoercedPayload(v, isoText, parseDate);
      var w := AcceptedValues(ext, g, today);
      assert w.name == v.name && w.email == v.email && w.phonePhoneCountryCode == v.phonePhoneCountryCode;
      assert w.phoneNumber == v.phoneNumber && w.country == v.country && w.language == v.language;
      assert w.tourId == v.tourId && w.date == v.date && w.message == v.message;
    }
  }
}

=== FILE: bookings_route.dfy ===
/**
 * The `/api/bookings` route handlers: GET parses the query parameters into
 * listing filters, POST validates a booking form, looks up its tour and
 * creates the booking, answering 400, 404, 500 or 201.
 */
module BookingsRoute {
  import opened Common
  import opened Json
  import opened Domain
  import opened Mapper
  import opened Schema
  import opened Store
  import opened SearchParams
  import Cms

  /** `String(b)` for a boolean. */
  function BoolText(b: bool): string {
    if b then "true" else "false"
  }

  /** A boolean parameter: only the exact texts "true" and "false" count. */
  function BoolParam(v: Option<string>): (r: Option<bool>)
    ensures r.Some? <==> v == Some("true") || v == Some("false")
    ensures r.Some? ==> v == Some(BoolText(r.value))
  {
    if v == Some("true") then Some(true)
    else if v == Some("false") then Some(false)
    else None
  }

  /**
   * The filters `parseBookingsQuery` derives from the query parameters: a
   * status or payment status only when the parameter names a valid value,
   * `future` and `past` only for the exact texts "true" and "false", and
   * never a date range.
   */
  function QueryFilters(params: Params): (f: Filters)
    ensures f.status.Some? <==> ParamGet(params, "status").Some? && ParseStatus(ParamGet(params, "status").value).Some?
    ensures f.status.Some? ==> ParamGet(params, "status") == Some(StatusText(f.status.value))
    ensures f.paymentStatus.Some? <==>
      ParamGet(params, "paymentStatus").Some? && ParsePaymentStatus(ParamGet(params, "paymentStatus").value).Some?
    ensures f.paymentStatus.Some? ==> ParamGet(params, "paymentStatus") == Some(PaymentStatusText(f.paymentStatus.value))
    ensures f.future.Some? <==> ParamGet(params, "future") == Some("true") || ParamGet(params, "future") == Some("false")
    ensures f.future.Some? ==> ParamGet(params, "future") == Some(BoolText(f.future.value))
    ensures f.past.Some? <==> ParamGet(params, "past") == Some("true") || ParamGet(params, "past") == Some("false")
    ensures f.past.Some? ==> ParamGet(params, "past") == Some(BoolText(f.past.value))
    ensures f.dateRange.None?
  {
    var status := ParamGet(params, "status");
    var paymentStatus := ParamGet(params, "paymentStatus");
    Filters(
      if status.Some? then ParseStatus(status.value) else None,
      if paymentStatus.Some? then ParsePaymentStatus(paymentStatus.value) else None,
      BoolParam(ParamGet(params, "future")),
      BoolParam(ParamGet(params, "past")),
      None)
  }

  /** `parseBookingsQuery`: fills the filter object one parameter at a time. */
  method ParseBookingsQuery(params: Params) returns (filters: Filters)
    ensures filters == QueryFilters(params)
  {
    filters := NO_FILTERS;
    var statusParam := ParamGet(params, "status");
    if statusParam.Some? && statusParam.value != "" && ParseStatus(statusParam.value).Some? {
      filters := filters.(status := ParseStatus(statusParam.value));
    }
    var paymentStatusParam := ParamGet(params, "paymentStatus");
    if paymentStatusParam.Some? && paymentStatusParam.value != "" && ParsePaymentStatus(paymentStatusParam.value).Some? {
      filters := filters.(paymentStatus := ParsePaymentStatus(paymentStatusParam.value));
    }
    var futureParam := ParamGet(params, "future");
    if futureParam == Some("true") {
      filters := filters.(future := Some(true));
    } else if futureParam == Some("false") {
      filters := filters.(future := Some(false));
    }
    var pastParam := ParamGet(params, "past");
    if pastParam == Some("true") {
      filters := filters.(past := Some(true));
    } else if pastParam == Some("false") {
      filters := filters.(past := Some(false));
    }
  }

  /**
   * GET: lists the bookings that meet the parsed filters (passing no filters
   * when none was parsed, which the store reads as the empty filter) and
   * answers 200.
   */
  method Get(store: BookingStore, params: Params, today: Day) returns (status: int, listing: seq<Booking>)
    requires store.Valid()
    ensures status == 200
    ensures Ids(listing) == MatchingIds(store.rows, QueryFilters(params), today)
    ensures |listing| == |Ids(listing)| && NewestFirst(listing)
  {
    var filters := ParseBookingsQuery(params);
    var hasFilters := filters != NO_FILTERS;
    listing := store.GetAllBookings(if hasFilters then filters else NO_FILTERS, today);
    status := 200;
  }

  /**
   * What `getTourByID` yields: the tour, or null. It catches its own
   * failures (a content-service error, a document of another type) and
   * yields null for them, so a lookup never throws.
   */
  datatype TourLookup = TourFound(tour: Cms.Tour) | NoTour

  /** A JSON error response: the status, the `error` text and the issue paths of `details`. */
  datatype Response = Response(status: int, error: string, details: seq<string>)

  /** The end of the POST decision chain: an error response, or the booking to create. */
  datatype PostOutcome = Respond(response: Response) | Create(input: BookingInput)

  const INVALID_JSON: string := "Invalid JSON in request body"
  const VALIDATION_FAILED: string := "Validation failed"
  const TOUR_NOT_FOUND: string := "Tour not found"
  const CREATE_FAILED: string := "Failed to create booking"

  /**
   * The body after `body.date = new Date(body.date)`: a non-empty string
   * date becomes a `Date` (possibly invalid); everything else is left as is.
   */
  function DateCoerced(parseDate: string -> Option<Instant>, fields: map<string, Json>): (r: map<string, Value>)
    ensures r.Keys == fields.Keys
    ensures forall k :: k in fields && k != "date" ==> r[k] == JsonValue(fields[k])
  {
    map k | k in fields ::
      if k == "date" && fields[k].JString? && fields[k].s != "" then DateObject(parseDate(fields[k].s))
      else JsonValue(fields[k])
  }

  /** The value handed to the form schema. */
  function FormBodyOf(parseDate: string -> Option<Instant>, value: Json): FormBody {
    if value.JObject? then Properties(DateCoerced(parseDate, value.fields)) else NotAnObject
  }

  /** The `path` of each validation issue, as a property name (the root is ""). */
  function IssuePaths(rejection: FormRejection): (paths: seq<string>)
    ensures paths != [] || rejection == FieldIssues([])
    ensures rejection.RootIssue? ==> paths == [ROOT]
    ensures rejection.FieldIssues? ==>
      |paths| == |rejection.keys| && forall i :: 0 <= i < |paths| ==> paths[i] == KeyName(rejection.keys[i])
  {
    match rejection
    case RootIssue => [ROOT]
    case FieldIssues(keys) => seq(|keys|, i requires 0 <= i < |keys| => KeyName(keys[i]))
  }

  /**
   * The POST handler's decision: malformed JSON is a 400, a `null` body a
   * 500 (reading `body.date` throws), a form the schema refuses a 400 with
   * its issues, and a tour the lookup does not return (unknown, or its
   * fetch failed) a 404; otherwise the transformed form, priced from the
   * tour, is to be created.
   */
  function PostDecision(ext: Externals, parseDate: string -> Option<Instant>, lookup: string -> TourLookup,
                        body: Body, today: Day): (o: PostOutcome)
    ensures body.Malformed? ==> o == Respond(Response(400, INVALID_JSON, []))
    ensures body == Parsed(JNull) ==> o == Respond(Response(500, CREATE_FAILED, []))
    ensures o.Respond? ==> o.response.status in {400, 404, 500}
    ensures body.Parsed? && body.value != JNull && SafeParseForm(ext, FormBodyOf(parseDate, body.value), today).Err? ==>
      o == Respond(Response(400, VALIDATION_FAILED, IssuePaths(SafeParseForm(ext, FormBodyOf(parseDate, body.value), today).error)))
    ensures body.Parsed? && body.value != JNull && SafeParseForm(ext, FormBodyOf(parseDate, body.value), today).Ok? ==>
      var form := SafeParseForm(ext, FormBodyOf(parseDate, body.value), today).value;
      && (lookup(form.tourId).TourFound? ==> o == Create(TransformFormToBooking(form, lookup(form.tourId).tour.price)))
      && (lookup(form.tourId).NoTour? ==> o == Respond(Response(404, TOUR_NOT_FOUND, [])))
    ensures o.Create? ==>
      && lookup(o.input.tourId).TourFound?
      && o.input.price == lookup(o.input.tourId).tour.price
      && o.input.status == Pending && o.input.paymentStatus == PaymentPending && o.input.paymentMethod.None?
      && o.input.clientSelectedDate >= today
  {
    match body
    case Malformed => Respond(Response(400, INVALID_JSON, []))
    case Parsed(value) =>
      if value == JNull then Respond(Response(500, CREATE_FAILED, []))
      else
        var validation := SafeParseForm(ext, FormBodyOf(parseDate, value), today);
        if validation.Err? then Respond(Response(400, VALIDATION_FAILED, IssuePaths(validation.error)))
        else
          var form := validation.value;
          match lookup(form.tourId)
          case NoTour => Respond(Response(404, TOUR_NOT_FOUND, []))
          case TourFound(tour) => Create(TransformFormToBooking(form, tour.price))
  }

  /** The status POST answers with. */
  function PostStatus(o: PostOutcome): int {
    if o.Create? then 201 else o.response.status
  }

  /**
   * POST: the booking is created exactly when the decision says so, under
   * the store's next id, whether or not its date is already held; nothing
   * is written otherwise.
   */
  method Post(store: BookingStore, ext: Externals, parseDate: string -> Option<Instant>,
              lookup: string -> TourLookup, body: Body, today: Day, now: Timestamp) returns (status: int)
    requires store.Valid()
    modifies store
    ensures store.Valid()
    ensures status == PostStatus(PostDecision(ext, parseDate, lookup, body, today))
    ensures status == 201 <==> PostDecision(ext, parseDate, lookup, body, today).Create?
    ensures PostDecision(ext, parseDate, lookup, body, today).Create? ==>
      var input := PostDecision(ext, parseDate, lookup, body, today).input;
      && store.rows == old(store.rows)[old(store.nextId) := InsertedRow(old(store.nextId), MapBookingToInsert(input), now, now)]
      && store.nextId == old(store.nextId) + 1
    ensures PostDecision(ext, parseDate, lookup, body, today).Respond? ==>
      store.rows == old(store.rows) && store.nextId == old(store.nextId)
  {
    var outcome := PostDecision(ext, parseDate, lookup, body, today);
    if outcome.Create? {
      var booking := store.CreateBooking(outcome.input, now);
      status := 201;
    } else {
      status := outcome.response.status;
    }
  }

  /**
   * POST does not consult availability: the same request sent twice is
   * created twice, and both new bookings hold the same day.
   */
  method PostTwice(store: BookingStore, ext: Externals, parseDate: string -> Option<Instant>,
                   lookup: string -> TourLookup, body: Body, today: Day, now: Timestamp)
    returns (first: int, second: int)
    requires store.Valid()
    requires PostDecision(ext, parseDate, lookup, body, today).Create?
    modifies store
    ensures store.Valid()
    ensures first == 201 && second == 201
    ensures store.nextId == old(store.nextId) + 2
    ensures var day := PostDecision(ext, parseDate, lookup, body, today).input.clientSelectedDate;
      {old(store.nextId), old(store.nextId) + 1} <= HoldersOf(store.rows, day)
  {
    var input := PostDecision(ext, parseDate, lookup, body, today).input;
    var id1 := store.nextId;
    first := Post(store, ext, parseDate, lookup, body, today, now);
    CreatedBookingHoldsItsDay(old(store.rows), id1, input, now);
    var t1 := store.rows;
    var id2 := store.nextId;
    second := Post(store, ext, parseDate, lookup, body, today, now);
    CreatedBookingHoldsItsDay(t1, id2, input, now);
    assert store.rows[id1] == t1[id1];
  }

  /** A form the schema refuses is answered with its issues, whatever the tour lookup would say. */
  lemma {:induction false} PostValidationFailure(ext: Externals, parseDate: string -> Option<Instant>,
                                                 lookup: string -> TourLookup, other: string -> TourLookup,
                                                 value: Json, today: Day)
    requires value != JNull
    requires SafeParseForm(ext, FormBodyOf(parseDate, value), today).Err?
    ensures PostDecision(ext, parseDate, lookup, Parsed(value), today)
         == Respond(Response(400, VALIDATION_FAILED, IssuePaths(SafeParseForm(ext, FormBodyOf(parseDate, value), today).error)))
    ensures PostDecision(ext, parseDate, lookup, Parsed(value), today)
         == PostDecision(ext, parseDate, other, Parsed(value), today)
  {
  }

  /** An accepted form whose tour is unknown is a 404 and creates nothing. */
  lemma {:induction false} PostTourNotFound(ext: Externals, parseDate: string -> Option<Instant>,
                                            lookup: string -> TourLookup, value: Json, today: Day)
    requires value != JNull
    requires SafeParseForm(ext, FormBodyOf(parseDate, value), today).Ok?
    requires lookup(SafeParseForm(ext, FormBodyOf(parseDate, value), today).value.tourId) == NoTour
    ensures PostDecision(ext, parseDate, lookup, Parsed(value), today) == Respond(Response(404, TOUR_NOT_FOUND, []))
  {
  }

  /** A body that is not an object is refused at the root. */
  lemma {:induction false} PostNonObjectBody(ext: Externals, parseDate: string -> Option<Instant>,
                                             lookup: string -> TourLookup, value: Json, today: Day)
    requires value != JNull && !value.JObject?
    ensures PostDecision(ext, parseDate, lookup, Parsed(value), today) == Respond(Response(400, VALIDATION_FAILED, [ROOT]))
  {
  }

  /**
   * A non-empty date string is checked through the date it parses to: the
   * form's date rule holds exactly when it parses to a day no earlier than today.
   */
  lemma {:induction false} DateStringChecked(ext: Externals, parseDate: string -> Option<Instant>,
                                             fields: map<string, Json>, s: string, today: Day)
    requires "date" in fields && fields["date"] == JString(s) && s != ""
    ensures FieldOk(ext, DateCoerced(parseDate, fields), DateKey, today)
        <==> parseDate(s).Some? && parseDate(s).value.day >= today
  {
    var g := DateCoerced(parseDate, fields);
    assert g["date"] == DateObject(parseDate(s));
    if parseDate(s).Some? {
      DateRuleIsCalendarDay(parseDate(s).value, today);
    }
  }

  /**
   * POST does not consult availability: a created booking holds its day,
   * which the availability check then reports as taken. The decision for
   * the next request does not depend on the table; `PostTwice` shows a
   * second request for the same day is created as well.
   */
  lemma {:induction false} CreatedBookingHoldsItsDay(t: Table, id: BookingId, input: BookingInput, now: Timestamp)
    requires id !in t
    requires input.status == Pending
    ensures var t1 := t[id := InsertedRow(id, MapBookingToInsert(input), now, now)];
      id in HoldersOf(t1, input.clientSelectedDate) && !DateAvailable(t1, input.clientSelectedDate)
  {
    var t1 := t[id := InsertedRow(id, MapBookingToInsert(input), now, now)];
    InsertDecodeRoundTrip(input, id, now, now);
    assert Holding(t1[id]);
  }
}

=== FILE: client_form.dfy ===
/**
 * The booking form's client-side schema, shared word for word by the
 * current form and the legacy form: the rules the browser checks before
 * a booking request is made.
 */
module ClientForm {
  import opened Common
  import opened Schema
  import BookingsClient

  /** The values the form collects; a date not yet picked is `None`. */
  datatype ClientFormValues = ClientFormValues(
    name: string,
    email: string,
    countryCode: string,
    phoneNumber: string,
    country: string,
    language: string,
    tour: string,
    date: Option<Instant>,
    message: Option<string>)

  /** The fields of the form, in declaration order. */
  datatype ClientField = Name | Email | CountryCode | PhoneNumber | Country | Language | TourChoice | Date | Message

  const CLIENT_FIELDS: seq<ClientField> :=
    [Name, Email, CountryCode, PhoneNumber, Country, Language, TourChoice, Date, Message]

  /** `[a-zA-Z\s'-]`: unlike the server, only ASCII letters and no period. */
  predicate ClientNameChar(c: char) {
    IsAsciiLetter(c) || IsJsWhitespace(c) || c == '\'' || c == '-'
  }

  /** name: 2 to 100 characters, each an ASCII letter, whitespace, apostrophe or hyphen. */
  predicate ClientNameOk(s: string) {
    Between(s, 2, 100) && forall i :: 0 <= i < |s| ==> ClientNameChar(s[i])
  }

  /** The rule of one field. The other rules are the server's own. */
  predicate ClientFieldOk(ext: Externals, v: ClientFormValues, f: ClientField, today: Day) {
    match f
    case Name => ClientNameOk(v.name)
    case Email => ext.isEmail(v.email)
    case CountryCode => NonEmpty(v.countryCode)
    case PhoneNumber => PhoneOk(v.phoneNumber)
    case Country => CountryOk(v.country)
    case Language => NonEmpty(v.language)
    case TourChoice => NonEmpty(v.tour)
    case Date => v.date.Some? && DateOk(v.date.value, today)
    case Message => v.message.None? || MessageOk(v.message.value)
  }

  predicate ClientAccepted(ext: Externals, v: ClientFormValues, today: Day) {
    forall f :: ClientFieldOk(ext, v, f, today)
  }

  lemma FieldListed(f: ClientField)
    ensures f in CLIENT_FIELDS
  {
    match f
    case Name => assert CLIENT_FIELDS[0] == f;
    case Email => assert CLIENT_FIELDS[1] == f;
    case CountryCode => assert CLIENT_FIELDS[2] == f;
    case PhoneNumber => assert CLIENT_FIELDS[3] == f;
    case Country => assert CLIENT_FIELDS[4] == f;
    case Language => assert CLIENT_FIELDS[5] == f;
    case TourChoice => assert CLIENT_FIELDS[6] == f;
    case Date => assert CLIENT_FIELDS[7] == f;
    case Message => assert CLIENT_FIELDS[8] == f;
  }

  /** The listed fields whose rule fails, in order. */
  function FailingFields(ext: Externals, v: ClientFormValues, today: Day, fields: seq<ClientField>): (r: seq<ClientField>)
    ensures forall f :: f in r <==> f in fields && !ClientFieldOk(ext, v, f, today)
  {
    if fields == [] then []
    else
      var rest := FailingFields(ext, v, today, fields[1..]);
      assert forall f :: f in fields <==> f == fields[0] || f in fields[1..] by {
        assert fields == [fields[0]] + fields[1..];
      }
      if ClientFieldOk(ext, v, fields[0], today) then rest else [fields[0]] + rest
  }

  /** The fields the form marks as invalid on submit; none exactly when the form is accepted. */
  function ClientIssues(ext: Externals, v: ClientFormValues, today: Day): (issues: seq<ClientField>)
    ensures forall f :: f in issues <==> !ClientFieldOk(ext, v, f, today)
    ensures issues == [] <==> ClientAccepted(ext, v, today)
  {
    var issues := FailingFields(ext, v, today, CLIENT_FIELDS);
    forall f ensures f in issues <==> !ClientFieldOk(ext, v, f, today) {
      FieldListed(f);
    }
    assert issues != [] ==> issues[0] in issues;
    issues
  }

  /** Every name the client accepts is accepted by the server, whose letters include the ASCII ones. */
  lemma {:induction false} ClientNameImpliesServerName(ext: Externals, s: string)
    requires forall c :: IsAsciiLetter(c) ==> ext.isLetter(c)
    requires ClientNameOk(s)
    ensures NameOk(ext, s)
  {
    forall i | 0 <= i < |s| ensures NameChar(ext, s[i]) {
      assert ClientNameChar(s[i]);
    }
  }

  /** The converse fails: the server takes a period, the client does not. */
  lemma ServerNameNotClientName(ext: Externals)
    requires ext.isLetter('J')
    ensures NameOk(ext, "J.") && !ClientNameOk("J.")
  {
    assert !ClientNameChar("J."[1]);
  }

  /**
   * The server form's values holding the same entries (the country code
   * under `phonePhoneCountryCode`, the tour under `tourId`). Neither form
   * submits its values yet, so this pairing compares the two schemas field
   * by field rather than following a request.
   */
  function RequestValues(v: ClientFormValues): (w: FormValues)
    requires v.date.Some?
    ensures w.phonePhoneCountryCode == v.countryCode && w.tourId == v.tour && w.date == v.date.value
    ensures w.name == v.name && w.email == v.email && w.phoneNumber == v.phoneNumber
    ensures w.country == v.country && w.language == v.language && w.message == v.message
  {
    FormValues(v.name, v.email, v.countryCode, v.phoneNumber, v.country, v.language, v.tour, v.date.value, v.message)
  }

  /**
   * The client is at least as strict as the server: values the form
   * accepts meet every rule of the server's form schema.
   */
  lemma {:induction false} ClientAcceptedMeetsServerRules(ext: Externals, v: ClientFormValues, today: Day)
    requires forall c :: IsAsciiLetter(c) ==> ext.isLetter(c)
    requires ClientAccepted(ext, v, today)
    ensures v.date.Some?
    ensures BookingsClient.MeetsFormRules(ext, RequestValues(v), today)
  {
    assert ClientFieldOk(ext, v, Name, today);
    assert ClientFieldOk(ext, v, Email, today);
    assert ClientFieldOk(ext, v, CountryCode, today);
    assert ClientFieldOk(ext, v, PhoneNumber, today);
    assert ClientFieldOk(ext, v, Country, today);
    assert ClientFieldOk(ext, v, Language, today);
    assert ClientFieldOk(ext, v, TourChoice, today);
    assert ClientFieldOk(ext, v, Date, today);
    assert ClientFieldOk(ext, v, Message, today);
    ClientNameImpliesServerName(ext, v.name);
    DateRuleIsCalendarDay(v.date.value, today);
  }
}

=== FILE: common.dfy ===
/**
 * Shared vocabulary of the booking application model: optional values and
 * results, calendar days and instants, and the handful of JavaScript array and
 * string operations (filter, includes, toLowerCase, split) the core relies on.
 */
module Common {

  /** `T | null` / `T | undefined` in the application's types. */
  datatype Option<+T> = None | Some(value: T)

  /** The outcome of a validation or lookup that may fail with an error value. */
  datatype Result<+T, +E> = Ok(value: T) | Err(error: E)

  /** A calendar day (an ISO 8601 `full-date`), numbered consecutively. */
  type Day = int

  /** A moment in time, measured in milliseconds since the epoch (a `number` in JavaScript). */
  type Timestamp = int

  const MS_PER_DAY: int := 86400000

  /** Milliseconds elapsed since midnight. */
  type TimeOfDay = m: int | 0 <= m < MS_PER_DAY

  /** A JavaScript `Date`: a calendar day plus the time elapsed since its midnight. */
  datatype Instant = Instant(day: Day, time: TimeOfDay)

  /** The value `getTime()` returns: the order in which `<` and `>=` compare dates. */
  function EpochMillis(t: Instant): int {
    t.day * MS_PER_DAY + t.time
  }

  /** `new Date(new Date().setHours(0, 0, 0, 0))` on the given day. */
  function StartOfDay(day: Day): (t: Instant)
    ensures t.day == day && EpochMillis(t) == day * MS_PER_DAY
  {
    Instant(day, 0)
  }

  /** Comparing a date with the start of a day is comparing calendar days. */
  lemma {:induction false} NotBeforeStartOfDay(t: Instant, day: Day)
    ensures EpochMillis(t) >= EpochMillis(StartOfDay(day)) <==> t.day >= day
  {
    if t.day >= day {
      MulMonotone(day, t.day);
    } else {
      MulMonotone(t.day, day - 1);
      assert (day - 1) * MS_PER_DAY + MS_PER_DAY == day * MS_PER_DAY;
    }
  }

  lemma MulMonotone(a: int, b: int)
    requires a <= b
    ensures a * MS_PER_DAY <= b * MS_PER_DAY
  {
    assert b * MS_PER_DAY - a * MS_PER_DAY == (b - a) * MS_PER_DAY;
  }

  /** `a` is an order-preserving sublist of `b`. */
  predicate Subsequence<T(==)>(a: seq<T>, b: seq<T>)
    decreases |b|
  {
    if a == [] then true
    else if b == [] then false
    else if a[0] == b[0] then Subsequence(a[1..], b[1..])
    else Subsequence(a, b[1..])
  }

  lemma {:induction false} SubsequenceRefl<T>(a: seq<T>)
    ensures Subsequence(a, a)
  {
    if a != [] {
      SubsequenceRefl(a[1..]);
    }
  }

  /** `Array.prototype.filter`: the elements satisfying `p`, in their original order. */
  function Filter<T(==,!new)>(xs: seq<T>, p: T -> bool): (r: seq<T>)
    ensures |r| <= |xs|
    ensures forall x :: x in r <==> x in xs && p(x)
    ensures Subsequence(r, xs)
  {
    if xs == [] then []
    else if p(xs[0]) then
      SubsequenceConsBoth(Filter(xs[1..], p), xs);
      [xs[0]] + Filter(xs[1..], p)
    else
      SubsequenceConsRight(Filter(xs[1..], p), xs);
      Filter(xs[1..], p)
  }

  lemma SubsequenceConsBoth<T>(a: seq<T>, b: seq<T>)
    requires b != [] && Subsequence(a, b[1..])
    ensures Subsequence([b[0]] + a, b)
  {
    assert ([b[0]] + a)[1..] == a;
  }

  lemma {:induction false} SubsequenceConsRight<T>(a: seq<T>, b: seq<T>)
    requires b != [] && Subsequence(a, b[1..])
    ensures Subsequence(a, b)
    decreases |b|, 0
  {
    if a != [] && a[0] == b[0] {
      SubsequenceTail(a, b[1..]);
    }
  }

  /** Dropping the first element of a sublist keeps it a sublist. */
  lemma {:induction false} SubsequenceTail<T>(a: seq<T>, b: seq<T>)
    requires a != [] && Subsequence(a, b)
    ensures Subsequence(a[1..], b)
    decreases |b|, 1
  {
    if b == [] {
      assert false;
    } else if a[0] == b[0] {
      SubsequenceConsRight(a[1..], b);
    } else {
      SubsequenceTail(a, b[1..]);
      SubsequenceConsRight(a[1..], b);
    }
  }

  /** A sublist of a sublist is a sublist. */
  lemma {:induction false} SubsequenceTrans<T>(a: seq<T>, b: seq<T>, c: seq<T>)
    requires Subsequence(a, b) && Subsequence(b, c)
    ensures Subsequence(a, c)
    decreases |c|
  {
    if a != [] {
      assert b != [] && c != [];
      if b[0] == c[0] {
        if a[0] == b[0] {
          SubsequenceTrans(a[1..], b[1..], c[1..]);
        } else {
          SubsequenceTrans(a, b[1..], c[1..]);
          SubsequenceConsRight(a, c);
        }
      } else {
        SubsequenceTrans(a, b, c[1..]);
        SubsequenceConsRight(a, c);
      }
    }
  }

  /** Filtering with a predicate that holds everywhere changes nothing. */
  lemma {:induction false} FilterKeepsAll<T(!new)>(xs: seq<T>, p: T -> bool)
    requires forall x :: x in xs ==> p(x)
    ensures Filter(xs, p) == xs
  {
    if xs != [] {
      FilterKeepsAll(xs[1..], p);
    }
  }

  /** Filtering twice is filtering once by the conjunction. */
  lemma {:induction false} FilterFilter<T(!new)>(xs: seq<T>, p: T -> bool, q: T -> bool, pq: T -> bool)
    requires forall x :: pq(x) == (p(x) && q(x))
    ensures Filter(Filter(xs, p), q) == Filter(xs, pq)
  {
    if xs != [] {
      FilterFilter(xs[1..], p, q, pq);
    }
  }

  /** Filtering by complementary predicates splits the list. */
  lemma {:induction false} FilterPartition<T(!new)>(xs: seq<T>, p: T -> bool, q: T -> bool)
    requires forall x :: q(x) == !p(x)
    ensures |Filter(xs, p)| + |Filter(xs, q)| == |xs|
  {
    if xs != [] {
      FilterPartition(xs[1..], p, q);
    }
  }

  /** Predicates that agree on the elements filter alike. */
  lemma {:induction false} FilterAgree<T(!new)>(xs: seq<T>, p: T -> bool, q: T -> bool)
    requires forall x :: x in xs ==> p(x) == q(x)
    ensures Filter(xs, p) == Filter(xs, q)
  {
    if xs != [] {
      FilterAgree(xs[1..], p, q);
    }
  }

  /** Filtering with a predicate that holds nowhere gives the empty list. */
  lemma {:induction false} FilterKeepsNone<T(!new)>(xs: seq<T>, p: T -> bool)
    requires forall x :: !p(x)
    ensures Filter(xs, p) == []
  {
    if xs != [] {
      FilterKeepsNone(xs[1..], p);
    }
  }

  /** `prefix` is an initial segment of `s`. */
  predicate IsPrefix(prefix: string, s: string) {
    |prefix| <= |s| && s[..|prefix|] == prefix
  }

  /** `String.prototype.startsWith`. */
  predicate StartsWith(s: string, prefix: string) {
    IsPrefix(prefix, s)
  }

  /** `String.prototype.includes`: `q` occurs somewhere in `s`. */
  predicate Includes(s: string, q: string)
    decreases |s|
  {
    IsPrefix(q, s) || (s != [] && Includes(s[1..], q))
  }

  /** Every string includes the empty string. */
  lemma IncludesEmpty(s: string)
    ensures Includes(s, "")
  {
    assert IsPrefix("", s);
  }

  /** `q` occurs in `s` starting at offset `i`. */
  predicate OccursAt(s: string, q: string, i: int) {
    0 <= i <= |s| - |q| && s[i..i + |q|] == q
  }

  /** `Includes` agrees with "occurs at some offset". */
  lemma {:induction false} IncludesAt(s: string, q: string)
    ensures Includes(s, q) <==> exists i :: OccursAt(s, q, i)
    decreases |s|
  {
    if IsPrefix(q, s) {
      assert OccursAt(s, q, 0);
    }
    if s != [] {
      IncludesAt(s[1..], q);
      if Includes(s[1..], q) {
        var j :| OccursAt(s[1..], q, j);
        assert s[1..][j..j + |q|] == s[j + 1..j + 1 + |q|];
        assert OccursAt(s, q, j + 1);
      }
      if exists i :: OccursAt(s, q, i) {
        var i :| OccursAt(s, q, i);
        if i > 0 {
          assert s[1..][i - 1..i - 1 + |q|] == s[i..i + |q|];
          assert OccursAt(s[1..], q, i - 1);
        }
      }
    }
  }

  /** Lower-case letters of the Latin script (Basic Latin and Latin-1 Supplement). */
  function LowerChar(c: char): (d: char)
    ensures ('A' <= c <= 'Z') ==> d as int == c as int + 32
    ensures !('A' <= c <= 'Z') && !('\U{00C0}' <= c <= '\U{00DE}') ==> d == c
  {
    if 'A' <= c <= 'Z' then (c as int + 32) as char
    else if '\U{00C0}' <= c <= '\U{00DE}' && c != '\U{00D7}' then (c as int + 32) as char
    else c
  }

  /**
   * `String.prototype.toLowerCase`, character by character, for Basic Latin
   * and the Latin-1 Supplement only: other scripts are left as they are.
   */
  function ToLower(s: string): (r: string)
    ensures |r| == |s|
    ensures forall i :: 0 <= i < |s| ==> r[i] == LowerChar(s[i])
  {
    seq(|s|, i requires 0 <= i < |s| => LowerChar(s[i]))
  }

  /** `String.prototype.split` with a one-character separator. */
  function Split(s: string, sep: char): (parts: seq<string>)
    ensures |parts| >= 1
    ensures forall p :: p in parts ==> sep !in p
    decreases |s|
  {
    if s == [] then [""]
    else
      var rest := Split(s[1..], sep);
      if s[0] == sep then [""] + rest
      else [[s[0]] + rest[0]] + rest[1..]
  }

  /** Characters JavaScript's regular-expression class `\s` matches. */
  predicate IsJsWhitespace(c: char) {
    c == '\t' || c == '\n' || c == '\U{000B}' || c == '\U{000C}' || c == '\r' || c == ' ' ||
    c == '\U{00A0}' || c == '\U{1680}' || ('\U{2000}' <= c <= '\U{200A}') ||
    c == '\U{2028}' || c == '\U{2029}' || c == '\U{202F}' || c == '\U{205F}' ||
    c == '\U{3000}' || c == '\U{FEFF}'
  }

  /** The class `\d` (without the `u` flag: the ASCII digits). */
  predicate IsDigit(c: char) {
    '0' <= c <= '9'
  }

  /** `[a-zA-Z]`. */
  predicate IsAsciiLetter(c: char) {
    ('a' <= c <= 'z') || ('A' <= c <= 'Z')
  }
}

=== FILE: domain.dfy ===
/**
 * The booking entity and its enumerations, with the text each enumeration
 * value has in the database, in query strings and in JSON.
 */
module Domain {
  import opened Common

  datatype BookingStatus = Pending | Confirmed | Cancelled
  datatype PaymentStatus = PaymentPending | Paid | PaymentFailed
  datatype PaymentMethod = BankTransfer | Card | Cash

  function StatusText(s: BookingStatus): string {
    match s
    case Pending => "pending"
    case Confirmed => "confirmed"
    case Cancelled => "cancelled"
  }

  function PaymentStatusText(s: PaymentStatus): string {
    match s
    case PaymentPending => "pending"
    case Paid => "paid"
    case PaymentFailed => "failed"
  }

  function PaymentMethodText(m: PaymentMethod): string {
    match m
    case BankTransfer => "bank_transfer"
    case Card => "card"
    case Cash => "cash"
  }

  /** The status a text names, if any (`VALID_STATUSES.includes(text)`). */
  function ParseStatus(t: string): (r: Option<BookingStatus>)
    ensures r.Some? ==> StatusText(r.value) == t
    ensures r.None? ==> forall s :: StatusText(s) != t
  {
    if t == "pending" then Some(Pending)
    else if t == "confirmed" then Some(Confirmed)
    else if t == "cancelled" then Some(Cancelled)
    else None
  }

  function ParsePaymentStatus(t: string): (r: Option<PaymentStatus>)
    ensures r.Some? ==> PaymentStatusText(r.value) == t
    ensures r.None? ==> forall s :: PaymentStatusText(s) != t
  {
    if t == "pending" then Some(PaymentPending)
    else if t == "paid" then Some(Paid)
    else if t == "failed" then Some(PaymentFailed)
    else None
  }

  function ParsePaymentMethod(t: string): (r: Option<PaymentMethod>)
    ensures r.Some? ==> PaymentMethodText(r.value) == t
    ensures r.None? ==> forall m :: PaymentMethodText(m) != t
  {
    if t == "bank_transfer" then Some(BankTransfer)
    else if t == "card" then Some(Card)
    else if t == "cash" then Some(Cash)
    else None
  }

  /** Each enumeration's text determines the value: parsing the text gives it back. */
  lemma {:induction false} EnumTextRoundTrip(s: BookingStatus, p: PaymentStatus, m: PaymentMethod)
    ensures ParseStatus(StatusText(s)) == Some(s)
    ensures ParsePaymentStatus(PaymentStatusText(p)) == Some(p)
    ensures ParsePaymentMethod(PaymentMethodText(m)) == Some(m)
  {
  }

  /**
   * The fields a client supplies for a new booking:
   * `Omit<Booking, "id" | "createdAt" | "updatedAt" | "deletedAt">`.
   */
  datatype BookingInput = BookingInput(
    clientName: string,
    clientEmail: string,
    clientPhone: string,
    clientPhoneCountryCode: string,
    clientCountry: string,
    clientLanguage: string,
    clientSelectedDate: Day,
    clientMessage: Option<string>,
    tourId: string,
    status: BookingStatus,
    price: real,
    paymentStatus: PaymentStatus,
    paymentMethod: Option<PaymentMethod>)

  type BookingId = nat

  /** A stored booking; `deletedAt` is the soft-delete tombstone. */
  datatype Booking = Booking(
    id: BookingId,
    clientName: string,
    clientEmail: string,
    clientPhone: string,
    clientPhoneCountryCode: string,
    clientCountry: string,
    clientLanguage: string,
    clientSelectedDate: Day,
    clientMessage: Option<string>,
    tourId: string,
    createdAt: Timestamp,
    updatedAt: Timestamp,
    status: BookingStatus,
    price: real,
    paymentStatus: PaymentStatus,
    paymentMethod: Option<PaymentMethod>,
    deletedAt: Option<Timestamp>)

  /** The client-supplied part of a stored booking. */
  function InputOf(b: Booking): BookingInput {
    BookingInput(b.clientName, b.clientEmail, b.clientPhone, b.clientPhoneCountryCode,
                 b.clientCountry, b.clientLanguage, b.clientSelectedDate, b.clientMessage,
                 b.tourId, b.status, b.price, b.paymentStatus, b.paymentMethod)
  }
}

/**
 * The tour shape the CMS client returns (`Tour` of the CMS types), reduced to
 * the fields the booking core and the tour filters read.
 */
module Cms {

  /** A location document; filters compare its `value`. */
  datatype Location = Location(id: string, value: string)

  datatype Tour = Tour(
    id: string,
    title: string,
    duration: real,
    price: real,
    locations: seq<Location>)
}

=== FILE: json.dfy ===
/**
 * JSON values as the route handlers receive them from `request.json()`, and
 * JavaScript property access on them.
 */
module Json {

  datatype Json =
    | JNull
    | JBool(b: bool)
    | JNumber(n: real)
    | JString(s: string)
    | JArray(items: seq<Json>)
    | JObject(fields: map<string, Json>)

  /** What `request.json()` yields: a syntax error, or a parsed value. */
  datatype Body = Malformed | Parsed(value: Json)

  /** The result of reading `value.key` in JavaScript. */
  datatype Read = Throws | Undefined | Defined(value: Json)

  /**
   * `value.key`: reading a property of `null` throws a `TypeError`; objects
   * yield their own field when present; every other value has no such field.
   */
  function Get(value: Json, key: string): (r: Read)
    ensures r.Throws? <==> value.JNull?
    ensures r.Defined? <==> value.JObject? && key in value.fields
    ensures r.Defined? ==> r.value == value.fields[key]
  {
    match value
    case JNull => Throws
    case JObject(fields) => if key in fields then Defined(fields[key]) else Undefined
    case _ => Undefined
  }

  /** JavaScript truthiness of a defined JSON value. */
  predicate Truthy(value: Json) {
    match value
    case JNull => false
    case JBool(b) => b
    case JNumber(n) => n != 0.0
    case JString(s) => s != ""
    case _ => true
  }
}

=== FILE: legacy_booking_form.dfy ===
/**
 * The legacy booking form: the same client schema as the current form
 * (the `ClientForm` module), its initial values, and the calendar that
 * greys out the days a booking cannot be made for.
 */
module LegacyBookingForm {
  import opened Common
  import opened ClientForm
  import BookingFormView

  /** The initial values, the same as the current form's. */
  const LEGACY_DEFAULTS: BookingFormView.Defaults := BookingFormView.Defaults("+351", "", "", "")

  /** Both forms start from the same values. */
  lemma DefaultsAgree()
    ensures LEGACY_DEFAULTS == BookingFormView.DEFAULTS
  {
  }

  /** The calendar's `disabled` test: a day before midnight of today. */
  predicate CalendarDisabled(date: Instant, today: Day) {
    EpochMillis(date) < EpochMillis(StartOfDay(today))
  }

  /** The calendar disables exactly the dates the date rule rejects. */
  lemma {:induction false} CalendarMatchesDateRule(ext: Schema.Externals, v: ClientFormValues, date: Instant, today: Day)
    requires v.date == Some(date)
    ensures CalendarDisabled(date, today) <==> Date in ClientIssues(ext, v, today)
    ensures CalendarDisabled(date, today) <==> date.day < today
  {
    NotBeforeStartOfDay(date, today);
  }
}

=== FILE: mapper.dfy ===
/**
 * The mapping between the application's camelCase booking and the database's
 * snake_case `bookings` row: the full insert map, the partial update map built
 * from a patch, and the row decoder.
 */
module Mapper {
  import opened Common
  import opened Domain

  /** The thirteen client-supplied booking fields, in declaration order. */
  datatype Field =
    | ClientName | ClientEmail | ClientPhone | ClientPhoneCountryCode | ClientCountry
    | ClientLanguage | ClientSelectedDate | ClientMessage | TourId | Status | Price
    | PaymentStatus | PaymentMethod

  /** The property name of a field in the application's `Booking`. */
  function PropertyName(f: Field): string {
    match f
    case ClientName => "clientName"
    case ClientEmail => "clientEmail"
    case ClientPhone => "clientPhone"
    case ClientPhoneCountryCode => "clientPhoneCountryCode"
    case ClientCountry => "clientCountry"
    case ClientLanguage => "clientLanguage"
    case ClientSelectedDate => "clientSelectedDate"
    case ClientMessage => "clientMessage"
    case TourId => "tourId"
    case Status => "status"
    case Price => "price"
    case PaymentStatus => "paymentStatus"
    case PaymentMethod => "paymentMethod"
  }

  /** The column that stores a field in the `bookings` table. */
  function ColumnName(f: Field): string {
    match f
    case ClientName => "client_name"
    case ClientEmail => "client_email"
    case ClientPhone => "client_phone"
    case ClientPhoneCountryCode => "client_phone_country_code"
    case ClientCountry => "client_country"
    case ClientLanguage => "client_language"
    case ClientSelectedDate => "client_selected_date"
    case ClientMessage => "client_message"
    case TourId => "tour_id"
    case Status => "status"
    case Price => "price"
    case PaymentStatus => "payment_status"
    case PaymentMethod => "payment_method"
  }

  /** Columns the database fills in itself; the client never writes them. */
  const SERVER_COLUMNS: set<string> := {"id", "created_at", "updated_at", "deleted_at"}

  /** Distinct fields live in distinct columns, none of them a server column. */
  lemma ColumnNamesDistinct(f: Field, g: Field)
    ensures ColumnName(f) == ColumnName(g) ==> f == g
    ensures ColumnName(f) !in SERVER_COLUMNS
  {
  }

  /** A value as it sits in a column. */
  datatype Cell = Text(s: string) | Date(day: Day) | Number(n: real) | Null

  function TextOrNull(t: Option<string>): Cell {
    if t.Some? then Text(t.value) else Null
  }

  /** `BookingInsert`: the columns the client writes when it creates a booking. */
  datatype BookingInsert = BookingInsert(
    client_name: string,
    client_email: string,
    client_phone: string,
    client_phone_country_code: string,
    client_country: string,
    client_language: string,
    client_selected_date: Day,
    client_message: Option<string>,
    tour_id: string,
    status: string,
    price: real,
    payment_status: string,
    payment_method: Option<string>)

  /** `BookingRow`: a full row of the `bookings` table. */
  datatype BookingRow = BookingRow(
    id: BookingId,
    client_name: string,
    client_email: string,
    client_phone: string,
    client_phone_country_code: string,
    client_country: string,
    client_language: string,
    client_selected_date: Day,
    client_message: Option<string>,
    tour_id: string,
    status: string,
    price: real,
    payment_status: string,
    payment_method: Option<string>,
    created_at: Timestamp,
    updated_at: Timestamp,
    deleted_at: Option<Timestamp>)

  /**
   * `Partial<BookingInsert>`: `None` is an absent key. For the two nullable
   * columns `Some(None)` is an explicit `null`.
   */
  datatype BookingUpdate = BookingUpdate(
    client_name: Option<string>,
    client_email: Option<string>,
    client_phone: Option<string>,
    client_phone_country_code: Option<string>,
    client_country: Option<string>,
    client_language: Option<string>,
    client_selected_date: Option<Day>,
    client_message: Option<Option<string>>,
    tour_id: Option<string>,
    status: Option<string>,
    price: Option<real>,
    payment_status: Option<string>,
    payment_method: Option<Option<string>>)

  /**
   * `Partial<Omit<Booking, "id" | "createdAt" | "updatedAt" | "deletedAt">>`:
   * `None` is `undefined`. For the two nullable fields `Some(None)` is `null`.
   */
  datatype BookingPatch = BookingPatch(
    clientName: Option<string>,
    clientEmail: Option<string>,
    clientPhone: Option<string>,
    clientPhoneCountryCode: Option<string>,
    clientCountry: Option<string>,
    clientLanguage: Option<string>,
    clientSelectedDate: Option<Day>,
    clientMessage: Option<Option<string>>,
    tourId: Option<string>,
    status: Option<BookingStatus>,
    price: Option<real>,
    paymentStatus: Option<PaymentStatus>,
    paymentMethod: Option<Option<PaymentMethod>>)

  const EMPTY_PATCH: BookingPatch :=
    BookingPatch(None, None, None, None, None, None, None, None, None, None, None, None, None)

  const EMPTY_UPDATE: BookingUpdate :=
    BookingUpdate(None, None, None, None, None, None, None, None, None, None, None, None, None)

  /** The value a booking input holds for a field, as the column stores it. */
  function InputCell(input: BookingInput, f: Field): Cell {
    match f
    case ClientName => Text(input.clientName)
    case ClientEmail => Text(input.clientEmail)
    case ClientPhone => Text(input.clientPhone)
    case ClientPhoneCountryCode => Text(input.clientPhoneCountryCode)
    case ClientCountry => Text(input.clientCountry)
    case ClientLanguage => Text(input.clientLanguage)
    case ClientSelectedDate => Date(input.clientSelectedDate)
    case ClientMessage => TextOrNull(input.clientMessage)
    case TourId => Text(input.tourId)
    case Status => Text(StatusText(input.status))
    case Price => Number(input.price)
    case PaymentStatus => Text(PaymentStatusText(input.paymentStatus))
    case PaymentMethod =>
      if input.paymentMethod.Some? then Text(PaymentMethodText(input.paymentMethod.value)) else Null
  }

  /** The value an insert map holds in a field's column. */
  function InsertCell(ins: BookingInsert, f: Field): Cell {
    match f
    case ClientName => Text(ins.client_name)
    case ClientEmail => Text(ins.client_email)
    case ClientPhone => Text(ins.client_phone)
    case ClientPhoneCountryCode => Text(ins.client_phone_country_code)
    case ClientCountry => Text(ins.client_country)
    case ClientLanguage => Text(ins.client_language)
    case ClientSelectedDate => Date(ins.client_selected_date)
    case ClientMessage => TextOrNull(ins.client_message)
    case TourId => Text(ins.tour_id)
    case Status => Text(ins.status)
    case Price => Number(ins.price)
    case PaymentStatus => Text(ins.payment_status)
    case PaymentMethod => TextOrNull(ins.payment_method)
  }

  /** The value a row holds in a field's column. */
  function RowCell(row: BookingRow, f: Field): Cell {
    match f
    case ClientName => Text(row.client_name)
    case ClientEmail => Text(row.client_email)
    case ClientPhone => Text(row.client_phone)
    case ClientPhoneCountryCode => Text(row.client_phone_country_code)
    case ClientCountry => Text(row.client_country)
    case ClientLanguage => Text(row.client_language)
    case ClientSelectedDate => Date(row.client_selected_date)
    case ClientMessage => TextOrNull(row.client_message)
    case TourId => Text(row.tour_id)
    case Status => Text(row.status)
    case Price => Number(row.price)
    case PaymentStatus => Text(row.payment_status)
    case PaymentMethod => TextOrNull(row.payment_method)
  }

  /** The value a patch sets for a field, or `None` when the field is `undefined`. */
  function PatchCell(p: BookingPatch, f: Field): Option<Cell> {
    match f
    case ClientName => if p.clientName.Some? then Some(Text(p.clientName.value)) else None
    case ClientEmail => if p.clientEmail.Some? then Some(Text(p.clientEmail.value)) else None
    case ClientPhone => if p.clientPhone.Some? then Some(Text(p.clientPhone.value)) else None
    case ClientPhoneCountryCode =>
      if p.clientPhoneCountryCode.Some? then Some(Text(p.clientPhoneCountryCode.value)) else None
    case ClientCountry => if p.clientCountry.Some? then Some(Text(p.clientCountry.value)) else None
    case ClientLanguage => if p.clientLanguage.Some? then Some(Text(p.clientLanguage.value)) else None
    case ClientSelectedDate =>
      if p.clientSelectedDate.Some? then Some(Date(p.clientSelectedDate.value)) else None
    case ClientMessage => if p.clientMessage.Some? then Some(TextOrNull(p.clientMessage.value)) else None
    case TourId => if p.tourId.Some? then Some(Text(p.tourId.value)) else None
    case Status => if p.status.Some? then Some(Text(StatusText(p.status.value))) else None
    case Price => if p.price.Some? then Some(Number(p.price.value)) else None
    case PaymentStatus =>
      if p.paymentStatus.Some? then Some(Text(PaymentStatusText(p.paymentStatus.value))) else None
    case PaymentMethod =>
      if p.paymentMethod.None? then None
      else if p.paymentMethod.value.None? then Some(Null)
      else Some(Text(PaymentMethodText(p.paymentMethod.value.value)))
  }

  /** The value an update map sets in a field's column, or `None` when the key is absent. */
  function UpdateCell(u: BookingUpdate, f: Field): Option<Cell> {
    match f
    case ClientName => if u.client_name.Some? then Some(Text(u.client_name.value)) else None
    case ClientEmail => if u.client_email.Some? then Some(Text(u.client_email.value)) else None
    case ClientPhone => if u.client_phone.Some? then Some(Text(u.client_phone.value)) else None
    case ClientPhoneCountryCode =>
      if u.client_phone_country_code.Some? then Some(Text(u.client_phone_country_code.value)) else None
    case ClientCountry => if u.client_country.Some? then Some(Text(u.client_country.value)) else None
    case ClientLanguage => if u.client_language.Some? then Some(Text(u.client_language.value)) else None
    case ClientSelectedDate =>
      if u.client_selected_date.Some? then Some(Date(u.client_selected_date.value)) else None
    case ClientMessage => if u.client_message.Some? then Some(TextOrNull(u.client_message.value)) else None
    case TourId => if u.tour_id.Some? then Some(Text(u.tour_id.value)) else None
    case Status => if u.status.Some? then Some(Text(u.status.value)) else None
    case Price => if u.price.Some? then Some(Number(u.price.value)) else None
    case PaymentStatus => if u.payment_status.Some? then Some(Text(u.payment_status.value)) else None
    case PaymentMethod => if u.payment_method.Some? then Some(TextOrNull(u.payment_method.value)) else None
  }

  /** The keys present in an update map (`Object.keys(updateData)`). */
  function UpdateColumns(u: BookingUpdate): set<string> {
    set f: Field | UpdateCell(u, f).Some? :: ColumnName(f)
  }

  /** `mapBookingToInsert`: every field goes, unchanged, to its own column. */
  function MapBookingToInsert(input: BookingInput): (r: BookingInsert)
    ensures forall f :: InsertCell(r, f) == InputCell(input, f)
  {
    BookingInsert(
      input.clientName, input.clientEmail, input.clientPhone, input.clientPhoneCountryCode,
      input.clientCountry, input.clientLanguage, input.clientSelectedDate, input.clientMessage,
      input.tourId, StatusText(input.status), input.price, PaymentStatusText(input.paymentStatus),
      if input.paymentMethod.Some? then Some(PaymentMethodText(input.paymentMethod.value)) else None)
  }

  /** The update map a patch denotes: a column for each defined field, holding its value. */
  function PatchToUpdate(p: BookingPatch): (u: BookingUpdate)
    ensures forall f :: UpdateCell(u, f) == PatchCell(p, f)
  {
    BookingUpdate(
      p.clientName, p.clientEmail, p.clientPhone, p.clientPhoneCountryCode, p.clientCountry,
      p.clientLanguage, p.clientSelectedDate, p.clientMessage, p.tourId,
      if p.status.Some? then Some(StatusText(p.status.value)) else None,
      p.price,
      if p.paymentStatus.Some? then Some(PaymentStatusText(p.paymentStatus.value)) else None,
      if p.paymentMethod.None? then None
      else if p.paymentMethod.value.None? then Some(None)
      else Some(Some(PaymentMethodText(p.paymentMethod.value.value))))
  }

  /**
   * `mapBookingPatchToUpdate`: starts from an empty map and copies each field
   * that is not `undefined`; `null` and other falsy values are kept.
   */
  method MapBookingPatchToUpdate(patch: BookingPatch) returns (updateData: BookingUpdate)
    ensures updateData == PatchToUpdate(patch)
  {
    ghost var spec := PatchToUpdate(patch);
    // after each step the map agrees with `spec` on the fields handled so far
    // and has no key for the rest
    updateData := EMPTY_UPDATE;
    if patch.clientName.Some? {
      updateData := updateData.(client_name := Some(patch.clientName.value));
    }
    assert updateData == spec.(client_email := None, client_phone := None,
      client_phone_country_code := None, client_country := None, client_language := None,
      client_selected_date := None, client_message := None, tour_id := None, status := None,
      payment_status := None, payment_method := None, price := None);
    if patch.clientEmail.Some? {
      updateData := updateData.(client_email := Some(patch.clientEmail.value));
    }
    assert updateData == spec.(client_phone := None, client_phone_country_code := None,
      client_country := None, client_language := None, client_selected_date := None,
      client_message := None, tour_id := None, status := None, payment_status := None,
      payment_method := None, price := None);
    if patch.clientPhone.Some? {
      updateData := updateData.(client_phone := Some(patch.clientPhone.value));
    }
    assert updateData == spec.(client_phone_country_code := None, client_country := None,
      client_language := None, client_selected_date := None, client_message := None,
      tour_id := None, status := None, payment_status := None, payment_method := None,
      price := None);
    if patch.clientPhoneCountryCode.Some? {
      updateData := updateData.(client_phone_country_code := Some(patch.clientPhoneCountryCode.value));
    }
    assert updateData == spec.(client_country := None, client_language := None,
      client_selected_date := None, client_message := None, tour_id := None, status := None,
      payment_status := None, payment_method := None, price := None);
    if patch.clientCountry.Some? {
      updateData := updateData.(client_country := Some(patch.clientCountry.value));
    }
    assert updateData == spec.(client_language := None, client_selected_date := None,
      client_message := None, tour_id := None, status := None, payment_status := None,
      payment_method := None, price := None);
    if patch.clientLanguage.Some? {
      updateData := updateData.(client_language := Some(patch.clientLanguage.value));
    }
    assert updateData == spec.(client_selected_date := None, client_message := None,
      tour_id := None, status := None, payment_status := None, payment_method := None,
      price := None);
    if patch.clientSelectedDate.Some? {
      updateData := updateData.(client_selected_date := Some(patch.clientSelectedDate.value));
    }
    assert updateData == spec.(client_message := None, tour_id := None, status := None,
      payment_status := None, payment_method := None, price := None);
    if patch.clientMessage.Some? {
      // `patch.clientMessage ?? null`: an explicit null stays null
      updateData := updateData.(client_message := Some(patch.clientMessage.value));
    }
    assert updateData == spec.(tour_id := None, status := None, payment_status := None,
      payment_method := None, price := None);
    if patch.tourId.Some? {
      updateData := updateData.(tour_id := Some(patch.tourId.value));
    }
    assert updateData == spec.(status := None, payment_status := None, payment_method := None,
      price := None);
    if patch.status.Some? {
      updateData := updateData.(status := Some(StatusText(patch.status.value)));
    }
    assert updateData == spec.(payment_status := None, payment_method := None, price := None);
    if patch.paymentStatus.Some? {
      updateData := updateData.(payment_status := Some(PaymentStatusText(patch.paymentStatus.value)));
    }
    assert updateData == spec.(payment_method := None, price := None);
    if patch.paymentMethod.Some? {
      var pm := patch.paymentMethod.value;
      updateData := updateData.(payment_method :=
        Some(if pm.Some? then Some(PaymentMethodText(pm.value)) else None));
    }
    assert updateData == spec.(price := None);
    if patch.price.Some? {
      updateData := updateData.(price := Some(patch.price.value));
    }
  }

  /**
   * An update map has a column exactly for the fields the patch defines, never
   * a server column, and the empty patch gives the empty map.
   */
  lemma {:induction false} PatchColumns(p: BookingPatch)
    ensures UpdateColumns(PatchToUpdate(p)) == set f: Field | PatchCell(p, f).Some? :: ColumnName(f)
    ensures UpdateColumns(PatchToUpdate(p)) !! SERVER_COLUMNS
    ensures p == EMPTY_PATCH ==> UpdateColumns(PatchToUpdate(p)) == {}
  {
    var u := PatchToUpdate(p);
    forall c | c in UpdateColumns(u) ensures c !in SERVER_COLUMNS {
      var f :| UpdateCell(u, f).Some? && ColumnName(f) == c;
      ColumnNamesDistinct(f, f);
    }
    if p == EMPTY_PATCH {
      assert forall f :: UpdateCell(u, f).None?;
    }
  }

  /** A field is in the update map exactly when the patch defines it. */
  lemma {:induction false} PatchDefinesColumn(p: BookingPatch, f: Field)
    ensures ColumnName(f) in UpdateColumns(PatchToUpdate(p)) <==> PatchCell(p, f).Some?
  {
    var u := PatchToUpdate(p);
    if ColumnName(f) in UpdateColumns(u) {
      var g :| UpdateCell(u, g).Some? && ColumnName(g) == ColumnName(f);
      ColumnNamesDistinct(f, g);
    }
  }

  /** The patch that defines every field of an input with that field's value. */
  function FullPatch(input: BookingInput): (p: BookingPatch)
    ensures forall f :: PatchCell(p, f) == Some(InputCell(input, f))
  {
    BookingPatch(
      Some(input.clientName), Some(input.clientEmail), Some(input.clientPhone),
      Some(input.clientPhoneCountryCode), Some(input.clientCountry), Some(input.clientLanguage),
      Some(input.clientSelectedDate), Some(input.clientMessage), Some(input.tourId),
      Some(input.status), Some(input.price), Some(input.paymentStatus), Some(input.paymentMethod))
  }

  /** An insert map read as an update map that sets every column. */
  function InsertAsUpdate(ins: BookingInsert): (u: BookingUpdate)
    ensures forall f :: UpdateCell(u, f) == Some(InsertCell(ins, f))
  {
    BookingUpdate(
      Some(ins.client_name), Some(ins.client_email), Some(ins.client_phone),
      Some(ins.client_phone_country_code), Some(ins.client_country), Some(ins.client_language),
      Some(ins.client_selected_date), Some(ins.client_message), Some(ins.tour_id),
      Some(ins.status), Some(ins.price), Some(ins.payment_status), Some(ins.payment_method))
  }

  /** Two update maps that agree on every field are the same map. */
  lemma {:induction false} UpdateExtensionality(u: BookingUpdate, v: BookingUpdate)
    requires forall f :: UpdateCell(u, f) == UpdateCell(v, f)
    ensures u == v
  {
    assert UpdateCell(u, ClientName) == UpdateCell(v, ClientName);
    assert UpdateCell(u, ClientEmail) == UpdateCell(v, ClientEmail);
    assert UpdateCell(u, ClientPhone) == UpdateCell(v, ClientPhone);
    assert UpdateCell(u, ClientPhoneCountryCode) == UpdateCell(v, ClientPhoneCountryCode);
    assert UpdateCell(u, ClientCountry) == UpdateCell(v, ClientCountry);
    assert UpdateCell(u, ClientLanguage) == UpdateCell(v, ClientLanguage);
    assert UpdateCell(u, ClientSelectedDate) == UpdateCell(v, ClientSelectedDate);
    assert UpdateCell(u, ClientMessage) == UpdateCell(v, ClientMessage);
    assert UpdateCell(u, TourId) == UpdateCell(v, TourId);
    assert UpdateCell(u, Status) == UpdateCell(v, Status);
    assert UpdateCell(u, Price) == UpdateCell(v, Price);
    assert UpdateCell(u, PaymentStatus) == UpdateCell(v, PaymentStatus);
    assert UpdateCell(u, PaymentMethod) == UpdateCell(v, PaymentMethod);
  }

  /** For a complete input the patch map and the insert map write the same columns and values. */
  lemma {:induction false} FullPatchMatchesInsert(input: BookingInput)
    ensures PatchToUpdate(FullPatch(input)) == InsertAsUpdate(MapBookingToInsert(input))
  {
    UpdateExtensionality(PatchToUpdate(FullPatch(input)), InsertAsUpdate(MapBookingToInsert(input)));
  }

  /** The row holds an enumeration text in each enumerated column (what the `as` casts assume). */
  predicate WellFormedRow(row: BookingRow) {
    && ParseStatus(row.status).Some?
    && ParsePaymentStatus(row.payment_status).Some?
    && (row.payment_method.Some? ==> ParsePaymentMethod(row.payment_method.value).Some?)
  }

  /**
   * `mapRowToBooking`: identity and timestamps are copied verbatim, the price
   * through `Number` (the identity on numbers), every other column to its field.
   */
  function MapRowToBooking(row: BookingRow): (b: Booking)
    requires WellFormedRow(row)
    ensures b.id == row.id && b.createdAt == row.created_at && b.updatedAt == row.updated_at
    ensures b.deletedAt == row.deleted_at && b.price == row.price
    ensures forall f :: InputCell(InputOf(b), f) == RowCell(row, f)
  {
    Booking(
      row.id, row.client_name, row.client_email, row.client_phone, row.client_phone_country_code,
      row.client_country, row.client_language, row.client_selected_date, row.client_message,
      row.tour_id, row.created_at, row.updated_at,
      ParseStatus(row.status).value, row.price, ParsePaymentStatus(row.payment_status).value,
      if row.payment_method.Some? then Some(ParsePaymentMethod(row.payment_method.value).value) else None,
      row.deleted_at)
  }

  /** The row the database stores for an insert map, with the identity and timestamps it generates. */
  function InsertedRow(id: BookingId, ins: BookingInsert, createdAt: Timestamp, updatedAt: Timestamp): (row: BookingRow)
    ensures row.id == id && row.deleted_at.None?
    ensures forall f :: RowCell(row, f) == InsertCell(ins, f)
  {
    BookingRow(
      id, ins.client_name, ins.client_email, ins.client_phone, ins.client_phone_country_code,
      ins.client_country, ins.client_language, ins.client_selected_date, ins.client_message,
      ins.tour_id, ins.status, ins.price, ins.payment_status, ins.payment_method,
      createdAt, updatedAt, None)
  }

  /** Two inputs that agree on every field are the same input. */
  lemma {:induction false} InputExtensionality(a: BookingInput, b: BookingInput)
    requires forall f :: InputCell(a, f) == InputCell(b, f)
    ensures a == b
  {
    assert InputCell(a, ClientName) == InputCell(b, ClientName);
    assert InputCell(a, ClientEmail) == InputCell(b, ClientEmail);
    assert InputCell(a, ClientPhone) == InputCell(b, ClientPhone);
    assert InputCell(a, ClientPhoneCountryCode) == InputCell(b, ClientPhoneCountryCode);
    assert InputCell(a, ClientCountry) == InputCell(b, ClientCountry);
    assert InputCell(a, ClientLanguage) == InputCell(b, ClientLanguage);
    assert InputCell(a, ClientSelectedDate) == InputCell(b, ClientSelectedDate);
    assert InputCell(a, ClientMessage) == InputCell(b, ClientMessage);
    assert InputCell(a, TourId) == InputCell(b, TourId);
    assert InputCell(a, Status) == InputCell(b, Status);
    assert InputCell(a, Price) == InputCell(b, Price);
    assert InputCell(a, PaymentStatus) == InputCell(b, PaymentStatus);
    assert InputCell(a, PaymentMethod) == InputCell(b, PaymentMethod);
    EnumTextInjective(a.status, b.status, a.paymentStatus, b.paymentStatus);
    if a.paymentMethod.Some? && b.paymentMethod.Some? {
      EnumTextRoundTrip(a.status, a.paymentStatus, a.paymentMethod.value);
      EnumTextRoundTrip(a.status, a.paymentStatus, b.paymentMethod.value);
    }
  }

  lemma EnumTextInjective(s: BookingStatus, t: BookingStatus, p: PaymentStatus, q: PaymentStatus)
    ensures StatusText(s) == StatusText(t) ==> s == t
    ensures PaymentStatusText(p) == PaymentStatusText(q) ==> p == q
  {
  }

  /**
   * Round trip: inserting an input and decoding the stored row gives back all
   * thirteen input fields, with the generated identity and timestamps.
   */
  lemma {:induction false} InsertDecodeRoundTrip(input: BookingInput, id: BookingId, createdAt: Timestamp, updatedAt: Timestamp)
    ensures WellFormedRow(InsertedRow(id, MapBookingToInsert(input), createdAt, updatedAt))
    ensures var b := MapRowToBooking(InsertedRow(id, MapBookingToInsert(input), createdAt, updatedAt));
            InputOf(b) == input && b.id == id && b.createdAt == createdAt &&
            b.updatedAt == updatedAt && b.deletedAt.None?
  {
    var row := InsertedRow(id, MapBookingToInsert(input), createdAt, updatedAt);
    if input.paymentMethod.Some? {
      EnumTextRoundTrip(input.status, input.paymentStatus, input.paymentMethod.value);
    } else {
      EnumTextRoundTrip(input.status, input.paymentStatus, Cash);
    }
    InputExtensionality(InputOf(MapRowToBooking(row)), input);
  }

  /**
   * The database's `UPDATE ... SET` on one row: the columns the update map
   * holds take its values, everything else is left as it was.
   */
  function Pick<T>(o: Option<T>, current: T): T {
    if o.Some? then o.value else current
  }

  function ApplyUpdate(row: BookingRow, u: BookingUpdate): (r: BookingRow)
    ensures r.id == row.id && r.created_at == row.created_at
    ensures r.updated_at == row.updated_at && r.deleted_at == row.deleted_at
    ensures forall f :: RowCell(r, f) == if UpdateCell(u, f).Some? then UpdateCell(u, f).value else RowCell(row, f)
  {
    BookingRow(
      row.id,
      Pick(u.client_name, row.client_name),
      Pick(u.client_email, row.client_email),
      Pick(u.client_phone, row.client_phone),
      Pick(u.client_phone_country_code, row.client_phone_country_code),
      Pick(u.client_country, row.client_country),
      Pick(u.client_language, row.client_language),
      Pick(u.client_selected_date, row.client_selected_date),
      Pick(u.client_message, row.client_message),
      Pick(u.tour_id, row.tour_id),
      Pick(u.status, row.status),
      Pick(u.price, row.price),
      Pick(u.payment_status, row.payment_status),
      Pick(u.payment_method, row.payment_method),
      row.created_at, row.updated_at, row.deleted_at)
  }

  /** Applying a patch's update map keeps a row well formed. */
  lemma {:induction false} PatchKeepsRowWellFormed(row: BookingRow, p: BookingPatch)
    requires WellFormedRow(row)
    ensures WellFormedRow(ApplyUpdate(row, PatchToUpdate(p)))
  {
    if p.status.Some? {
      EnumTextRoundTrip(p.status.value, PaymentPending, Cash);
    }
    if p.paymentStatus.Some? {
      EnumTextRoundTrip(Pending, p.paymentStatus.value, Cash);
    }
    if p.paymentMethod.Some? && p.paymentMethod.value.Some? {
      EnumTextRoundTrip(Pending, PaymentPending, p.paymentMethod.value.value);
    }
  }
}

=== FILE: middleware.dfy ===
/**
 * The admin guard run before every request: the login page sends a
 * signed-in user to the dashboard, every other admin page sends a visitor
 * without a session to the login page, and everything else passes. It
 * runs only on the paths its matcher names.
 */
module Middleware {
  import opened Common

  const ADMIN: string := "/admin"
  const ADMIN_LOGIN: string := "/admin/login"

  /** The request goes on, or the browser is redirected to `target`. */
  datatype Decision = Pass | Redirect(target: string)

  /** The authentication service is reachable only when both its address and key are set and non-empty. */
  predicate Configured(supabaseUrl: Option<string>, anonKey: Option<string>) {
    supabaseUrl.Some? && supabaseUrl.value != "" && anonKey.Some? && anonKey.value != ""
  }

  /**
   * `middleware`, once the session is known: without the authentication
   * service configured every request passes.
   */
  function Decide(supabaseUrl: Option<string>, anonKey: Option<string>, pathname: string, hasSession: bool): (d: Decision)
    ensures !Configured(supabaseUrl, anonKey) ==> d == Pass
    ensures Configured(supabaseUrl, anonKey) && pathname == ADMIN_LOGIN ==>
      d == (if hasSession then Redirect(ADMIN) else Pass)
    ensures Configured(supabaseUrl, anonKey) && pathname != ADMIN_LOGIN && StartsWith(pathname, ADMIN) ==>
      d == (if hasSession then Pass else Redirect(ADMIN_LOGIN))
    ensures !StartsWith(pathname, ADMIN) ==> d == Pass
  {
    if !Configured(supabaseUrl, anonKey) then Pass
    else if pathname == ADMIN_LOGIN then (if hasSession then Redirect(ADMIN) else Pass)
    else if StartsWith(pathname, ADMIN) then (if hasSession then Pass else Redirect(ADMIN_LOGIN))
    else Pass
  }

  /** A redirect only ever sends the browser to one of the two admin entry pages. */
  lemma RedirectTargets(supabaseUrl: Option<string>, anonKey: Option<string>, pathname: string, hasSession: bool)
    ensures Decide(supabaseUrl, anonKey, pathname, hasSession).Redirect? ==>
      Decide(supabaseUrl, anonKey, pathname, hasSession).target in {ADMIN, ADMIN_LOGIN}
  {
  }

  /**
   * No redirect loop: the page a redirect leads to passes under the same
   * session state that caused the redirect.
   */
  lemma {:induction false} NoRedirectLoop(supabaseUrl: Option<string>, anonKey: Option<string>, pathname: string, hasSession: bool)
    requires Decide(supabaseUrl, anonKey, pathname, hasSession).Redirect?
    ensures Decide(supabaseUrl, anonKey, Decide(supabaseUrl, anonKey, pathname, hasSession).target, hasSession) == Pass
  {
    assert StartsWith(ADMIN, ADMIN);
    assert StartsWith(ADMIN_LOGIN, ADMIN) by {
      assert ADMIN_LOGIN[..|ADMIN|] == ADMIN;
    }
  }

  /**
   * The paths the exported matcher runs `middleware` on: `/admin` itself
   * and `/admin/` followed by any further segments.
   */
  predicate Matched(pathname: string) {
    pathname == ADMIN || StartsWith(pathname, ADMIN + "/")
  }

  /**
   * A request as the framework handles it: paths outside the matcher pass
   * without `middleware` running; the others get `Decide`'s answer.
   */
  function Run(supabaseUrl: Option<string>, anonKey: Option<string>, pathname: string, hasSession: bool): (d: Decision)
    ensures !Matched(pathname) ==> d == Pass
    ensures Matched(pathname) ==> d == Decide(supabaseUrl, anonKey, pathname, hasSession)
    ensures Configured(supabaseUrl, anonKey) && Matched(pathname) && pathname != ADMIN_LOGIN ==>
      d == (if hasSession then Pass else Redirect(ADMIN_LOGIN))
  {
    if !Matched(pathname) then Pass
    else
      assert StartsWith(pathname, ADMIN) by {
        if pathname != ADMIN {
          assert pathname[..|ADMIN|] == (ADMIN + "/")[..|ADMIN|];
        }
      }
      Decide(supabaseUrl, anonKey, pathname, hasSession)
  }

  /** The redirect targets lie inside the matcher, so no redirect loops as the framework runs it either. */
  lemma {:induction false} RunNoRedirectLoop(supabaseUrl: Option<string>, anonKey: Option<string>, pathname: string, hasSession: bool)
    requires Run(supabaseUrl, anonKey, pathname, hasSession).Redirect?
    ensures Run(supabaseUrl, anonKey, Run(supabaseUrl, anonKey, pathname, hasSession).target, hasSession) == Pass
  {
    NoRedirectLoop(supabaseUrl, anonKey, pathname, hasSession);
    assert Matched(ADMIN_LOGIN) by {
      assert ADMIN_LOGIN[..|ADMIN + "/"|] == ADMIN + "/";
    }
  }

  /**
   * `Decide`'s own test is a plain prefix test that would redirect a
   * visitor on "/administrator"; the matcher keeps such a path from ever
   * reaching it, so the request passes unguarded.
   */
  lemma {:induction false} PrefixGuard(supabaseUrl: Option<string>, anonKey: Option<string>)
    requires Configured(supabaseUrl, anonKey)
    ensures Decide(supabaseUrl, anonKey, "/administrator", false) == Redirect(ADMIN_LOGIN)
    ensures !Matched("/administrator")
    ensures Run(supabaseUrl, anonKey, "/administrator", false) == Pass
  {
    assert "/administrator"[..|ADMIN|] == ADMIN;
    assert "/administrator"[..|ADMIN + "/"|] != ADMIN + "/" by {
      assert "/administrator"[|ADMIN|] == 'i';
    }
  }
}

=== FILE: reminders.dfy ===
/**
 * The daily reminder job (`GET /api/bookings/reminders`): a shared-secret
 * check, the listing of tomorrow's bookings, one reminder attempt per
 * booking, and the counts of sent, failed and skipped reminders.
 */
module Reminders {
  import opened Common
  import opened Domain
  import opened Mapper
  import opened Store
  import BookingsRoute
  import Cms

  /** The `Authorization` scheme the job expects (section 2.1 of RFC 6750). */
  const BEARER_PREFIX: string := "Bearer "

  /**
   * When a secret is configured (a non-empty `CRON_SECRET`), the header must
   * be exactly "Bearer " followed by it; without a secret nothing is checked.
   */
  predicate Authorized(secret: Option<string>, authHeader: Option<string>) {
    secret.None? || secret.value == "" ||
    (authHeader.Some? && authHeader.value != "" && authHeader.value == BEARER_PREFIX + secret.value)
  }

  /**
   * With a secret configured, a header is accepted exactly when it uses the
   * Bearer scheme and its token is the secret, character for character.
   */
  lemma {:induction false} AuthorizedIsBearerToken(secret: string, header: string)
    requires secret != ""
    ensures Authorized(Some(secret), Some(header)) <==>
            StartsWith(header, BEARER_PREFIX) && header[|BEARER_PREFIX|..] == secret
  {
    if StartsWith(header, BEARER_PREFIX) && header[|BEARER_PREFIX|..] == secret {
      assert header == header[..|BEARER_PREFIX|] + header[|BEARER_PREFIX|..];
    }
    if header == BEARER_PREFIX + secret {
      assert header[..|BEARER_PREFIX|] == BEARER_PREFIX;
      assert header[|BEARER_PREFIX|..] == secret;
    }
  }

  /** `getTomorrowRange`: from midnight tomorrow to midnight the day after, the end excluded. */
  function TomorrowRange(today: Day): (r: DateRange)
    ensures r.start == today + 1 && r.end == r.start + 1
  {
    DateRange(today + 1, today + 2)
  }

  /** The listing filter of the job: the date range alone, with no status filter. */
  function ReminderFilters(today: Day): (f: Filters)
    ensures f.status.None? && f.paymentStatus.None? && f.future.None? && f.past.None?
    ensures f.dateRange == Some(TomorrowRange(today))
  {
    NO_FILTERS.(dateRange := Some(TomorrowRange(today)))
  }

  /**
   * The job reminds exactly the active bookings of tomorrow, whatever their
   * status: a cancelled booking for tomorrow is reminded too.
   */
  lemma {:induction false} RemindsExactlyTomorrow(t: Table, today: Day, id: BookingId)
    ensures id in MatchingIds(t, ReminderFilters(today), today) <==>
            id in t && Active(t[id]) && t[id].client_selected_date == today + 1
  {
  }

  datatype ReminderStatus = Sent | Failed | SkippedNoTour

  /** The outcome for one booking. */
  datatype ReminderResult = ReminderResult(bookingId: BookingId, status: ReminderStatus)

  /** The summary the job answers with on success. */
  datatype Counts = Counts(total: nat, sent: nat, failed: nat, skipped: nat)

  /** The job's response: 401, 500 when the query throws, or 200 with the counts. */
  datatype ReminderResponse = Unauthorized | JobFailed | Summary(counts: Counts)

  /**
   * One booking: no tour means skipped without sending; otherwise the
   * reminder is sent, or failed when sending throws.
   */
  function Classify(b: Booking, lookup: string -> BookingsRoute.TourLookup,
                    send: (Booking, Cms.Tour) -> bool): (r: ReminderStatus)
    ensures r == SkippedNoTour <==> lookup(b.tourId).NoTour?
    ensures r == Sent <==> lookup(b.tourId).TourFound? && send(b, lookup(b.tourId).tour)
    ensures r == Failed <==> lookup(b.tourId).TourFound? && !send(b, lookup(b.tourId).tour)
  {
    match lookup(b.tourId)
    case NoTour => SkippedNoTour
    case TourFound(tour) => if send(b, tour) then Sent else Failed
  }

  /** Every booking's outcome, in order. */
  function ClassifyAll(bs: seq<Booking>, lookup: string -> BookingsRoute.TourLookup,
                       send: (Booking, Cms.Tour) -> bool): (r: seq<ReminderResult>)
    ensures |r| == |bs|
    ensures forall i :: 0 <= i < |bs| ==> r[i] == ReminderResult(bs[i].id, Classify(bs[i], lookup, send))
  {
    if bs == [] then []
    else [ReminderResult(bs[0].id, Classify(bs[0], lookup, send))] + ClassifyAll(bs[1..], lookup, send)
  }

  /** `results.filter((r) => r.status === s).length`. */
  function CountStatus(results: seq<ReminderResult>, s: ReminderStatus): (n: nat)
    ensures n <= |results|
    ensures n == 0 <==> forall i :: 0 <= i < |results| ==> results[i].status != s
  {
    var kept := Filter(results, (r: ReminderResult) => r.status == s);
    assert kept != [] ==> kept[0] in kept;
    assert (exists i :: 0 <= i < |results| && results[i].status == s) ==> kept != [] by {
      if exists i :: 0 <= i < |results| && results[i].status == s {
        var i :| 0 <= i < |results| && results[i].status == s;
        assert results[i] in results;
      }
    }
    |kept|
  }

  /** The statuses of the results, in order. */
  function StatusesOf(results: seq<ReminderResult>): (ss: seq<ReminderStatus>)
    ensures |ss| == |results| && forall i :: 0 <= i < |results| ==> ss[i] == results[i].status
  {
    seq(|results|, i requires 0 <= i < |results| => results[i].status)
  }

  /** Each count is the number of results carrying that status. */
  lemma {:induction false} CountStatusOccurrences(results: seq<ReminderResult>, s: ReminderStatus)
    ensures CountStatus(results, s) == multiset(StatusesOf(results))[s]
  {
    if results != [] {
      CountStatusOccurrences(results[1..], s);
      assert StatusesOf(results) == [results[0].status] + StatusesOf(results[1..]);
    }
  }

  /** The three counts add up to the number of results. */
  lemma {:induction false} CountsAddUp(results: seq<ReminderResult>)
    ensures CountStatus(results, Sent) + CountStatus(results, Failed) + CountStatus(results, SkippedNoTour) == |results|
  {
    if results != [] {
      CountsAddUp(results[1..]);
    }
  }

  /** Counting one more result adds one to its own status only. */
  lemma {:induction false} CountStatusCons(x: ReminderResult, rest: seq<ReminderResult>, s: ReminderStatus)
    ensures CountStatus([x] + rest, s) == (if x.status == s then 1 else 0) + CountStatus(rest, s)
  {
    assert ([x] + rest)[0] == x;
    assert ([x] + rest)[1..] == rest;
  }

  /** How many of the bookings have a tour whose reminder could not be sent. */
  function FailedSends(bs: seq<Booking>, lookup: string -> BookingsRoute.TourLookup,
                       send: (Booking, Cms.Tour) -> bool): (n: nat)
    ensures n <= |bs|
  {
    if bs == [] then 0
    else
      var b := bs[0];
      (if lookup(b.tourId).TourFound? && !send(b, lookup(b.tourId).tour) then 1 else 0)
        + FailedSends(bs[1..], lookup, send)
  }

  /** How many of the bookings name a tour the content service does not return. */
  function MissingTours(bs: seq<Booking>, lookup: string -> BookingsRoute.TourLookup): (n: nat)
    ensures n <= |bs|
  {
    if bs == [] then 0
    else (if lookup(bs[0].tourId).NoTour? then 1 else 0) + MissingTours(bs[1..], lookup)
  }

  /** The failed and skipped counts of the outcomes are the failed sends and the missing tours. */
  lemma {:induction false} OutcomeCounts(bs: seq<Booking>, lookup: string -> BookingsRoute.TourLookup,
                                         send: (Booking, Cms.Tour) -> bool)
    ensures CountStatus(ClassifyAll(bs, lookup, send), Failed) == FailedSends(bs, lookup, send)
    ensures CountStatus(ClassifyAll(bs, lookup, send), SkippedNoTour) == MissingTours(bs, lookup)
  {
    if bs != [] {
      OutcomeCounts(bs[1..], lookup, send);
      var x := ReminderResult(bs[0].id, Classify(bs[0], lookup, send));
      assert ClassifyAll(bs, lookup, send) == [x] + ClassifyAll(bs[1..], lookup, send);
      CountStatusCons(x, ClassifyAll(bs[1..], lookup, send), Failed);
      CountStatusCons(x, ClassifyAll(bs[1..], lookup, send), SkippedNoTour);
    }
  }

  /**
   * The job's answer for the listed bookings: zeros without any lookup when
   * there are none, otherwise the counts of the outcomes. Every booking is
   * classified, so once the bookings are listed the job always answers 200.
   */
  function Summarize(bs: seq<Booking>, lookup: string -> BookingsRoute.TourLookup,
                     send: (Booking, Cms.Tour) -> bool): (r: ReminderResponse)
    ensures r.Summary?
    ensures r.counts.total == |bs|
    ensures r.counts.sent + r.counts.failed + r.counts.skipped == r.counts.total
  {
    if bs == [] then Summary(Counts(0, 0, 0, 0))
    else
      var results := ClassifyAll(bs, lookup, send);
      CountsAddUp(results);
      Summary(Counts(|bs|, CountStatus(results, Sent), CountStatus(results, Failed),
                     CountStatus(results, SkippedNoTour)))
  }

  /** With no bookings tomorrow the answer is all zeros, whatever the lookups and sends would do. */
  lemma {:induction false} NoBookingsNoWork(lookup: string -> BookingsRoute.TourLookup, send: (Booking, Cms.Tour) -> bool,
                                            lookup2: string -> BookingsRoute.TourLookup, send2: (Booking, Cms.Tour) -> bool)
    ensures Summarize([], lookup, send) == Summary(Counts(0, 0, 0, 0)) == Summarize([], lookup2, send2)
  {
  }

  /**
   * A failed send is counted and does not stop the others: whatever the
   * lookups return, the failed count is the number of bookings whose tour
   * was found but whose reminder could not be sent, the skipped count the
   * number whose tour is missing, and the sends that succeeded the rest.
   */
  lemma {:induction false} FailedSendsAreCounted(bs: seq<Booking>, lookup: string -> BookingsRoute.TourLookup,
                                                 send: (Booking, Cms.Tour) -> bool)
    ensures Summarize(bs, lookup, send).counts.failed == FailedSends(bs, lookup, send)
    ensures Summarize(bs, lookup, send).counts.skipped == MissingTours(bs, lookup)
    ensures Summarize(bs, lookup, send).counts.sent == |bs| - FailedSends(bs, lookup, send) - MissingTours(bs, lookup)
  {
    if bs != [] {
      OutcomeCounts(bs, lookup, send);
    }
  }

  /** A booking whose tour is missing is skipped, and the job still answers 200. */
  lemma {:induction false} MissingTourSkipped(b: Booking, lookup: string -> BookingsRoute.TourLookup,
                                              send: (Booking, Cms.Tour) -> bool)
    requires lookup(b.tourId).NoTour?
    ensures Summarize([b], lookup, send) == Summary(Counts(1, 0, 0, 1))
  {
    FailedSendsAreCounted([b], lookup, send);
    assert [b][1..] == [];
  }

  /**
   * `GET`: checks the secret, lists tomorrow's bookings (`queryFails` stands
   * for the database query throwing), then handles the bookings one at a
   * time; only the query failing ends the job with 500.
   */
  method GetReminders(store: BookingStore, secret: Option<string>, authHeader: Option<string>, queryFails: bool,
                      lookup: string -> BookingsRoute.TourLookup, send: (Booking, Cms.Tour) -> bool, today: Day)
    returns (response: ReminderResponse, processed: seq<Booking>)
    requires store.Valid()
    ensures !Authorized(secret, authHeader) ==> response == Unauthorized && processed == []
    ensures Authorized(secret, authHeader) && queryFails ==> response == JobFailed && processed == []
    ensures Authorized(secret, authHeader) && !queryFails ==>
      && Ids(processed) == MatchingIds(store.rows, ReminderFilters(today), today)
      && |processed| == |Ids(processed)|
      && (forall b :: b in processed ==> b.id in store.rows && b == MapRowToBooking(store.rows[b.id]))
      && response == Summarize(processed, lookup, send)
      && response.Summary? && response.counts.total == |processed|
  {
    processed := [];
    if !Authorized(secret, authHeader) {
      return Unauthorized, processed;
    }
    if queryFails {
      return JobFailed, processed;
    }
    var bookings := store.GetAllBookings(ReminderFilters(today), today);
    processed := bookings;
    if |bookings| == 0 {
      return Summary(Counts(0, 0, 0, 0)), processed;
    }
    var results := ClassifyBookings(bookings, lookup, send);
    SummarizeResults(bookings, lookup, send);
    var sent := CountStatus(results, Sent);
    var failed := CountStatus(results, Failed);
    var skipped := CountStatus(results, SkippedNoTour);
    response := Summary(Counts(|bookings|, sent, failed, skipped));
  }

  /**
   * The per-booking step, one booking at a time: every booking is looked
   * up and classified, and its outcome recorded in order.
   */
  method ClassifyBookings(bookings: seq<Booking>, lookup: string -> BookingsRoute.TourLookup,
                          send: (Booking, Cms.Tour) -> bool)
    returns (results: seq<ReminderResult>)
    ensures results == ClassifyAll(bookings, lookup, send)
  {
    results := [];
    var i := 0;
    while i < |bookings|
      invariant 0 <= i <= |bookings|
      invariant results == ClassifyAll(bookings[..i], lookup, send)
    {
      var status := Classify(bookings[i], lookup, send);
      results := results + [ReminderResult(bookings[i].id, status)];
      ClassifyAllSnoc(bookings[..i + 1], lookup, send);
      assert bookings[..i + 1][..i] == bookings[..i];
      i := i + 1;
    }
    assert bookings[..i] == bookings;
  }

  /** The summary of a non-empty list counts the outcomes of its bookings. */
  lemma {:induction false} SummarizeResults(bs: seq<Booking>, lookup: string -> BookingsRoute.TourLookup,
                                            send: (Booking, Cms.Tour) -> bool)
    requires bs != []
    ensures var results := ClassifyAll(bs, lookup, send);
      Summarize(bs, lookup, send) ==
        Summary(Counts(|bs|, CountStatus(results, Sent), CountStatus(results, Failed), CountStatus(results, SkippedNoTour)))
  {
  }

  /** Classifying a list extends the outcomes of its prefix by the last booking's. */
  lemma {:induction false} ClassifyAllSnoc(bs: seq<Booking>, lookup: string -> BookingsRoute.TourLookup,
                                           send: (Booking, Cms.Tour) -> bool)
    requires bs != []
    ensures ClassifyAll(bs, lookup, send) ==
      ClassifyAll(bs[..|bs| - 1], lookup, send) + [ReminderResult(bs[|bs| - 1].id, Classify(bs[|bs| - 1], lookup, send))]
  {
    var prefix := ClassifyAll(bs[..|bs| - 1], lookup, send);
    var last := ReminderResult(bs[|bs| - 1].id, Classify(bs[|bs| - 1], lookup, send));
    var all := ClassifyAll(bs, lookup, send);
    assert |all| == |prefix + [last]|;
    forall i | 0 <= i < |bs| ensures all[i] == (prefix + [last])[i] {
      if i < |bs| - 1 {
        assert bs[i] == bs[..|bs| - 1][i];
        assert (prefix + [last])[i] == prefix[i];
      } else {
        assert (prefix + [last])[i] == last;
      }
    }
  }
}

=== FILE: revalidate.dfy ===
/**
 * The content webhook: the content service posts a shared secret, and on a
 * match the cached pages that show its content are marked stale.
 */
module Revalidate {
  import opened Common
  import opened Json

  /** The two kinds of cache entry a path can be revalidated as. */
  datatype PathKind = Layout | Page

  /** The answer of `POST`; `Revalidated` records which paths were revalidated. */
  datatype Outcome =
    | NotConfigured
    | InvalidSecret
    | Revalidated(paths: seq<(string, PathKind)>)
    | Failed

  /** The HTTP status of an outcome. */
  function Status(o: Outcome): (code: int)
    ensures code == 200 <==> o.Revalidated?
    ensures code == 401 <==> o.InvalidSecret?
  {
    match o
    case NotConfigured => 500
    case InvalidSecret => 401
    case Revalidated(_) => 200
    case Failed => 500
  }

  /** The root layout, the home page, the tours page and the tour detail pages. */
  const REVALIDATED_PATHS: seq<(string, PathKind)> :=
    [("/", Layout), ("/", Page), ("/tours", Page), ("/tours/[id]", Page)]

  /**
   * `POST`: the body is parsed and its `secret` read first (an unparseable
   * or null body ends in the error answer); then a missing or empty
   * configured secret answers 500, and a secret that is not exactly the
   * configured string answers 401.
   */
  function Post(body: Body, expectedSecret: Option<string>): (o: Outcome)
    ensures body.Malformed? ==> o == Failed
    ensures body.Parsed? && body.value.JNull? ==> o == Failed
    ensures o.Revalidated? <==>
      && body.Parsed? && expectedSecret.Some? && expectedSecret.value != ""
      && Get(body.value, "secret") == Defined(JString(expectedSecret.value))
    ensures o.Revalidated? ==> o.paths == REVALIDATED_PATHS
  {
    match body
    case Malformed => Failed
    case Parsed(value) =>
      var secret := Get(value, "secret");
      if secret.Throws? then Failed
      else if expectedSecret.None? || expectedSecret.value == "" then NotConfigured
      else if secret != Defined(JString(expectedSecret.value)) then InvalidSecret
      else Revalidated(REVALIDATED_PATHS)
  }

  /** Without a configured secret no body can trigger a revalidation: the answer is 500. */
  lemma {:induction false} UnconfiguredAlwaysFails(body: Body, expectedSecret: Option<string>)
    requires expectedSecret.None? || expectedSecret.value == ""
    ensures Status(Post(body, expectedSecret)) == 500
  {
  }

  /**
   * Any parsed body other than `null` whose `secret` is not the configured
   * string answers 401 and revalidates nothing: an object with another or
   * no secret, and equally a number, string or array, which has none.
   */
  lemma {:induction false} WrongSecretRejected(value: Json, expected: string)
    requires expected != ""
    requires value != JNull
    requires Get(value, "secret") != Defined(JString(expected))
    ensures Post(Parsed(value), Some(expected)) == InvalidSecret
    ensures Status(Post(Parsed(value), Some(expected))) == 401
  {
  }

  /** The message `GET` answers with. */
  const ACTIVE_MESSAGE: string := "Revalidation endpoint is active"

  /** `GET`: always 200 with the same message; the timestamp is left out. */
  function GetStatus(): (r: (int, string))
    ensures r.0 == 200 && r.1 == ACTIVE_MESSAGE
  {
    (200, ACTIVE_MESSAGE)
  }
}

=== FILE: schema.dfy ===
/**
 * The server-side validation of booking requests: the form schema a new
 * booking must pass, the strict schema of a partial update, and the
 * conversion of accepted form values into a booking.
 */
module Schema {
  import opened Common
  import opened Json
  import opened Domain
  import Mapper

  /**
   * Tests the schemas delegate to code outside the model: membership of a
   * character in the Unicode category L (the `\p{L}` class), and the email
   * address check of the validation library.
   */
  datatype Externals = Externals(isLetter: char -> bool, isEmail: string -> bool)

  /** A property value as the schema sees it: JSON, or the `Date` the route put in its place. */
  datatype Value = JsonValue(json: Json) | DateObject(date: Option<Instant>)

  /** The form as handed to the schema: an object's properties, or some other value. */
  datatype FormBody = NotAnObject | Properties(fields: map<string, Value>)

  /** The values of an accepted form. */
  datatype FormValues = FormValues(
    name: string,
    email: string,
    phonePhoneCountryCode: string,
    phoneNumber: string,
    country: string,
    language: string,
    tourId: string,
    date: Instant,
    message: Option<string>)

  /** The keys of the form schema, in declaration order. */
  datatype FormKey =
    | NameKey | EmailKey | CountryCodeKey | PhoneKey | CountryKey
    | LanguageKey | TourKey | DateKey | MessageKey

  /** The property name of each key. */
  function KeyName(k: FormKey): string {
    match k
    case NameKey => "name"
    case EmailKey => "email"
    case CountryCodeKey => "phonePhoneCountryCode"
    case PhoneKey => "phoneNumber"
    case CountryKey => "country"
    case LanguageKey => "language"
    case TourKey => "tourId"
    case DateKey => "date"
    case MessageKey => "message"
  }

  const FORM_KEYS: seq<FormKey> :=
    [NameKey, EmailKey, CountryCodeKey, PhoneKey, CountryKey, LanguageKey, TourKey, DateKey, MessageKey]

  /** The list names every key of the schema. */
  lemma {:induction false} KeyListed(k: FormKey)
    ensures k in FORM_KEYS
  {
    match k
    case NameKey => assert FORM_KEYS[0] == k;
    case EmailKey => assert FORM_KEYS[1] == k;
    case CountryCodeKey => assert FORM_KEYS[2] == k;
    case PhoneKey => assert FORM_KEYS[3] == k;
    case CountryKey => assert FORM_KEYS[4] == k;
    case LanguageKey => assert FORM_KEYS[5] == k;
    case TourKey => assert FORM_KEYS[6] == k;
    case DateKey => assert FORM_KEYS[7] == k;
    case MessageKey => assert FORM_KEYS[8] == k;
  }

  /** Why a form was refused: it is not an object, or the rules of these keys fail. */
  datatype FormRejection = RootIssue | FieldIssues(keys: seq<FormKey>)

  /** The path of an issue about the value as a whole. */
  const ROOT: string := ""

  predicate Between(s: string, min: nat, max: nat) {
    min <= |s| <= max
  }

  /** `[\p{L}\s'.-]`. */
  predicate NameChar(ext: Externals, c: char) {
    ext.isLetter(c) || IsJsWhitespace(c) || c == '\'' || c == '.' || c == '-'
  }

  /** name: 2 to 100 characters, each a letter, whitespace, apostrophe, period or hyphen. */
  predicate NameOk(ext: Externals, s: string) {
    Between(s, 2, 100) && forall i :: 0 <= i < |s| ==> NameChar(ext, s[i])
  }

  /** `[\d\s\-\(\)]`. */
  predicate PhoneChar(c: char) {
    IsDigit(c) || IsJsWhitespace(c) || c == '-' || c == '(' || c == ')'
  }

  /** phoneNumber: 6 to 15 characters (of any of the allowed kinds), each a digit, whitespace, '-', '(' or ')'. */
  predicate PhoneOk(s: string) {
    Between(s, 6, 15) && forall i :: 0 <= i < |s| ==> PhoneChar(s[i])
  }

  /** country: 2 to 100 characters. */
  predicate CountryOk(s: string) {
    Between(s, 2, 100)
  }

  /** phonePhoneCountryCode, language, tourId: present and non-empty. */
  predicate NonEmpty(s: string) {
    |s| >= 1
  }

  /** date: a valid date no earlier than midnight at the start of `today`. */
  predicate DateOk(t: Instant, today: Day) {
    EpochMillis(t) >= EpochMillis(StartOfDay(today))
  }

  /** message: at most 1000 characters. */
  predicate MessageOk(s: string) {
    |s| <= 1000
  }

  /** A property that must be a string. */
  function StringAt(fields: map<string, Value>, key: string): Option<string> {
    if key in fields && fields[key].JsonValue? && fields[key].json.JString? then Some(fields[key].json.s)
    else None
  }

  /** A property that must be a valid `Date`. */
  function DateAt(fields: map<string, Value>, key: string): Option<Instant> {
    if key in fields && fields[key].DateObject? then fields[key].date else None
  }

  /**
   * The rule of the form schema for one key; the message is optional, may
   * not be `null`, and every other property is required.
   */
  predicate FieldOk(ext: Externals, fields: map<string, Value>, key: FormKey, today: Day) {
    var name := KeyName(key);
    var s := StringAt(fields, name);
    match key
    case NameKey => s.Some? && NameOk(ext, s.value)
    case EmailKey => s.Some? && ext.isEmail(s.value)
    case PhoneKey => s.Some? && PhoneOk(s.value)
    case CountryKey => s.Some? && CountryOk(s.value)
    case DateKey => DateAt(fields, name).Some? && DateOk(DateAt(fields, name).value, today)
    case MessageKey => name !in fields || (s.Some? && MessageOk(s.value))
    case _ => s.Some? && NonEmpty(s.value)
  }

  /** Every rule of the form schema holds of the properties. */
  predicate FormAccepted(ext: Externals, fields: map<string, Value>, today: Day) {
    forall k :: FieldOk(ext, fields, k, today)
  }

  /** The keys among `keys` whose rules fail, in order. */
  function FailingKeys(ext: Externals, fields: map<string, Value>, today: Day, keys: seq<FormKey>): (r: seq<FormKey>)
    ensures forall k :: k in r <==> k in keys && !FieldOk(ext, fields, k, today)
  {
    if keys == [] then []
    else if FieldOk(ext, fields, keys[0], today) then FailingKeys(ext, fields, today, keys[1..])
    else [keys[0]] + FailingKeys(ext, fields, today, keys[1..])
  }

  /** The keys whose rules fail, in schema order. */
  function FormIssues(ext: Externals, fields: map<string, Value>, today: Day): (issues: seq<FormKey>)
    ensures forall k :: k in issues <==> !FieldOk(ext, fields, k, today)
    ensures issues == [] <==> FormAccepted(ext, fields, today)
  {
    var issues := FailingKeys(ext, fields, today, FORM_KEYS);
    assert forall k :: k in issues <==> !FieldOk(ext, fields, k, today) by {
      forall k ensures k in FORM_KEYS {
        KeyListed(k);
      }
    }
    assert issues != [] ==> issues[0] in issues;
    issues
  }

  /** Two property maps on which every rule agrees have the same failing keys. */
  lemma {:induction false} FailingKeysAgree(ext: Externals, f: map<string, Value>, g: map<string, Value>, today: Day, keys: seq<FormKey>)
    requires forall k :: FieldOk(ext, f, k, today) == FieldOk(ext, g, k, today)
    ensures FailingKeys(ext, f, today, keys) == FailingKeys(ext, g, today, keys)
  {
    if keys != [] {
      FailingKeysAgree(ext, f, g, today, keys[1..]);
    }
  }

  /** Two accepted property maps that agree on every key of the schema give the same values. */
  lemma {:induction false} AcceptedValuesAgree(ext: Externals, f: map<string, Value>, g: map<string, Value>, today: Day)
    requires FormAccepted(ext, f, today) && FormAccepted(ext, g, today)
    requires forall k :: StringAt(f, KeyName(k)) == StringAt(g, KeyName(k)) && DateAt(f, KeyName(k)) == DateAt(g, KeyName(k))
    ensures AcceptedValues(ext, f, today) == AcceptedValues(ext, g, today)
  {
    assert StringAt(f, KeyName(NameKey)) == StringAt(g, KeyName(NameKey));
    assert StringAt(f, KeyName(EmailKey)) == StringAt(g, KeyName(EmailKey));
    assert StringAt(f, KeyName(CountryCodeKey)) == StringAt(g, KeyName(CountryCodeKey));
    assert StringAt(f, KeyName(PhoneKey)) == StringAt(g, KeyName(PhoneKey));
    assert StringAt(f, KeyName(CountryKey)) == StringAt(g, KeyName(CountryKey));
    assert StringAt(f, KeyName(LanguageKey)) == StringAt(g, KeyName(LanguageKey));
    assert StringAt(f, KeyName(TourKey)) == StringAt(g, KeyName(TourKey));
    assert DateAt(f, KeyName(DateKey)) == DateAt(g, KeyName(DateKey));
    assert StringAt(f, KeyName(MessageKey)) == StringAt(g, KeyName(MessageKey));
  }

  /** The values of an accepted form: each property as given, the message only when present. */
  function AcceptedValues(ext: Externals, fields: map<string, Value>, today: Day): (v: FormValues)
    requires FormAccepted(ext, fields, today)
    ensures NameOk(ext, v.name) && ext.isEmail(v.email) && NonEmpty(v.phonePhoneCountryCode)
    ensures PhoneOk(v.phoneNumber) && CountryOk(v.country) && NonEmpty(v.language) && NonEmpty(v.tourId)
    ensures v.date.day >= today && (v.message.Some? ==> MessageOk(v.message.value))
    ensures StringAt(fields, "name") == Some(v.name) && StringAt(fields, "email") == Some(v.email)
    ensures StringAt(fields, "phonePhoneCountryCode") == Some(v.phonePhoneCountryCode)
    ensures StringAt(fields, "phoneNumber") == Some(v.phoneNumber)
    ensures StringAt(fields, "country") == Some(v.country) && StringAt(fields, "language") == Some(v.language)
    ensures StringAt(fields, "tourId") == Some(v.tourId) && DateAt(fields, "date") == Some(v.date)
    ensures v.message == StringAt(fields, "message")
  {
    assert FieldOk(ext, fields, NameKey, today) && FieldOk(ext, fields, EmailKey, today);
    assert FieldOk(ext, fields, CountryCodeKey, today) && FieldOk(ext, fields, PhoneKey, today);
    assert FieldOk(ext, fields, CountryKey, today) && FieldOk(ext, fields, LanguageKey, today);
    assert FieldOk(ext, fields, TourKey, today) && FieldOk(ext, fields, DateKey, today);
    assert FieldOk(ext, fields, MessageKey, today);
    var date := DateAt(fields, "date").value;
    NotBeforeStartOfDay(date, today);
    FormValues(
      StringAt(fields, "name").value, StringAt(fields, "email").value,
      StringAt(fields, "phonePhoneCountryCode").value, StringAt(fields, "phoneNumber").value,
      StringAt(fields, "country").value, StringAt(fields, "language").value,
      StringAt(fields, "tourId").value, date,
      StringAt(fields, "message"))
  }

  /**
   * `bookingFormSchema.safeParse`: the form values when every rule holds
   * (other properties are dropped), otherwise the keys of the failing rules,
   * or the root when the value is not an object.
   */
  function SafeParseForm(ext: Externals, body: FormBody, today: Day): (r: Result<FormValues, FormRejection>)
    ensures r.Ok? <==> body.Properties? && FormAccepted(ext, body.fields, today)
    ensures r.Ok? ==> r.value == AcceptedValues(ext, body.fields, today)
    ensures r.Err? && body.NotAnObject? ==> r.error == RootIssue
    ensures r.Err? && body.Properties? ==>
      r.error.FieldIssues? && r.error.keys != [] &&
      forall k :: k in r.error.keys <==> !FieldOk(ext, body.fields, k, today)
  {
    if body.NotAnObject? then Err(RootIssue)
    else
      var issues := FormIssues(ext, body.fields, today);
      if issues != [] then Err(FieldIssues(issues))
      else Ok(AcceptedValues(ext, body.fields, today))
  }

  /** A rule reads only the property it is about. */
  lemma {:induction false} FieldOkIgnoresOtherKey(ext: Externals, fields: map<string, Value>, key: string, v: Value, k: FormKey, today: Day)
    requires key != KeyName(k)
    ensures StringAt(fields[key := v], KeyName(k)) == StringAt(fields, KeyName(k))
    ensures DateAt(fields[key := v], KeyName(k)) == DateAt(fields, KeyName(k))
    ensures FieldOk(ext, fields[key := v], k, today) == FieldOk(ext, fields, k, today)
  {
    var g := fields[key := v];
    var name := KeyName(k);
    assert (name in g <==> name in fields) && (name in g ==> g[name] == fields[name]);
  }

  /** The form schema is not strict: a property outside the schema changes nothing. */
  lemma {:induction false} FormIgnoresUnknownKeys(ext: Externals, fields: map<string, Value>, key: string, v: Value, today: Day)
    requires forall k :: key != KeyName(k)
    ensures SafeParseForm(ext, Properties(fields[key := v]), today) == SafeParseForm(ext, Properties(fields), today)
  {
    var g := fields[key := v];
    forall k
      ensures StringAt(g, KeyName(k)) == StringAt(fields, KeyName(k)) && DateAt(g, KeyName(k)) == DateAt(fields, KeyName(k))
      ensures FieldOk(ext, g, k, today) == FieldOk(ext, fields, k, today)
    {
      FieldOkIgnoresOtherKey(ext, fields, key, v, k, today);
    }
    FailingKeysAgree(ext, g, fields, today, FORM_KEYS);
    if FormAccepted(ext, fields, today) {
      AcceptedValuesAgree(ext, g, fields, today);
    }
  }

  /** A valid date passes the form's date rule exactly when its calendar day is today or later. */
  lemma {:induction false} DateRuleIsCalendarDay(t: Instant, today: Day)
    ensures DateOk(t, today) <==> t.day >= today
  {
    NotBeforeStartOfDay(t, today);
  }

  /** The values of an accepted partial update. */
  datatype ValidPatch = ValidPatch(
    status: Option<BookingStatus>,
    paymentStatus: Option<PaymentStatus>,
    paymentMethod: Option<PaymentMethod>,
    price: Option<real>,
    clientMessage: Option<string>)

  /** The only keys the strict patch schema admits. */
  const PATCH_KEYS: set<string> := {"status", "paymentStatus", "paymentMethod", "price", "clientMessage"}

  /** A present patch property of the right type and range. */
  predicate PatchFieldOk(key: string, value: Json) {
    if key == "status" then value.JString? && ParseStatus(value.s).Some?
    else if key == "paymentStatus" then value.JString? && ParsePaymentStatus(value.s).Some?
    else if key == "paymentMethod" then value.JString? && ParsePaymentMethod(value.s).Some?
    else if key == "price" then value.JNumber? && value.n > 0.0
    else if key == "clientMessage" then value.JString? && MessageOk(value.s)
    else false
  }

  /** Every property is a known key holding an acceptable value. */
  predicate PatchAccepted(fields: map<string, Json>) {
    forall k :: k in fields ==> k in PATCH_KEYS && PatchFieldOk(k, fields[k])
  }

  /**
   * `bookingPatchSchema.safeParse`: an object whose every property is one of
   * the five known keys with an acceptable value; anything else is refused,
   * naming the failing keys (an unknown key is reported at the root).
   */
  function SafeParsePatch(body: Json): (r: Result<ValidPatch, set<string>>)
    ensures r.Ok? <==> body.JObject? && PatchAccepted(body.fields)
    ensures r.Ok? ==> forall k :: k in body.fields ==> k in PATCH_KEYS
    ensures r.Ok? ==> (r.value.price.Some? ==> r.value.price.value > 0.0)
    ensures r.Ok? ==> (r.value.clientMessage.Some? ==> MessageOk(r.value.clientMessage.value))
    ensures r.Ok? ==> (r.value.status.Some? <==> "status" in body.fields)
    ensures r.Ok? ==> (r.value.paymentMethod.Some? <==> "paymentMethod" in body.fields)
    ensures r.Ok? ==> (r.value.paymentStatus.Some? <==> "paymentStatus" in body.fields)
    ensures r.Ok? ==> (r.value.price.Some? <==> "price" in body.fields)
    ensures r.Ok? ==> (r.value.clientMessage.Some? <==> "clientMessage" in body.fields)
    ensures r.Ok? && r.value.status.Some? ==> body.fields["status"] == JString(StatusText(r.value.status.value))
    ensures r.Ok? && r.value.paymentStatus.Some? ==>
      body.fields["paymentStatus"] == JString(PaymentStatusText(r.value.paymentStatus.value))
    ensures r.Ok? && r.value.paymentMethod.Some? ==>
      body.fields["paymentMethod"] == JString(PaymentMethodText(r.value.paymentMethod.value))
    ensures r.Ok? && r.value.price.Some? ==> body.fields["price"] == JNumber(r.value.price.value)
    ensures r.Ok? && r.value.clientMessage.Some? ==> body.fields["clientMessage"] == JString(r.value.clientMessage.value)
    ensures r.Err? ==> r.error != {}
  {
    if !body.JObject? then Err({ROOT})
    else
      var fields := body.fields;
      if !PatchAccepted(fields) then
        var k0 :| k0 in fields && !(k0 in PATCH_KEYS && PatchFieldOk(k0, fields[k0]));
        var bad := set k | k in fields && k in PATCH_KEYS && !PatchFieldOk(k, fields[k]);
        var unknown := exists k :: k in fields && k !in PATCH_KEYS;
        assert k0 in bad || unknown;
        Err(bad + (if unknown then {ROOT} else {}))
      else
        Ok(ValidPatch(
          if "status" in fields then ParseStatus(fields["status"].s) else None,
          if "paymentStatus" in fields then ParsePaymentStatus(fields["paymentStatus"].s) else None,
          if "paymentMethod" in fields then ParsePaymentMethod(fields["paymentMethod"].s) else None,
          if "price" in fields then Some(fields["price"].n) else None,
          if "clientMessage" in fields then Some(fields["clientMessage"].s) else None))
  }

  /** The update body that sends exactly the given fields of a patch. */
  function PatchJson(v: ValidPatch): (fields: map<string, Json>)
    ensures forall k :: k in fields ==> k in PATCH_KEYS
  {
    var a := if v.status.Some? then map["status" := JString(StatusText(v.status.value))] else map[];
    var b := if v.paymentStatus.Some? then a["paymentStatus" := JString(PaymentStatusText(v.paymentStatus.value))] else a;
    var c := if v.paymentMethod.Some? then b["paymentMethod" := JString(PaymentMethodText(v.paymentMethod.value))] else b;
    var d := if v.price.Some? then c["price" := JNumber(v.price.value)] else c;
    if v.clientMessage.Some? then d["clientMessage" := JString(v.clientMessage.value)] else d
  }

  /**
   * Every patch the schema can produce is read back from its own body:
   * a positive price and an acceptable message are all the schema asks.
   */
  lemma {:induction false} PatchRoundTrip(v: ValidPatch)
    requires v.price.Some? ==> v.price.value > 0.0
    requires v.clientMessage.Some? ==> MessageOk(v.clientMessage.value)
    ensures SafeParsePatch(JObject(PatchJson(v))) == Ok(v)
  {
    var fields := PatchJson(v);
    var s := if v.status.Some? then v.status.value else Pending;
    var p := if v.paymentStatus.Some? then v.paymentStatus.value else Paid;
    var m := if v.paymentMethod.Some? then v.paymentMethod.value else Cash;
    EnumTextRoundTrip(s, p, m);
    assert PatchAccepted(fields);
    var r := SafeParsePatch(JObject(fields));
    assert r.Ok?;
    assert r.value.status == v.status;
    assert r.value.paymentStatus == v.paymentStatus;
    assert r.value.paymentMethod == v.paymentMethod;
  }

  /** The strict schema refuses any property outside the five, such as a new date or tour. */
  lemma {:induction false} PatchRejectsUnknownKey(fields: map<string, Json>, key: string)
    requires key in fields && key !in PATCH_KEYS
    ensures SafeParsePatch(JObject(fields)).Err?
    ensures ROOT in SafeParsePatch(JObject(fields)).error
  {
  }

  /** The store patch an accepted update denotes. */
  function ToBookingPatch(v: ValidPatch): (p: Mapper.BookingPatch)
    ensures p.clientName.None? && p.clientEmail.None? && p.clientPhone.None?
    ensures p.clientPhoneCountryCode.None? && p.clientCountry.None? && p.clientLanguage.None?
    ensures p.clientSelectedDate.None? && p.tourId.None?
    ensures p.paymentMethod != Some(None)
    ensures p.status == v.status && p.paymentStatus == v.paymentStatus && p.price == v.price
    ensures p.paymentMethod.Some? <==> v.paymentMethod.Some?
    ensures v.paymentMethod.Some? ==> p.paymentMethod == Some(Some(v.paymentMethod.value))
    ensures p.clientMessage.Some? <==> v.clientMessage.Some?
    ensures v.clientMessage.Some? ==> p.clientMessage == Some(Some(v.clientMessage.value))
  {
    Mapper.EMPTY_PATCH.(
      status := v.status,
      paymentStatus := v.paymentStatus,
      paymentMethod := if v.paymentMethod.Some? then Some(Some(v.paymentMethod.value)) else None,
      price := v.price,
      clientMessage := if v.clientMessage.Some? then Some(Some(v.clientMessage.value)) else None)
  }

  /**
   * An accepted update writes only the status, payment status, payment method,
   * price and message columns; it never clears the payment method and never
   * writes a price that is not positive.
   */
  lemma {:induction false} PatchTouchesOnlyItsColumns(v: ValidPatch)
    ensures Mapper.UpdateColumns(Mapper.PatchToUpdate(ToBookingPatch(v)))
         <= {"status", "payment_status", "payment_method", "price", "client_message"}
    ensures Mapper.PatchCell(ToBookingPatch(v), Mapper.PaymentMethod) != Some(Mapper.Null)
  {
    var p := ToBookingPatch(v);
    forall c | c in Mapper.UpdateColumns(Mapper.PatchToUpdate(p))
      ensures c in {"status", "payment_status", "payment_method", "price", "client_message"}
    {
      var f :| Mapper.UpdateCell(Mapper.PatchToUpdate(p), f).Some? && Mapper.ColumnName(f) == c;
      assert Mapper.PatchCell(p, f).Some?;
    }
  }

  /**
   * `transformFormToBooking`: a new booking is pending and unpaid with no
   * payment method, costs the given price, is on the chosen calendar day,
   * and carries the form's text fields one to one (an absent message as null).
   */
  function TransformFormToBooking(form: FormValues, price: real): (b: BookingInput)
    ensures b.status == Pending && b.paymentStatus == PaymentPending && b.paymentMethod.None?
    ensures b.price == price && b.clientSelectedDate == form.date.day
    ensures b.clientMessage == form.message
    ensures b.clientName == form.name && b.clientEmail == form.email && b.clientPhone == form.phoneNumber
    ensures b.clientPhoneCountryCode == form.phonePhoneCountryCode && b.clientCountry == form.country
    ensures b.clientLanguage == form.language && b.tourId == form.tourId
  {
    BookingInput(
      clientName := form.name,
      clientEmail := form.email,
      clientPhone := form.phoneNumber,
      clientPhoneCountryCode := form.phonePhoneCountryCode,
      clientCountry := form.country,
      clientLanguage := form.language,
      clientSelectedDate := form.date.day,
      clientMessage := form.message,
      tourId := form.tourId,
      status := Pending,
      price := price,
      paymentStatus := PaymentPending,
      paymentMethod := None)
  }
}

=== FILE: search_params.dfy ===
/**
 * `URLSearchParams` as the client builds it and the server reads it: an
 * ordered list of name/value pairs, written as `name=value` pieces joined
 * by `&` (the application/x-www-form-urlencoded format of the WHATWG URL
 * Standard, for names and values that need no percent-encoding).
 */
module SearchParams {
  import opened Common

  type Params = seq<(string, string)>

  /** Some pair has this name. */
  predicate HasName(ps: Params, name: string) {
    exists i :: 0 <= i < |ps| && ps[i].0 == name
  }

  /** `params.get(name)`: the value of the first pair with this name, or null. */
  function ParamGet(ps: Params, name: string): (r: Option<string>)
    ensures r.None? <==> !HasName(ps, name)
    ensures r.Some? ==> (name, r.value) in ps
  {
    if ps == [] then None
    else if ps[0].0 == name then Some(ps[0].1)
    else
      assert HasName(ps[1..], name) <==> HasName(ps, name) by {
        if HasName(ps[1..], name) {
          var i :| 0 <= i < |ps[1..]| && ps[1..][i].0 == name;
          assert ps[i + 1].0 == name;
        }
        if HasName(ps, name) {
          var i :| 0 <= i < |ps| && ps[i].0 == name;
          assert i > 0 && ps[1..][i - 1].0 == name;
        }
      }
      ParamGet(ps[1..], name)
  }

  /** The pairs whose name differs from `name`, in order. */
  function RemoveName(ps: Params, name: string): (r: Params)
    ensures !HasName(r, name)
    ensures forall other :: other != name ==> ParamGet(r, other) == ParamGet(ps, other)
  {
    if ps == [] then []
    else if ps[0].0 == name then RemoveName(ps[1..], name)
    else
      var rest := RemoveName(ps[1..], name);
      assert !HasName([ps[0]] + rest, name) by {
        forall i | 0 <= i < |[ps[0]] + rest| ensures ([ps[0]] + rest)[i].0 != name {
          if i > 0 {
            assert ([ps[0]] + rest)[i] == rest[i - 1];
          }
        }
      }
      [ps[0]] + rest
  }

  /** Replaces the value of the first pair named `name` and drops the later ones. */
  function SetFirst(ps: Params, name: string, value: string): (r: Params)
    requires HasName(ps, name)
    ensures ParamGet(r, name) == Some(value)
    ensures forall other :: other != name ==> ParamGet(r, other) == ParamGet(ps, other)
  {
    if ps[0].0 == name then [(name, value)] + RemoveName(ps[1..], name)
    else
      assert HasName(ps[1..], name) by {
        var i :| 0 <= i < |ps| && ps[i].0 == name;
        assert i > 0 && ps[1..][i - 1].0 == name;
      }
      [ps[0]] + SetFirst(ps[1..], name, value)
  }

  /**
   * `params.set(name, value)`: afterwards `get(name)` gives `value` and every
   * other name reads as before; a new name is appended at the end.
   */
  function ParamsSet(ps: Params, name: string, value: string): (r: Params)
    ensures ParamGet(r, name) == Some(value)
    ensures forall other :: other != name ==> ParamGet(r, other) == ParamGet(ps, other)
    ensures !HasName(ps, name) ==> r == ps + [(name, value)]
  {
    if HasName(ps, name) then SetFirst(ps, name, value)
    else
      var r := ps + [(name, value)];
      ParamGetAppend(ps, [(name, value)], name);
      assert forall other :: other != name ==> ParamGet(r, other) == ParamGet(ps, other) by {
        forall other | other != name ensures ParamGet(r, other) == ParamGet(ps, other) {
          ParamGetAppend(ps, [(name, value)], other);
        }
      }
      r
  }

  /** Looking up in a concatenation: the first list wins. */
  lemma {:induction false} ParamGetAppend(a: Params, b: Params, name: string)
    ensures ParamGet(a + b, name) == if ParamGet(a, name).Some? then ParamGet(a, name) else ParamGet(b, name)
  {
    if a != [] {
      assert (a + b)[1..] == a[1..] + b;
      ParamGetAppend(a[1..], b, name);
    } else {
      assert a + b == b;
    }
  }

  /** `sep`-separated concatenation of the parts. */
  function Join(parts: seq<string>, sep: char): (s: string)
    ensures parts == [] ==> s == []
    ensures parts != [] ==> |s| >= |parts[0]|
  {
    if parts == [] then []
    else if |parts| == 1 then parts[0]
    else parts[0] + [sep] + Join(parts[1..], sep)
  }

  /** One `name=value` piece. */
  function Piece(p: (string, string)): string {
    p.0 + "=" + p.1
  }

  function Pieces(ps: Params): (r: seq<string>)
    ensures |r| == |ps|
    ensures forall i :: 0 <= i < |ps| ==> r[i] == Piece(ps[i])
  {
    seq(|ps|, i requires 0 <= i < |ps| => Piece(ps[i]))
  }

  /** `params.toString()` for names and values that need no encoding. */
  function Serialize(ps: Params): string {
    Join(Pieces(ps), '&')
  }

  /** Splits a piece at its first `=`; a piece without one is a name with an empty value. */
  function SplitPair(piece: string): (p: (string, string))
    ensures '=' !in p.0
  {
    if piece == [] then ("", "")
    else if piece[0] == '=' then ("", piece[1..])
    else
      var rest := SplitPair(piece[1..]);
      ([piece[0]] + rest.0, rest.1)
  }

  /** The pairs of the pieces, skipping empty pieces. */
  function PairsOf(pieces: seq<string>): Params {
    if pieces == [] then []
    else if pieces[0] == [] then PairsOf(pieces[1..])
    else [SplitPair(pieces[0])] + PairsOf(pieces[1..])
  }

  /** `new URLSearchParams(query)`, for a query without the leading `?`. */
  function ParseSearch(query: string): Params {
    PairsOf(Split(query, '&'))
  }

  /** A name or value that passes through the query string unchanged. */
  predicate PlainText(s: string) {
    forall i :: 0 <= i < |s| ==> s[i] != '&' && s[i] != '=' && s[i] != '%' && s[i] != '+'
  }

  /** Pairs the format carries unchanged: plain text and non-empty names. */
  predicate PlainParams(ps: Params) {
    forall i :: 0 <= i < |ps| ==> ps[i].0 != [] && PlainText(ps[i].0) && PlainText(ps[i].1)
  }

  lemma {:induction false} SplitPairPiece(name: string, value: string)
    requires '=' !in name
    ensures SplitPair(name + "=" + value) == (name, value)
  {
    if name == [] {
      assert name + "=" + value == ['='] + value;
    } else {
      var piece := name + "=" + value;
      assert piece[0] == name[0] && piece[1..] == name[1..] + "=" + value;
      SplitPairPiece(name[1..], value);
      assert [name[0]] + name[1..] == name;
    }
  }

  /** Splitting text that starts with a separator-free prefix extends the first part. */
  lemma {:induction false} SplitPrefix(p: string, s: string, sep: char)
    requires sep !in p
    ensures Split(p + s, sep) == [p + Split(s, sep)[0]] + Split(s, sep)[1..]
    decreases |p|
  {
    if p != [] {
      assert (p + s)[0] == p[0] && (p + s)[1..] == p[1..] + s;
      SplitPrefix(p[1..], s, sep);
      var r := Split(p[1..] + s, sep);
      assert r[0] == p[1..] + Split(s, sep)[0] && r[1..] == Split(s, sep)[1..];
      assert [p[0]] + (p[1..] + Split(s, sep)[0]) == p + Split(s, sep)[0];
    } else {
      assert p + s == s;
      assert p + Split(s, sep)[0] == Split(s, sep)[0];
      assert Split(s, sep) == [Split(s, sep)[0]] + Split(s, sep)[1..];
    }
  }

  /** Splitting a join gives back the parts when none contains the separator. */
  lemma {:induction false} SplitJoin(parts: seq<string>, sep: char)
    requires parts != []
    requires forall i :: 0 <= i < |parts| ==> sep !in parts[i]
    ensures Split(Join(parts, sep), sep) == parts
  {
    if |parts| == 1 {
      SplitPrefix(parts[0], [], sep);
      assert parts[0] + [] == parts[0];
    } else {
      var rest := Join(parts[1..], sep);
      SplitJoin(parts[1..], sep);
      assert Join(parts, sep) == parts[0] + ([sep] + rest);
      SplitPrefix(parts[0], [sep] + rest, sep);
      assert ([sep] + rest)[1..] == rest;
      assert Split([sep] + rest, sep) == [""] + parts[1..];
      assert parts[0] + "" == parts[0];
      assert parts == [parts[0]] + parts[1..];
    }
  }

  lemma {:induction false} PairsOfPieces(ps: Params)
    requires PlainParams(ps)
    ensures PairsOf(Pieces(ps)) == ps
  {
    if ps != [] {
      assert Pieces(ps)[1..] == Pieces(ps[1..]);
      PairsOfPieces(ps[1..]);
      assert '=' !in ps[0].0 by {
        forall i | 0 <= i < |ps[0].0| ensures ps[0].0[i] != '=' {
          assert PlainText(ps[0].0);
        }
      }
      SplitPairPiece(ps[0].0, ps[0].1);
    }
  }

  /** Parsing what `toString` wrote gives back the same pairs in the same order. */
  lemma {:induction false} ParseSerialize(ps: Params)
    requires PlainParams(ps)
    ensures ParseSearch(Serialize(ps)) == ps
  {
    if ps == [] {
      assert Split([], '&') == [""];
    } else {
      var pieces := Pieces(ps);
      forall i | 0 <= i < |pieces| ensures '&' !in pieces[i] {
        assert PlainText(ps[i].0) && PlainText(ps[i].1);
        assert pieces[i] == ps[i].0 + "=" + ps[i].1;
        forall j | 0 <= j < |pieces[i]| ensures pieces[i][j] != '&' {
          if j < |ps[i].0| {
            assert pieces[i][j] == ps[i].0[j];
          } else if j > |ps[i].0| {
            assert pieces[i][j] == ps[i].1[j - |ps[i].0| - 1];
          }
        }
      }
      SplitJoin(pieces, '&');
      PairsOfPieces(ps);
    }
  }
}

=== FILE: store.dfy ===
/**
 * The booking store: the `bookings` table with its soft-delete tombstone,
 * the filtered listing, the availability queries and the update and delete
 * operations the API routes call.
 */
module Store {
  import opened Common
  import opened Domain
  import opened Mapper

  /** `GetAllBookingsFilters.dateRange`: `start` inclusive, `end` exclusive. */
  datatype DateRange = DateRange(start: Day, end: Day)

  /** `GetAllBookingsFilters`: every field optional. */
  datatype Filters = Filters(
    status: Option<BookingStatus>,
    paymentStatus: Option<PaymentStatus>,
    future: Option<bool>,
    past: Option<bool>,
    dateRange: Option<DateRange>)

  const NO_FILTERS: Filters := Filters(None, None, None, None, None)

  /** The statuses that hold a date: `["pending", "confirmed"]`. */
  const HOLDING_STATUSES: seq<string> := ["pending", "confirmed"]

  /** One condition of a query on the `bookings` table. */
  datatype Clause =
    | DeletedAtIsNull                 // .is("deleted_at", null)
    | StatusEq(status: string)        // .eq("status", …)
    | PaymentStatusEq(status: string) // .eq("payment_status", …)
    | StatusIn(statuses: seq<string>) // .in("status", […])
    | DateEq(day: Day)                // .eq("client_selected_date", …)
    | DateGte(day: Day)               // .gte("client_selected_date", …)
    | DateLt(day: Day)                // .lt("client_selected_date", …)

  predicate Holds(row: BookingRow, c: Clause) {
    match c
    case DeletedAtIsNull => row.deleted_at.None?
    case StatusEq(s) => row.status == s
    case PaymentStatusEq(s) => row.payment_status == s
    case StatusIn(ss) => row.status in ss
    case DateEq(d) => row.client_selected_date == d
    case DateGte(d) => row.client_selected_date >= d
    case DateLt(d) => row.client_selected_date < d
  }

  /** A row is selected by a query when it satisfies every clause. */
  predicate Selects(query: seq<Clause>, row: BookingRow) {
    forall i :: 0 <= i < |query| ==> Holds(row, query[i])
  }

  /** A row that has not been soft-deleted. */
  predicate Active(row: BookingRow) {
    row.deleted_at.None?
  }

  predicate StatusOk(row: BookingRow, f: Filters) {
    f.status.Some? ==> row.status == StatusText(f.status.value)
  }

  predicate PaymentStatusOk(row: BookingRow, f: Filters) {
    f.paymentStatus.Some? ==> row.payment_status == PaymentStatusText(f.paymentStatus.value)
  }

  /** `future`: true keeps the days from today on, false the days before today. */
  predicate FutureOk(row: BookingRow, f: Filters, today: Day) {
    f.future.Some? ==> (row.client_selected_date >= today <==> f.future.value)
  }

  /** `past`: true keeps the days before today, false the days from today on. */
  predicate PastOk(row: BookingRow, f: Filters, today: Day) {
    f.past.Some? ==> (row.client_selected_date < today <==> f.past.value)
  }

  /** `dateRange`: `start <= day < end`. */
  predicate RangeOk(row: BookingRow, f: Filters) {
    f.dateRange.Some? ==> f.dateRange.value.start <= row.client_selected_date < f.dateRange.value.end
  }

  /** What a listing filter means: an active row that meets every filter that is set. */
  predicate Matches(row: BookingRow, f: Filters, today: Day) {
    && Active(row) && StatusOk(row, f) && PaymentStatusOk(row, f)
    && FutureOk(row, f, today) && PastOk(row, f, today) && RangeOk(row, f)
  }

  /** An active booking that holds its date: status pending or confirmed. */
  predicate Holding(row: BookingRow) {
    Active(row) && (row.status == "pending" || row.status == "confirmed")
  }

  type Table = map<BookingId, BookingRow>

  /** The table invariant: rows are keyed by their id and hold valid enumeration texts. */
  predicate WellFormedTable(t: Table) {
    forall id :: id in t ==> t[id].id == id && WellFormedRow(t[id])
  }

  /** The ids of the rows a listing with these filters returns. */
  function MatchingIds(t: Table, f: Filters, today: Day): set<BookingId> {
    set id | id in t && Matches(t[id], f, today)
  }

  /** The ids of the bookings that hold a day. */
  function HoldersOf(t: Table, day: Day): set<BookingId> {
    set id | id in t && Holding(t[id]) && t[id].client_selected_date == day
  }

  /** A day is free when no booking holds it. */
  predicate DateAvailable(t: Table, day: Day) {
    HoldersOf(t, day) == {}
  }

  /** The active row with this id, if any. */
  function FindActive(t: Table, id: BookingId): (r: Option<BookingRow>)
    ensures r.Some? <==> id in t && Active(t[id])
    ensures r.Some? ==> r.value == t[id]
  {
    if id in t && Active(t[id]) then Some(t[id]) else None
  }

  /**
   * `deleteBooking` on a table: when the row is active it gets the tombstone
   * `now` and the answer is true; otherwise nothing changes and the answer is false.
   */
  function SoftDelete(t: Table, id: BookingId, now: Timestamp): (res: (Table, bool))
    ensures res.1 <==> FindActive(t, id).Some?
    ensures res.0.Keys == t.Keys
  {
    if FindActive(t, id).Some? then (t[id := t[id].(deleted_at := Some(now))], true)
    else (t, false)
  }

  /**
   * `updateBooking` on a table: when the row is active the patch's columns
   * are written into it and the new row is returned; otherwise nothing changes.
   */
  function Update(t: Table, id: BookingId, p: BookingPatch): (res: (Table, Option<BookingRow>))
    ensures res.1.Some? <==> FindActive(t, id).Some?
    ensures res.0.Keys == t.Keys
  {
    if FindActive(t, id).Some? then
      var row := ApplyUpdate(t[id], PatchToUpdate(p));
      (t[id := row], Some(row))
    else (t, None)
  }

  /** The ids in a list of bookings. */
  function Ids(s: seq<Booking>): set<BookingId> {
    set b | b in s :: b.id
  }

  /** Newest created first. */
  predicate NewestFirst(s: seq<Booking>) {
    forall i, j :: 0 <= i < j < |s| ==> s[i].createdAt >= s[j].createdAt
  }

  /** Inserts a booking before the first one created no later than it. */
  function InsertNewestFirst(s: seq<Booking>, b: Booking): (r: seq<Booking>)
    ensures multiset(r) == multiset(s) + multiset{b}
  {
    if s == [] then [b]
    else if b.createdAt >= s[0].createdAt then [b] + s
    else
      assert s == [s[0]] + s[1..];
      [s[0]] + InsertNewestFirst(s[1..], b)
  }

  /** Insertion keeps a newest-first list newest first. */
  lemma {:induction false} InsertKeepsNewestFirst(s: seq<Booking>, b: Booking)
    requires NewestFirst(s)
    ensures NewestFirst(InsertNewestFirst(s, b))
  {
    if s != [] && b.createdAt < s[0].createdAt {
      var rest := InsertNewestFirst(s[1..], b);
      InsertKeepsNewestFirst(s[1..], b);
      var r := [s[0]] + rest;
      forall j | 0 < j < |r| ensures r[0].createdAt >= r[j].createdAt {
        var x := r[j];
        assert x in multiset(rest);
        assert x in multiset(s[1..]) || x == b;
        if x != b {
          var k :| 0 <= k < |s[1..]| && s[1..][k] == x;
          assert s[k + 1] == x;
        }
      }
    }
  }

  /** Inserting one booking adds its id to the ids. */
  lemma InsertNewestFirstIds(s: seq<Booking>, b: Booking)
    ensures forall x :: x in InsertNewestFirst(s, b) <==> x in s || x == b
    ensures Ids(InsertNewestFirst(s, b)) == Ids(s) + {b.id}
    ensures |InsertNewestFirst(s, b)| == |s| + 1
  {
    var r := InsertNewestFirst(s, b);
    assert |r| == |multiset(r)|;
    forall x ensures x in r <==> x in s || x == b {
      assert x in r <==> x in multiset(r);
      assert x in s <==> x in multiset(s);
    }
  }

  lemma IdsCardinality(s: seq<Booking>)
    ensures |Ids(s)| <= |s|
    decreases |s|
  {
    if s != [] {
      IdsCardinality(s[1..]);
      assert Ids(s) == Ids(s[1..]) + {s[0].id} by {
        assert s == [s[0]] + s[1..];
      }
    }
  }

  /**
   * The listing after the rows outside `remaining` have been scanned: each
   * matching scanned row decoded exactly once, newest created first.
   */
  ghost predicate ListingSoFar(t: Table, f: Filters, today: Day, result: seq<Booking>, remaining: set<BookingId>) {
    && WellFormedTable(t)
    && remaining <= t.Keys
    && Ids(result) == MatchingIds(t, f, today) - remaining
    && |result| == |Ids(result)|
    && (forall b :: b in result ==> b.id in t && b == MapRowToBooking(t[b.id]))
    && NewestFirst(result)
  }

  /** Scanning one more row keeps `ListingSoFar`. */
  lemma ListingStep(t: Table, f: Filters, today: Day, result: seq<Booking>, remaining: set<BookingId>, id: BookingId)
    requires ListingSoFar(t, f, today, result, remaining) && id in remaining
    ensures Matches(t[id], f, today) ==>
      ListingSoFar(t, f, today, InsertNewestFirst(result, MapRowToBooking(t[id])), remaining - {id})
    ensures !Matches(t[id], f, today) ==> ListingSoFar(t, f, today, result, remaining - {id})
  {
    var booking := MapRowToBooking(t[id]);
    InsertNewestFirstIds(result, booking);
    InsertKeepsNewestFirst(result, booking);
  }

  /** The days from `from` on that some booking among `ids` holds. */
  function HeldDays(t: Table, ids: set<BookingId>, from: Day): set<Day> {
    set id | id in ids && id in t && Holding(t[id]) && t[id].client_selected_date >= from
      :: t[id].client_selected_date
  }

  /** After scanning the rows outside `remaining`: their held days, each once. */
  ghost predicate DatesSoFar(t: Table, today: Day, dates: seq<Day>, remaining: set<BookingId>) {
    && remaining <= t.Keys
    && (forall d :: d in dates <==> d in HeldDays(t, t.Keys - remaining, today))
    && (forall i, j :: 0 <= i < j < |dates| ==> dates[i] != dates[j])
  }

  /** Scanning one more row keeps `DatesSoFar`. */
  lemma DatesStep(t: Table, today: Day, dates: seq<Day>, remaining: set<BookingId>, id: BookingId)
    requires DatesSoFar(t, today, dates, remaining) && id in remaining
    ensures var day := t[id].client_selected_date;
      if Holding(t[id]) && day >= today && day !in dates
      then DatesSoFar(t, today, dates + [day], remaining - {id})
      else DatesSoFar(t, today, dates, remaining - {id})
  {
    var day := t[id].client_selected_date;
    var before := HeldDays(t, t.Keys - remaining, today);
    var after := HeldDays(t, t.Keys - (remaining - {id}), today);
    if Holding(t[id]) && day >= today {
      assert after == before + {day};
    } else {
      assert after == before;
    }
  }

  /** The held days of the whole table are exactly the unavailable days from `from` on. */
  lemma HeldDaysAreUnavailable(t: Table, from: Day)
    ensures forall d :: d in HeldDays(t, t.Keys, from) <==> d >= from && !DateAvailable(t, d)
  {
    forall d ensures d in HeldDays(t, t.Keys, from) <==> d >= from && !DateAvailable(t, d) {
      if d >= from && !DateAvailable(t, d) {
        var id :| id in HoldersOf(t, d);
        assert id in t.Keys;
      }
      if d in HeldDays(t, t.Keys, from) {
        var id :| id in t.Keys && Holding(t[id]) && t[id].client_selected_date >= from && t[id].client_selected_date == d;
        assert id in HoldersOf(t, d);
      }
    }
  }

  /** The query of `isDateAvailable`: active pending or confirmed bookings on a day. */
  function HeldOnQuery(day: Day): (query: seq<Clause>)
    ensures forall row :: Selects(query, row) <==> Holding(row) && row.client_selected_date == day
  {
    Where(Where(Where([], DateEq(day)), DeletedAtIsNull), StatusIn(HOLDING_STATUSES))
  }

  /** The query of `getUnavailableDates`: active pending or confirmed bookings from a day on. */
  function HeldFromQuery(from: Day): (query: seq<Clause>)
    ensures forall row :: Selects(query, row) <==> Holding(row) && row.client_selected_date >= from
  {
    Where(Where(Where([], DateGte(from)), DeletedAtIsNull), StatusIn(HOLDING_STATUSES))
  }

  /** A day is free exactly when no booking on it holds it. */
  lemma AvailableIffNoHolder(t: Table, day: Day)
    ensures DateAvailable(t, day) <==> forall id :: id in t && t[id].client_selected_date == day ==> !Holding(t[id])
  {
    forall id | id in t && t[id].client_selected_date == day && Holding(t[id])
      ensures !DateAvailable(t, day)
    {
      assert id in HoldersOf(t, day);
    }
  }

  /** A table of bookings together with the id generator the database uses. */
  class BookingStore {
    var rows: Table
    var nextId: nat

    predicate Valid()
      reads this
    {
      WellFormedTable(rows) && forall id :: id in rows ==> id < nextId
    }

    constructor ()
      ensures Valid() && rows == map[] && nextId == 0
    {
      rows := map[];
      nextId := 0;
    }

    /**
     * `createBooking`: inserts the input's columns under a fresh id, with
     * both timestamps set to `now`, and returns the stored row decoded.
     */
    method CreateBooking(input: BookingInput, now: Timestamp) returns (booking: Booking)
      requires Valid()
      modifies this
      ensures Valid()
      ensures booking.id == old(nextId) && booking.id !in old(rows) && nextId == old(nextId) + 1
      ensures rows == old(rows)[booking.id := InsertedRow(booking.id, MapBookingToInsert(input), now, now)]
      ensures InputOf(booking) == input
      ensures booking.createdAt == now && booking.updatedAt == now && booking.deletedAt.None?
    {
      var insertData := MapBookingToInsert(input);
      var id := nextId;
      var row := InsertedRow(id, insertData, now, now);
      InsertDecodeRoundTrip(input, id, now, now);
      rows := rows[id := row];
      nextId := nextId + 1;
      booking := MapRowToBooking(row);
    }

    /** `getBookingById`: the active booking with this id, or null. */
    function GetBookingById(id: BookingId): (r: Option<Booking>)
      requires Valid()
      reads this
      ensures r.Some? <==> id in rows && Active(rows[id])
      ensures r.Some? ==> r.value.id == id && r.value.deletedAt.None?
      ensures r.Some? ==> forall f :: InputCell(InputOf(r.value), f) == RowCell(rows[id], f)
    {
      var found := FindActive(rows, id);
      if found.Some? then Some(MapRowToBooking(found.value)) else None
    }

    /**
     * The query `getAllBookings` builds, clause by clause: the active rows,
     * then each filter that is set.
     */
    static method ListingQuery(filters: Filters, today: Day) returns (query: seq<Clause>)
      ensures forall row :: Selects(query, row) <==> Matches(row, filters, today)
    {
      query := Where([], DeletedAtIsNull);
      ghost var q0 := query;
      if filters.status.Some? {
        query := Where(query, StatusEq(StatusText(filters.status.value)));
      }
      ghost var q1 := query;
      if filters.paymentStatus.Some? {
        query := Where(query, PaymentStatusEq(PaymentStatusText(filters.paymentStatus.value)));
      }
      ghost var q2 := query;
      if filters.future.Some? {
        if filters.future.value {
          query := Where(query, DateGte(today));
        } else {
          query := Where(query, DateLt(today));
        }
      }
      ghost var q3 := query;
      if filters.past.Some? {
        if filters.past.value {
          query := Where(query, DateLt(today));
        } else {
          query := Where(query, DateGte(today));
        }
      }
      ghost var q4 := query;
      if filters.dateRange.Some? {
        query := Where(Where(query, DateGte(filters.dateRange.value.start)), DateLt(filters.dateRange.value.end));
      }
      ListingStages(filters, today, q0, q1, q2, q3, q4, query);
    }

    /**
     * `getAllBookings`: every active booking that meets the filters, each once,
     * decoded from its row, newest created first.
     */
    method GetAllBookings(filters: Filters, today: Day) returns (result: seq<Booking>)
      requires Valid()
      ensures Ids(result) == MatchingIds(rows, filters, today)
      ensures |result| == |Ids(result)|
      ensures forall b :: b in result ==> b.id in rows && b == MapRowToBooking(rows[b.id])
      ensures NewestFirst(result)
    {
      var query := ListingQuery(filters, today);
      result := [];
      var remaining := rows.Keys;
      while remaining != {}
        invariant ListingSoFar(rows, filters, today, result, remaining)
        decreases |remaining|
      {
        var id :| id in remaining;
        ListingStep(rows, filters, today, result, remaining, id);
        if Selects(query, rows[id]) {
          var booking := MapRowToBooking(rows[id]);
          result := InsertNewestFirst(result, booking);
        }
        remaining := remaining - {id};
      }
    }

    /**
     * `isDateAvailable`: no active pending or confirmed booking is on the
     * calendar day of `date` (the part of its ISO text before "T").
     */
    function IsDateAvailable(date: Instant): (available: bool)
      requires Valid()
      reads this
      ensures available <==> forall id :: id in rows && rows[id].client_selected_date == date.day ==> !Holding(rows[id])
      ensures available <==> DateAvailable(rows, date.day)
    {
      var query := HeldOnQuery(date.day);
      AvailableIffNoHolder(rows, date.day);
      forall id | id in rows :: !Selects(query, rows[id])
    }

    /**
     * `getUnavailableDates`: collects, each once and in the order first met,
     * the days from today on that some active pending or confirmed booking holds.
     */
    method GetUnavailableDates(today: Day) returns (dates: seq<Day>)
      requires Valid()
      ensures forall d :: d in dates <==> d >= today && !DateAvailable(rows, d)
      ensures forall i, j :: 0 <= i < j < |dates| ==> dates[i] != dates[j]
    {
      var query := HeldFromQuery(today);
      dates := [];
      var remaining := rows.Keys;
      while remaining != {}
        invariant DatesSoFar(rows, today, dates, remaining)
        decreases |remaining|
      {
        var id :| id in remaining;
        var row := rows[id];
        DatesStep(rows, today, dates, remaining, id);
        if Selects(query, row) && row.client_selected_date !in dates {
          dates := dates + [row.client_selected_date];
        }
        remaining := remaining - {id};
      }
      HeldDaysAreUnavailable(rows, today);
    }

    /**
     * `updateBooking`: on an active row writes exactly the patch's columns and
     * returns the new row decoded; on a missing or deleted id changes nothing
     * and returns null.
     */
    method UpdateBooking(id: BookingId, patch: BookingPatch) returns (r: Option<Booking>)
      requires Valid()
      modifies this
      ensures Valid() && nextId == old(nextId)
      ensures rows == Update(old(rows), id, patch).0
      ensures r.Some? <==> Update(old(rows), id, patch).1.Some?
      ensures r.Some? ==> r.value == MapRowToBooking(rows[id])
    {
      var updateData := MapBookingPatchToUpdate(patch);
      var found := FindActive(rows, id);
      if found.None? {
        return None;
      }
      var row := ApplyUpdate(found.value, updateData);
      PatchKeepsRowWellFormed(found.value, patch);
      rows := rows[id := row];
      r := Some(MapRowToBooking(row));
    }

    /**
     * `deleteBooking`: tombstones an active row with `now` and answers true;
     * a missing or already deleted id changes nothing and answers false.
     */
    method DeleteBooking(id: BookingId, now: Timestamp) returns (deleted: bool)
      requires Valid()
      modifies this
      ensures Valid() && nextId == old(nextId)
      ensures (rows, deleted) == SoftDelete(old(rows), id, now)
    {
      if FindActive(rows, id).None? {
        return false;
      }
      rows := rows[id := rows[id].(deleted_at := Some(now))];
      deleted := true;
    }
  }

  /**
   * The clauses `getAllBookings` adds one filter at a time: each stage keeps
   * the rows of the previous one that meet that filter.
   */
  lemma {:induction false} ListingStages(f: Filters, today: Day, q0: seq<Clause>, q1: seq<Clause>, q2: seq<Clause>,
                                         q3: seq<Clause>, q4: seq<Clause>, q5: seq<Clause>)
    requires forall row :: Selects(q0, row) <==> Active(row)
    requires q1 == if f.status.Some? then Where(q0, StatusEq(StatusText(f.status.value))) else q0
    requires q2 == if f.paymentStatus.Some? then Where(q1, PaymentStatusEq(PaymentStatusText(f.paymentStatus.value))) else q1
    requires q3 == if f.future.Some? then Where(q2, if f.future.value then DateGte(today) else DateLt(today)) else q2
    requires q4 == if f.past.Some? then Where(q3, if f.past.value then DateLt(today) else DateGte(today)) else q3
    requires q5 == if f.dateRange.Some? then Where(Where(q4, DateGte(f.dateRange.value.start)), DateLt(f.dateRange.value.end)) else q4
    ensures forall row :: Selects(q5, row) <==> Matches(row, f, today)
  {
    forall row ensures Selects(q5, row) <==> Matches(row, f, today) {
      assert Selects(q1, row) <==> Selects(q0, row) && StatusOk(row, f);
      assert Selects(q2, row) <==> Selects(q1, row) && PaymentStatusOk(row, f);
      assert Selects(q3, row) <==> Selects(q2, row) && FutureOk(row, f, today);
      assert Selects(q4, row) <==> Selects(q3, row) && PastOk(row, f, today);
      assert Selects(q5, row) <==> Selects(q4, row) && RangeOk(row, f);
    }
  }

  /** Chaining one more condition onto a query: a row must satisfy both. */
  function Where(query: seq<Clause>, c: Clause): (r: seq<Clause>)
    ensures forall row :: Selects(r, row) <==> Selects(query, row) && Holds(row, c)
  {
    var r := query + [c];
    assert forall row :: Selects(r, row) ==> Holds(row, c) by {
      forall row | Selects(r, row) ensures Holds(row, c) {
        assert r[|query|] == c;
      }
    }
    assert forall row :: Selects(r, row) ==> Selects(query, row) by {
      forall row | Selects(r, row) ensures Selects(query, row) {
        forall i | 0 <= i < |query| ensures Holds(row, query[i]) {
          assert r[i] == query[i];
        }
      }
    }
    r
  }

  /** `future = b` keeps the same bookings as `past = !b`. */
  lemma {:induction false} FutureIsNotPast(t: Table, f: Filters, today: Day, b: bool)
    ensures MatchingIds(t, f.(future := Some(b), past := None), today)
         == MatchingIds(t, f.(future := None, past := Some(!b)), today)
  {
    var g := f.(future := Some(b), past := None);
    var h := f.(future := None, past := Some(!b));
    forall id | id in t ensures Matches(t[id], g, today) <==> Matches(t[id], h, today) {
      assert FutureOk(t[id], g, today) <==> PastOk(t[id], h, today);
    }
  }

  /** Asking for future and past bookings at once (both true, or both false) finds none. */
  lemma {:induction false} FutureAndPastExclude(t: Table, f: Filters, today: Day, b: bool)
    requires f.future == Some(b) && f.past == Some(b)
    ensures MatchingIds(t, f, today) == {}
  {
    forall id | id in t ensures !Matches(t[id], f, today) {
      assert FutureOk(t[id], f, today) ==> !PastOk(t[id], f, today);
    }
  }

  /** A date range alone keeps exactly the active bookings with `start <= day < end`. */
  lemma {:induction false} DateRangeExact(t: Table, start: Day, end: Day, today: Day)
    ensures MatchingIds(t, NO_FILTERS.(dateRange := Some(DateRange(start, end))), today)
         == set id | id in t && Active(t[id]) && start <= t[id].client_selected_date < end
  {
    var f := NO_FILTERS.(dateRange := Some(DateRange(start, end)));
    forall id | id in t
      ensures Matches(t[id], f, today) <==> Active(t[id]) && start <= t[id].client_selected_date < end
    {
      assert RangeOk(t[id], f) <==> start <= t[id].client_selected_date < end;
    }
  }

  /** Every filter narrows the listing: it never returns a deleted booking. */
  lemma {:induction false} ListingOnlyActive(t: Table, f: Filters, today: Day, id: BookingId)
    requires id in MatchingIds(t, f, today)
    ensures id in t && Active(t[id]) && FindActive(t, id).Some?
  {
  }

  /**
   * A second delete of the same id answers false and changes nothing,
   * whatever the clock says.
   */
  lemma {:induction false} SoftDeleteIdempotent(t: Table, id: BookingId, now: Timestamp, later: Timestamp)
    ensures SoftDelete(SoftDelete(t, id, now).0, id, later) == (SoftDelete(t, id, now).0, false)
  {
    var t1 := SoftDelete(t, id, now).0;
    assert FindActive(t1, id).None?;
  }

  /**
   * After a delete the booking is invisible to every read: lookup, listing
   * and availability; its row stays in the table with the tombstone, and
   * every other row is unchanged.
   */
  lemma {:induction false} SoftDeleteHides(t: Table, id: BookingId, now: Timestamp, f: Filters, today: Day, day: Day)
    ensures var t1 := SoftDelete(t, id, now).0;
      && FindActive(t1, id).None?
      && MatchingIds(t1, f, today) == MatchingIds(t, f, today) - {id}
      && HoldersOf(t1, day) == HoldersOf(t, day) - {id}
      && (id in t ==> t1[id] == t[id].(deleted_at := t1[id].deleted_at) && t1[id].deleted_at.Some?)
      && (forall other :: other in t && other != id ==> t1[other] == t[other])
  {
    var t1 := SoftDelete(t, id, now).0;
    if id in t && Active(t[id]) {
      assert !Matches(t1[id], f, today) && !Holding(t1[id]);
    } else {
      assert id !in MatchingIds(t, f, today) && id !in HoldersOf(t, day);
    }
  }

  /**
   * `updateBooking` on a table: an active row takes exactly the patch's
   * defined fields and keeps its identity, timestamps and every other field;
   * other rows never change; a missing or deleted id changes nothing.
   */
  lemma {:induction false} UpdateChangesOnlyPatchedFields(t: Table, id: BookingId, p: BookingPatch)
    ensures var (t1, r) := Update(t, id, p);
      && (forall other :: other in t && other != id ==> t1[other] == t[other])
      && (r.None? ==> t1 == t)
      && (r.Some? ==>
            && t1[id] == r.value && r.value.id == t[id].id
            && r.value.created_at == t[id].created_at && r.value.updated_at == t[id].updated_at
            && r.value.deleted_at.None?
            && forall f :: RowCell(r.value, f) == if PatchCell(p, f).Some? then PatchCell(p, f).value else RowCell(t[id], f))
  {
  }

  /** Cancelling a booking through `updateBooking` frees its date. */
  lemma {:induction false} CancelReleasesDate(t: Table, id: BookingId, p: BookingPatch, day: Day)
    requires p.status == Some(Cancelled)
    ensures HoldersOf(Update(t, id, p).0, day) == HoldersOf(t, day) - {id}
  {
    var t1 := Update(t, id, p).0;
    if FindActive(t, id).Some? {
      assert RowCell(t1[id], Status) == Text("cancelled");
      assert !Holding(t1[id]);
    } else {
      assert id !in HoldersOf(t, day);
    }
  }
}

=== FILE: tour_filters.dfy ===
/**
 * The tours page filter state: a search text, a list of selected
 * locations and a duration bucket, read from the page's query parameters
 * and changed by the filter controls; and the list of tours they let
 * through.
 */
module TourFilters {
  import opened Common
  import opened SearchParams
  import Cms
  import ToursApi

  /** The selected locations can be read back from a comma-separated `location` parameter. */
  const LOCATION_SEPARATOR: char := ','

  /** The tour's title contains the query, both lower-cased. */
  predicate SearchMatches(t: Cms.Tour, query: string) {
    Includes(ToLower(t.title), ToLower(query))
  }

  /** No location is selected, or one of the tour's location documents has a selected value. */
  predicate LocationMatches(t: Cms.Tour, selected: seq<string>) {
    |selected| == 0 ||
    exists i, j :: 0 <= i < |selected| && 0 <= j < |t.locations| && t.locations[j].value == selected[i]
  }

  /** The hook's own duration buckets. */
  predicate DurationMatches(selected: string, duration: real) {
    selected == "all" ||
    (selected == "short" && duration <= 4.0) ||
    (selected == "medium" && duration > 4.0 && duration <= 7.0) ||
    (selected == "long" && duration > 7.0)
  }

  /** The hook and the server-side filter put every duration in the same bucket. */
  lemma DurationRulesAgree(selected: string, duration: real)
    ensures DurationMatches(selected, duration) == ToursApi.DurationMatches(selected, duration)
  {
  }

  predicate TourShown(t: Cms.Tour, query: string, selected: seq<string>, duration: string) {
    SearchMatches(t, query) && LocationMatches(t, selected) && DurationMatches(duration, t.duration)
  }

  /** `filteredTours`: the tours passing the three tests, in their original order. */
  function FilteredTours(tours: seq<Cms.Tour>, query: string, selected: seq<string>, duration: string): (r: seq<Cms.Tour>)
    ensures Subsequence(r, tours)
    ensures forall t :: t in r <==> t in tours && TourShown(t, query, selected, duration)
  {
    Filter(tours, (t: Cms.Tour) => TourShown(t, query, selected, duration))
  }

  /** `hasActiveFilters`: some control differs from its cleared value. */
  predicate HasActiveFilters(query: string, selected: seq<string>, duration: string) {
    query != "" || |selected| > 0 || duration != "all"
  }

  /** Without an active filter every tour is shown. */
  lemma {:induction false} InactiveFiltersShowAll(tours: seq<Cms.Tour>, query: string, selected: seq<string>, duration: string)
    requires !HasActiveFilters(query, selected, duration)
    ensures FilteredTours(tours, query, selected, duration) == tours
  {
    forall t | t in tours ensures TourShown(t, query, selected, duration) {
      IncludesEmpty(ToLower(t.title));
    }
    FilterKeepsAll(tours, (t: Cms.Tour) => TourShown(t, query, selected, duration));
  }

  /** `getDurationLabel`. */
  function DurationLabel(duration: string): (text: string)
    ensures duration != "short" && duration != "medium" && duration != "long" ==> text == "All Durations"
    ensures duration == "short" <==> text == "Short (≤4h)"
    ensures duration == "medium" <==> text == "Medium (5-7h)"
    ensures duration == "long" <==> text == "Long (8+h)"
  {
    if duration == "short" then "Short (≤4h)"
    else if duration == "medium" then "Medium (5-7h)"
    else if duration == "long" then "Long (8+h)"
    else "All Durations"
  }

  /** The initial search text: the `search` parameter, or "" when it is missing or empty. */
  function InitialSearch(params: Params): (q: string)
    ensures ParamGet(params, "search").Some? ==> q == ParamGet(params, "search").value
    ensures ParamGet(params, "search").None? ==> q == ""
  {
    match ParamGet(params, "search")
    case Some(s) => s
    case None => ""
  }

  /**
   * The initial locations: the comma-separated parts of a non-empty
   * `location` parameter that are known locations, in order.
   */
  function InitialLocations(params: Params, locations: seq<string>): (r: seq<string>)
    ensures forall l :: l in r ==> l in locations
    ensures ParamGet(params, "location").Some? && ParamGet(params, "location").value != "" ==>
      Subsequence(r, Split(ParamGet(params, "location").value, LOCATION_SEPARATOR)) &&
      forall l :: l in Split(ParamGet(params, "location").value, LOCATION_SEPARATOR) && l in locations ==> l in r
    ensures ParamGet(params, "location").None? || ParamGet(params, "location").value == "" ==> r == []
  {
    match ParamGet(params, "location")
    case Some(s) =>
      if s != "" then Filter(Split(s, LOCATION_SEPARATOR), (l: string) => l in locations) else []
    case None => []
  }

  /** The initial duration: the `duration` parameter, or "all" when it is missing or empty. */
  function InitialDuration(params: Params): (d: string)
    ensures ParamGet(params, "duration").Some? && ParamGet(params, "duration").value != "" ==>
      d == ParamGet(params, "duration").value
    ensures ParamGet(params, "duration").None? || ParamGet(params, "duration").value == "" ==> d == "all"
  {
    match ParamGet(params, "duration")
    case Some(s) => if s != "" then s else "all"
    case None => "all"
  }

  /** The list without any occurrence of `x`, the rest in order. */
  function Without(xs: seq<string>, x: string): (r: seq<string>)
    ensures x !in r
    ensures Subsequence(r, xs)
    ensures forall y :: y != x ==> (y in r <==> y in xs)
  {
    Filter(xs, (y: string) => y != x)
  }

  /** Removing an absent value changes nothing. */
  lemma {:induction false} WithoutAbsent(xs: seq<string>, x: string)
    requires x !in xs
    ensures Without(xs, x) == xs
  {
    FilterKeepsAll(xs, (y: string) => y != x);
  }

  /** Removing a value just appended to a list without it gives back that list. */
  lemma {:induction false} WithoutAppended(xs: seq<string>, x: string)
    requires x !in xs
    ensures Without(xs + [x], x) == xs
  {
    if xs == [] {
      assert xs + [x] == [x];
      assert [x][1..] == [];
    } else {
      assert (xs + [x])[0] == xs[0];
      assert (xs + [x])[1..] == xs[1..] + [x];
      WithoutAppended(xs[1..], x);
      assert [xs[0]] + xs[1..] == xs;
    }
  }

  /** A selected location is removed, an unselected one appended at the end. */
  function Toggled(xs: seq<string>, x: string): (r: seq<string>)
    ensures x in r <==> x !in xs
    ensures x !in xs ==> r == xs + [x]
    ensures forall y :: y != x ==> (y in r <==> y in xs)
  {
    if x in xs then Without(xs, x) else xs + [x]
  }

  /** Toggling an unselected location twice restores the selection. */
  lemma {:induction false} ToggleTwice(xs: seq<string>, x: string)
    requires x !in xs
    ensures Toggled(Toggled(xs, x), x) == xs
  {
    WithoutAppended(xs, x);
  }

  /** The filter state of the tours page. */
  class TourFilterState {
    var searchQuery: string
    var selectedLocations: seq<string>
    var selectedDuration: string

    /** The state read from the query parameters of the page's address. */
    constructor(params: Params, locations: seq<string>)
      ensures searchQuery == InitialSearch(params)
      ensures selectedLocations == InitialLocations(params, locations)
      ensures selectedDuration == InitialDuration(params)
    {
      searchQuery := InitialSearch(params);
      selectedLocations := InitialLocations(params, locations);
      selectedDuration := InitialDuration(params);
    }

    /** `hasActiveFilters` of the current state. */
    predicate Active()
      reads this
    {
      HasActiveFilters(searchQuery, selectedLocations, selectedDuration)
    }

    method SetSearchQuery(query: string)
      modifies this
      ensures searchQuery == query
      ensures selectedLocations == old(selectedLocations) && selectedDuration == old(selectedDuration)
    {
      searchQuery := query;
    }

    method SetSelectedDuration(duration: string)
      modifies this
      ensures selectedDuration == duration
      ensures searchQuery == old(searchQuery) && selectedLocations == old(selectedLocations)
    {
      selectedDuration := duration;
    }

    /** `toggleLocation`. */
    method ToggleLocation(location: string)
      modifies this
      ensures selectedLocations == Toggled(old(selectedLocations), location)
      ensures searchQuery == old(searchQuery) && selectedDuration == old(selectedDuration)
    {
      if location in selectedLocations {
        selectedLocations := Without(selectedLocations, location);
      } else {
        selectedLocations := selectedLocations + [location];
      }
    }

    /** `removeLocation`: no occurrence is left, the others keep their order. */
    method RemoveLocation(location: string)
      modifies this
      ensures selectedLocations == Without(old(selectedLocations), location)
      ensures location !in old(selectedLocations) ==> selectedLocations == old(selectedLocations)
      ensures searchQuery == old(searchQuery) && selectedDuration == old(selectedDuration)
    {
      if location !in selectedLocations {
        WithoutAbsent(selectedLocations, location);
      }
      selectedLocations := Without(selectedLocations, location);
    }

    /** `clearFilters`: afterwards no filter is active. */
    method ClearFilters()
      modifies this
      ensures searchQuery == "" && selectedLocations == [] && selectedDuration == "all"
      ensures !Active()
    {
      searchQuery := "";
      selectedLocations := [];
      selectedDuration := "all";
    }
  }
}

=== FILE: tours.dfy ===
/**
 * The static tour catalogue: the known locations, the eight tours and the
 * lookup by id. The same record shape is the tour of the legacy gallery.
 */
module Tours {
  import opened Common

  /** A catalogue tour, reduced to the fields the filters, forms and bookings read. */
  datatype Tour = Tour(id: string, title: string, duration: real, price: real, locations: seq<string>)

  /** The locations a catalogue tour may visit. */
  const LOCATIONS: seq<string> := [
    "Lisbon", "Alfama", "Belém", "Baixa", "Sintra", "Cascais",
    "Óbidos", "Nazaré", "Setúbal", "Arrábida", "Bairro Alto", "Cabo da Roca"
  ]

  /** The catalogue, in its declaration order. */
  const TOURS: seq<Tour> := [
    Tour("historic-lisbon", "Historic Lisbon Experience", 4.0, 120.0, ["Lisbon", "Alfama", "Baixa", "Belém"]),
    Tour("sintra-cascais", "Sintra & Cascais Full Day", 8.0, 200.0, ["Sintra", "Cascais", "Cabo da Roca"]),
    Tour("lisbon-night-tour", "Lisbon by Night", 3.0, 90.0, ["Lisbon", "Bairro Alto", "Baixa"]),
    Tour("obidos-nazare", "Óbidos & Nazaré Day Trip", 7.0, 180.0, ["Óbidos", "Nazaré"]),
    Tour("lisbon-food-tour", "Lisbon Food & Market Tour", 4.0, 110.0, ["Lisbon", "Baixa"]),
    Tour("arrabida-setubal", "Arrábida & Setúbal Wine Tour", 6.0, 160.0, ["Arrábida", "Setúbal"]),
    Tour("fatima-tour", "Fátima Pilgrimage Tour", 5.0, 140.0, ["Óbidos"]),
    Tour("evora-alentejo", "Évora & Alentejo Wine Region", 9.0, 220.0, ["Lisbon"])
  ]

  /** `Array.prototype.find` by id: the first tour in list order with this id. */
  function FindById(ts: seq<Tour>, id: string): (r: Option<Tour>)
    ensures r.None? <==> forall i :: 0 <= i < |ts| ==> ts[i].id != id
    ensures r.Some? ==> exists i :: 0 <= i < |ts| && ts[i] == r.value && r.value.id == id &&
                                    forall j :: 0 <= j < i ==> ts[j].id != id
  {
    if ts == [] then None
    else if ts[0].id == id then Some(ts[0])
    else
      var rest := FindById(ts[1..], id);
      assert rest.Some? ==> exists i :: 0 <= i < |ts| && ts[i] == rest.value && rest.value.id == id &&
                                        forall j :: 0 <= j < i ==> ts[j].id != id by {
        if rest.Some? {
          var i :| 0 <= i < |ts[1..]| && ts[1..][i] == rest.value && rest.value.id == id &&
                   forall j :: 0 <= j < i ==> ts[1..][j].id != id;
          assert ts[i + 1] == rest.value;
          forall j | 0 <= j < i + 1 ensures ts[j].id != id {
            if j > 0 {
              assert ts[j] == ts[1..][j - 1];
            }
          }
        }
      }
      assert rest.None? ==> forall i :: 0 <= i < |ts| ==> ts[i].id != id by {
        if rest.None? {
          forall i | 0 <= i < |ts| ensures ts[i].id != id {
            if i > 0 {
              assert ts[i] == ts[1..][i - 1];
            }
          }
        }
      }
      rest
  }

  /** `getTourById`: the catalogue tour with this id, if any. */
  function GetTourById(id: string): (r: Option<Tour>)
    ensures r.Some? ==> r.value in TOURS && r.value.id == id
    ensures r.None? <==> forall i :: 0 <= i < |TOURS| ==> TOURS[i].id != id
  {
    FindById(TOURS, id)
  }

  /** The first character and the length of each id: enough to tell the catalogue's ids apart. */
  function IdShapes(ts: seq<Tour>): (shapes: seq<(char, nat)>)
    requires forall i :: 0 <= i < |ts| ==> ts[i].id != ""
    ensures |shapes| == |ts|
    ensures forall i :: 0 <= i < |ts| ==> shapes[i] == (ts[i].id[0], |ts[i].id|)
  {
    if ts == [] then [] else [(ts[0].id[0], |ts[0].id|)] + IdShapes(ts[1..])
  }

  /** No two catalogue tours share an id, so the lookup is unambiguous. */
  lemma TourIdsDistinct()
    ensures forall i, j :: 0 <= i < j < |TOURS| ==> TOURS[i].id != TOURS[j].id
  {
    var shapes := IdShapes(TOURS);
    assert shapes == [('h', 15), ('s', 14), ('l', 17), ('o', 13), ('l', 16), ('a', 16), ('f', 11), ('e', 14)];
    forall i, j | 0 <= i < j < |TOURS| ensures TOURS[i].id != TOURS[j].id {
      assert shapes[i] != shapes[j];
    }
  }

  /** Because ids are distinct, the tour found for an id is the only one with it. */
  lemma {:induction false} GetTourByIdUnique(id: string, t: Tour)
    requires t in TOURS && t.id == id
    ensures GetTourById(id) == Some(t)
  {
    TourIdsDistinct();
    var r := GetTourById(id);
    assert r.Some?;
    var i :| 0 <= i < |TOURS| && TOURS[i] == t;
    var k :| 0 <= k < |TOURS| && TOURS[k] == r.value;
    if i != k {
      if i < k {
        assert TOURS[i].id != TOURS[k].id;
      } else {
        assert TOURS[k].id != TOURS[i].id;
      }
    }
  }

  /** Every location a catalogue tour visits is one of the known locations. */
  lemma TourLocationsKnown()
    ensures forall t, l :: t in TOURS && l in t.locations ==> l in LOCATIONS
  {
    forall t, l | t in TOURS && l in t.locations ensures l in LOCATIONS {
      var i :| 0 <= i < |TOURS| && TOURS[i] == t;
      assert i < 8;
    }
  }

  /** The historic Lisbon tour costs 120. */
  lemma HistoricLisbonPrice()
    ensures GetTourById("historic-lisbon").Some?
    ensures GetTourById("historic-lisbon").value.price == 120.0
  {
    GetTourByIdUnique("historic-lisbon", TOURS[0]);
  }
}

=== FILE: tours_api.dfy ===
/**
 * The tour data layer: the list of tours and the server-side filter by
 * search text, selected locations and duration bucket.
 */
module ToursApi {
  import opened Common
  import opened Tours

  /** The duration buckets a filter can select; any other text selects nothing. */
  const ALL_DURATIONS: string := "all"
  const SHORT: string := "short"
  const MEDIUM: string := "medium"
  const LONG: string := "long"

  /** `fetchTours`: the static catalogue as it is. */
  function FetchTours(): (r: seq<Tour>)
    ensures |r| == 8
    ensures forall i :: 0 <= i < |r| ==> r[i] == TOURS[i]
  {
    TOURS
  }

  /** The title contains the query, both lower-cased. */
  predicate SearchMatches(title: string, query: string) {
    Includes(ToLower(title), ToLower(query))
  }

  /** No location is selected, or the tour visits one of the selected ones. */
  predicate LocationMatches(tourLocations: seq<string>, selected: seq<string>) {
    |selected| == 0 || exists i :: 0 <= i < |selected| && selected[i] in tourLocations
  }

  /** short: at most 4 hours; medium: more than 4 and at most 7; long: more than 7. */
  predicate DurationMatches(selected: string, duration: real) {
    selected == ALL_DURATIONS ||
    (selected == SHORT && duration <= 4.0) ||
    (selected == MEDIUM && duration > 4.0 && duration <= 7.0) ||
    (selected == LONG && duration > 7.0)
  }

  predicate TourMatches(t: Tour, query: string, selected: seq<string>, duration: string) {
    SearchMatches(t.title, query) && LocationMatches(t.locations, selected) && DurationMatches(duration, t.duration)
  }

  /**
   * `filterTours`: the tours passing all three tests, in their original
   * order.
   */
  function FilterTours(tours: seq<Tour>, query: string, selected: seq<string>, duration: string): (r: seq<Tour>)
    ensures Subsequence(r, tours)
    ensures forall t :: t in r <==> t in tours && TourMatches(t, query, selected, duration)
  {
    Filter(tours, (t: Tour) => TourMatches(t, query, selected, duration))
  }

  /** With an empty query, no location and every duration, the filter keeps every tour. */
  lemma {:induction false} FilterToursIdentity(tours: seq<Tour>)
    ensures FilterTours(tours, "", [], ALL_DURATIONS) == tours
  {
    forall t | t in tours ensures TourMatches(t, "", [], ALL_DURATIONS) {
      IncludesEmpty(ToLower(t.title));
    }
    FilterKeepsAll(tours, (t: Tour) => TourMatches(t, "", [], ALL_DURATIONS));
  }

  /** Every duration lies in exactly one of the short, medium and long buckets. */
  lemma DurationBucketsPartition(d: real)
    ensures DurationMatches(SHORT, d) || DurationMatches(MEDIUM, d) || DurationMatches(LONG, d)
    ensures !(DurationMatches(SHORT, d) && DurationMatches(MEDIUM, d))
    ensures !(DurationMatches(SHORT, d) && DurationMatches(LONG, d))
    ensures !(DurationMatches(MEDIUM, d) && DurationMatches(LONG, d))
  {
  }

  /** A duration text other than the four known ones keeps no tour at all. */
  lemma {:induction false} UnknownDurationKeepsNone(tours: seq<Tour>, query: string, selected: seq<string>, duration: string)
    requires duration != ALL_DURATIONS && duration != SHORT && duration != MEDIUM && duration != LONG
    ensures FilterTours(tours, query, selected, duration) == []
  {
    FilterKeepsNone(tours, (t: Tour) => TourMatches(t, query, selected, duration));
  }

  /** Lower-casing is idempotent. */
  lemma {:induction false} ToLowerIdempotent(s: string)
    ensures ToLower(ToLower(s)) == ToLower(s)
  {
    forall i | 0 <= i < |s| ensures LowerChar(LowerChar(s[i])) == LowerChar(s[i]) {
      var c := s[i];
      if 'A' <= c <= 'Z' || ('\U{00C0}' <= c <= '\U{00DE}' && c != '\U{00D7}') {
        assert LowerChar(c) as int == c as int + 32;
      }
    }
  }

  /** The search ignores the case of the query. */
  lemma {:induction false} SearchIgnoresQueryCase(title: string, query: string)
    ensures SearchMatches(title, query) <==> SearchMatches(title, ToLower(query))
  {
    ToLowerIdempotent(query);
  }
}

=== FILE: tours_filter_view.dfy ===
/**
 * The tour gallery's filter bar: an optional time filter (full day or
 * half day) and a list of selected location options, and the tours it
 * hands to the gallery whenever either changes.
 */
module ToursFilterView {
  import opened Common
  import opened Tours

  const FULL_DAY_ID: string := "full-day"
  const HALF_DAY_ID: string := "half-day"

  /** An option of a dropdown. */
  datatype DropdownOption = DropdownOption(id: string, value: string)

  /** Full day keeps tours longer than 4 hours, half day the others; any other option keeps none. */
  predicate TimeKeeps(option: DropdownOption, duration: real) {
    if option.id == FULL_DAY_ID then duration > 4.0
    else if option.id == HALF_DAY_ID then duration <= 4.0
    else false
  }

  /** The tour visits the value of some selected option. */
  predicate LocationKeeps(selected: seq<DropdownOption>, t: Tour) {
    exists i :: 0 <= i < |selected| && selected[i].value in t.locations
  }

  /** The tours a time option keeps, in order. */
  function TimeFiltered(tours: seq<Tour>, option: DropdownOption): (r: seq<Tour>)
    ensures Subsequence(r, tours)
    ensures forall t :: t in r <==> t in tours && TimeKeeps(option, t.duration)
  {
    Filter(tours, (t: Tour) => TimeKeeps(option, t.duration))
  }

  /** The tours visiting a selected location, in order. */
  function LocationFiltered(tours: seq<Tour>, selected: seq<DropdownOption>): (r: seq<Tour>)
    ensures Subsequence(r, tours)
    ensures forall t :: t in r <==> t in tours && LocationKeeps(selected, t)
  {
    Filter(tours, (t: Tour) => LocationKeeps(selected, t))
  }

  /** The full-day and half-day lists split the tours between them. */
  lemma {:induction false} TimeFiltersPartition(tours: seq<Tour>)
    ensures |TimeFiltered(tours, DropdownOption(FULL_DAY_ID, "Full Day Tour"))| +
            |TimeFiltered(tours, DropdownOption(HALF_DAY_ID, "Half Day Tour"))| == |tours|
    ensures forall t :: t in tours ==>
      (t in TimeFiltered(tours, DropdownOption(FULL_DAY_ID, "Full Day Tour")) <==>
       t !in TimeFiltered(tours, DropdownOption(HALF_DAY_ID, "Half Day Tour")))
  {
    var full := DropdownOption(FULL_DAY_ID, "Full Day Tour");
    var half := DropdownOption(HALF_DAY_ID, "Half Day Tour");
    FilterPartition(tours, (t: Tour) => TimeKeeps(full, t.duration), (t: Tour) => TimeKeeps(half, t.duration));
  }

  /** A time option that is neither full day nor half day keeps no tour. */
  lemma {:induction false} UnknownTimeKeepsNone(tours: seq<Tour>, option: DropdownOption)
    requires option.id != FULL_DAY_ID && option.id != HALF_DAY_ID
    ensures TimeFiltered(tours, option) == []
  {
    FilterKeepsNone(tours, (t: Tour) => TimeKeeps(option, t.duration));
  }

  /** The filter bar's state. */
  class ToursFilter {
    var selectedTimeFilter: Option<DropdownOption>
    var selectedLocationsFilter: seq<DropdownOption>

    /** Both filters start empty. */
    constructor()
      ensures selectedTimeFilter.None? && selectedLocationsFilter == []
      ensures !HasActiveFilters()
    {
      selectedTimeFilter := None;
      selectedLocationsFilter := [];
    }

    /** A time filter is chosen or some location is selected. */
    predicate HasActiveFilters()
      reads this
    {
      |selectedLocationsFilter| > 0 || selectedTimeFilter.Some?
    }

    /** The time dropdown's change handler. */
    method SetTimeFilter(option: Option<DropdownOption>)
      modifies this
      ensures selectedTimeFilter == option && selectedLocationsFilter == old(selectedLocationsFilter)
    {
      selectedTimeFilter := option;
    }

    /** The location dropdown's change handler. */
    method SetLocationsFilter(options: seq<DropdownOption>)
      modifies this
      ensures selectedLocationsFilter == options && selectedTimeFilter == old(selectedTimeFilter)
    {
      selectedLocationsFilter := options;
    }

    /**
     * The effect run on every change: the time filter first, then the
     * location filter, each only when set. The result is what the gallery
     * receives.
     */
    method SelectedTours(allTours: seq<Tour>) returns (filteredTours: seq<Tour>)
      ensures Subsequence(filteredTours, allTours)
      ensures forall t :: t in filteredTours <==>
        && t in allTours
        && (selectedTimeFilter.Some? ==> TimeKeeps(selectedTimeFilter.value, t.duration))
        && (|selectedLocationsFilter| > 0 ==> LocationKeeps(selectedLocationsFilter, t))
      ensures !HasActiveFilters() ==> filteredTours == allTours
      ensures selectedTimeFilter.None? && |selectedLocationsFilter| > 0 ==>
        filteredTours == LocationFiltered(allTours, selectedLocationsFilter)
      ensures selectedTimeFilter.Some? && |selectedLocationsFilter| == 0 ==>
        filteredTours == TimeFiltered(allTours, selectedTimeFilter.value)
      ensures selectedTimeFilter.Some? && |selectedLocationsFilter| > 0 ==>
        filteredTours == LocationFiltered(TimeFiltered(allTours, selectedTimeFilter.value), selectedLocationsFilter)
    {
      filteredTours := allTours;
      SubsequenceRefl(allTours);
      if selectedTimeFilter.Some? {
        filteredTours := TimeFiltered(allTours, selectedTimeFilter.value);
      }
      if |selectedLocationsFilter| > 0 {
        var before := filteredTours;
        filteredTours := LocationFiltered(filteredTours, selectedLocationsFilter);
        SubsequenceTrans(filteredTours, before, allTours);
      }
    }

    /** `handleClearFilters`: afterwards the gallery receives every tour. */
    method HandleClearFilters()
      modifies this
      ensures selectedTimeFilter.None? && selectedLocationsFilter == []
      ensures !HasActiveFilters()
    {
      selectedLocationsFilter := [];
      selectedTimeFilter := None;
    }
  }
}
